=== FILE: README.md ===
# Crediário bookkeeping in Dafny

This project models the bookkeeping core of a small-shop store-credit ("crediário") tracker. It covers:

- customers who owe a principal by a due date and accrue simple daily interest once overdue;
- cash-flow transactions (payments received, money paid out) and expenses;
- a global financial summary and a per-month report;
- the display helpers: CPF and phone masks, the collection message and the WhatsApp number;
- the list stores: append, patch by id, delete by id, mark paid, search, and duplicate detection;
- the screen handlers that change the books: contact import, customer form, expense form, payment and undoing a payment;
- the local sign-up and sign-in decision.

Conventions:

- Money is `real`.
- Instants are `int` milliseconds since the epoch. A calendar date such as a due date is the instant its `YYYY-MM-DD` string parses to, which is UTC midnight.
- The clock reading, the user's answer to every `confirm()` question, the fresh ids and the local time-zone offset are parameters.

Modules, one per file:

| module | file | models |
|---|---|---|
| `Common` | common.dfy | `Option` |
| `Text` | text.dfy | the JavaScript string built-ins used: `trim`, `toLowerCase`, `includes`, `indexOf`, `replace` of the first match (with `$` patterns), `\D` stripping, `split`, `String(n)` |
| `Seqs` | seqs.dfy | generic filter-by-id, map-by-id, the `indexOf`-based de-duplication |
| `Types` | types.dfy | src/lib/types.ts |
| `Calendar` | calendar.dfy | the ECMAScript day arithmetic behind `new Date(y, m, d)` |
| `Accrual` | accrual.dfy | interest, amount due, overdue test |
| `Reports` | reports.dfy | `gerarRelatorio`, `gerarRelatorioMensal` |
| `Format` | format.dfy | masks, message template, WhatsApp number, categories |
| `Storage` | storage.dfy | src/hooks/useStorage.ts |
| `Contacts` | contacts.dfy | the line parser of `processImportedContacts` |
| `Handlers` | handlers.dfy | the page handlers |
| `Auth` | auth.dfy | `handleSubmit` of the login form |

The stored `status` keeps all three declared values. No operation ever assigns `Vencido`, and `Storage.OperacoesSemVencido` proves that none can introduce it.

The monthly report compares instants against local midnight of the first and of the last day of the month; see Findings. Updating or removing an absent id changes nothing: `Storage.AtualizarClienteSemEfeito`, `Seqs.SemIdAusente`.

## Model

| member | source | states |
|---|---|---|
| Accrual.CalcularJuros | src/lib/utils.ts:14-24 | no interest before one full day past the due instant; never negative for a non-negative principal and rate |
| Accrual.IsVencido | src/lib/utils.ts:30-34 | overdue means strictly after the due instant: the due instant itself is not overdue, an overdue debt is never a negative number of days late, one not yet overdue never a positive number |
| Accrual.VencidoPermanece | src/lib/utils.ts:14-34 | once overdue a debt stays overdue as time passes, and while not overdue it accrues no interest (the guard of `calcularJuros` is the negation of `isVencido`) |
| Accrual.JurosDiasCompletos | src/lib/utils.ts:18-21 | k whole days (plus any fraction of a day) late, the interest is principal × rate/100 × k: linear in whole days, not compounding |
| Accrual.JurosUmDiaAMais | src/lib/utils.ts:20-21 | once overdue, one more day adds exactly one day's interest |
| Accrual.JurosMonotono | src/lib/utils.ts:14-28 | interest and amount due never decrease as time passes, for a non-negative principal and rate |
| Accrual.CalcularValorTotal | src/lib/utils.ts:26-28 | the amount due is the principal before the first full day late, and never less than the principal |
| Accrual.VencidoSemJuros | src/lib/utils.ts:18-34 | during the first day after the due instant a debt is overdue yet accrues nothing; any non-zero interest implies overdue |
| Accrual.CenarioJurosDezDias | src/lib/utils.ts:14-28 | 100 at 2% a day, ten days late: interest 20, total 120 |
| Reports.GerarRelatorio | src/lib/utils.ts:36-69 | inflows are the sum of inflow transactions; net result = inflows − outflows; outflows = outflow transactions + all expenses; the expense total is the sum of the expenses given; no expense list gives zero expenses and an empty table; the category table has distinct keys that are exactly the categories that occur, and its values sum to the expense total; overdue ≤ active |
| Reports.RelatorioVazio | src/lib/utils.ts:36-69 | no customers, transactions or expenses: every figure is zero |
| Reports.RelatorioNovaTransacao | src/lib/utils.ts:37-43 | one more transaction moves only the total of its own type, by its amount, and the net result with it |
| Reports.RelatorioNovaDespesa | src/lib/utils.ts:45-61 | one more expense adds its amount to the expense total, to its category's entry and to the outflows |
| Reports.RelatorioNovoCliente | src/lib/utils.ts:46-52 | one more active customer adds one to the active count, what it owes now (`calcularValorTotal`) to the outstanding credit, and one to the overdue count exactly when `isVencido` holds; no other figure moves |
| Reports.CreditoIgnoraPagos | src/lib/utils.ts:47-52 | a customer whose stored status is not `ativo` (paid or overdue) changes no customer figure (active count, overdue count, outstanding credit) |
| Reports.CenarioEntradaSaidaDespesa | src/lib/utils.ts:36-69 | inflow 500, outflow 200, expense 50: inflows 500, outflows 250, net 250 |
| Reports.PorCategoria | src/lib/utils.ts:54-57 | the category table: distinct keys, a key iff the category occurs, each entry the sum of that category's expenses, values summing to the expense total |
| Reports.ContaVencidos | src/lib/utils.ts:48 | overdue active customers never outnumber active customers |
| Reports.SomarTransacoes | src/lib/utils.ts:37-43 | the loop computes exactly the inflow and outflow sums |
| Reports.SomarDespesas | src/lib/utils.ts:45-57 | the loop computes exactly the expense total and the category table |
| Reports.ResumirClientes | src/lib/utils.ts:47-52 | the loop computes exactly the active count, overdue count and outstanding credit |
| Reports.GerarRelatorioIterativo | src/lib/utils.ts:36-69 | the loop-based summary equals the functional one |
| Reports.TransacoesEntre | src/lib/utils.ts:75-78 | a transaction is kept iff its instant lies in the closed window |
| Reports.DespesasEntre | src/lib/utils.ts:80-83 | an expense is kept iff its date lies in the closed window |
| Reports.IdsPagantes | src/lib/utils.ts:91-94 | the ids listed are exactly the non-empty customer ids of inflows |
| Reports.ClientesPagaramDistintos | src/lib/utils.ts:91-94 | the paying-customer count is the number of distinct such ids |
| Reports.MensalSoJanela | src/lib/utils.ts:75-95 | an item outside the window changes no month figure (received, expenses, paying customers); an inflow or expense inside it adds its amount |
| Reports.GerarRelatorioMensal | src/lib/utils.ts:71-114 | month result = received − expenses; pending credit and defaulters equal the summary's outstanding credit and overdue count |
| Reports.MensalSemMovimento | src/lib/utils.ts:71-114 | a month with nothing dated inside reports zeros except the pending credit and defaulters, which cover every active customer |
| Reports.MensalPendentesIndependemDoMes | src/lib/utils.ts:96-102 | pending credit and defaulters do not depend on the month requested |
| Reports.FimMesUltimoDia | src/lib/utils.ts:72-73 | the window's end is local midnight at the start of the month's last day |
| Reports.FimMesUmDiaAntes | src/lib/utils.ts:72-73 | that end is exactly one day before the next month's start |
| Reports.UltimoDiaForaDeTodoMes | src/lib/utils.ts:72-83 | an instant later on the last day is outside this month's window yet before the next month's start, so it is in no month |
| Reports.GerarRelatorioMensalCorrigido | src/lib/utils.ts:71-114 | the month report with the window running to the last millisecond of the month, with the same figure relations |
| Reports.MesCorrigidoCobreUltimoDia | src/lib/utils.ts:72-77 | the corrected window covers the whole last day and ends one millisecond before the next month starts |
| Reports.DespesaDiaPrimeiroForaDeTodoMes | src/lib/utils.ts:80-83 | west of UTC, an expense dated the 1st (UTC midnight) falls after the previous window and before this one |
| Reports.DataLocalNoMesCorrigido | src/lib/utils.ts:80-83 | a date read as local midnight lies in its own month's corrected window |
| Calendar.MakeDayMonthEnd | src/lib/utils.ts:73 | day 0 of the next month is the last day of this month |
| Seqs.Dedup | src/lib/utils.ts:94 | the same values as the input, each once, and no longer than it |
| Seqs.DedupCard | src/lib/utils.ts:94 | the de-duplicated length is the number of distinct values |
| Format.FormatCPF | src/lib/utils.ts:116-119 | only punctuation is inserted: the digits of the result are the digits of the input; 11 or more digits get the dots and dash at positions 3, 7 and 11 |
| Format.FormatCPFIdempotent | src/lib/utils.ts:116-119 | masking a masked CPF changes nothing |
| Format.FormatPhone | src/lib/utils.ts:121-127 | the digits are preserved; 11 digits become (DD) DDDDD-DDDD and 10 digits (DD) DDDD-DDDD; fewer than 10 stay bare |
| Format.FormatPhoneIdempotent | src/lib/utils.ts:121-127 | masking a masked phone changes nothing |
| Format.MensagemSemMarcadores | src/lib/utils.ts:129-135 | a template with no brace is sent unchanged |
| Format.GerarMensagemWhatsApp | src/lib/utils.ts:129-135 | a template with none of `{nome}`, `{valor}`, `{data}` is sent unchanged; the filling of each placeholder in place is stated by `Format.PreencherTres` |
| Format.PreencherTres | src/lib/utils.ts:131-134 | in a template `t0{nome}t1{valor}t2{data}t3` each placeholder is replaced where it stands, first `{nome}`, then `{valor}`, then `{data}` |
| Format.MensagemPadraoPreenchida | src/lib/utils.ts:129-135 | the default template becomes "Olá " + name + … + amount due + … + due date + … |
| Format.NumeroWhatsApp | src/lib/utils.ts:138-139 | the number is all digits and starts with 55: the phone's digits, prefixed with 55 unless they already start with it |
| Format.NumeroWhatsAppIdempotent | src/lib/utils.ts:138-139 | normalising a normalised number changes nothing |
| Format.NumeroWhatsAppDDD55 | src/lib/utils.ts:139 | a national number with area code 55 gets no country code |
| Format.NumeroWhatsAppCorrigido | src/lib/utils.ts:138-139 | the corrected number is all digits and starts with 55 |
| Format.NumeroNacionalPreservado | src/lib/utils.ts:139 | with the correction, every 10- or 11-digit national number is prefixed with 55, its digits kept whole |
| Format.UrlWhatsApp | src/lib/utils.ts:137-141 | the link is `https://wa.me/`, then the normalised number (`NumeroWhatsApp` of the phone, so it starts with 55), then `?text=`, then the encoded message, and nothing else |
| Format.CategoriasCompletas | src/lib/utils.ts:157-166 | eight options in declaration order, one per category, with distinct values |
| Types.ParseCategoriaValue | src/lib/types.ts:29 | every category's value string reads back as that category |
| Storage.NovoCliente | src/hooks/useStorage.ts:56-61 | the new record carries the given data, the fresh id, the clock reading and status active |
| Storage.AdicionarCliente | src/hooks/useStorage.ts:55-66 | exactly one record is appended at the end, with a fresh id, the creation instant and status active; earlier records are unchanged |
| Storage.AdicionarClienteIdsUnicos | src/hooks/useStorage.ts:55-66 | appending under an unused id keeps ids unique |
| Storage.AtualizarCliente | src/hooks/useStorage.ts:68-75 | same length and order; records with other ids untouched; matching records get the shallow merge |
| Storage.AtualizarClienteSemEfeito | src/hooks/useStorage.ts:68-75 | an absent id or an empty patch leaves the list unchanged |
| Storage.AtualizarClienteIdempotente | src/hooks/useStorage.ts:68-75 | applying the same patch twice is applying it once |
| Storage.RemoverCliente | src/hooks/useStorage.ts:77-81 | declined: unchanged; confirmed: exactly the records with other ids remain |
| Storage.RemoverClienteMantemOrdem | src/hooks/useStorage.ts:77-81 | with unique ids, removal deletes that one record and keeps the rest in order |
| Storage.MarcarComoPago | src/hooks/useStorage.ts:83-85 | the matching customer becomes paid; nothing else changes |
| Storage.Primeiro | src/hooks/useStorage.ts:89-91 | the first customer in list order that is active and whose lower-cased name contains the lower-cased query; none iff no such customer |
| Storage.BuscarCliente | src/hooks/useStorage.ts:87-92 | a blank query finds nothing; otherwise a match exactly when one exists |
| Storage.VerificarClienteExistente | src/hooks/useStorage.ts:94-100 | true iff some active customer's name equals the query case-insensitively and its id is not the excluded one |
| Storage.ExcluindoUnicoNaoHaDuplicado | src/hooks/useStorage.ts:94-100 | excluding the id of the only match gives false |
| Storage.ExistenteEncontrado | src/hooks/useStorage.ts:87-100 | for a non-blank name, a duplicate implies that a search finds someone |
| Storage.OperacoesSemVencido | src/hooks/useStorage.ts:55-85 | no store operation introduces the status Vencido |
| Storage.AdicionarTransacao | src/hooks/useStorage.ts:129-139 | one record appended at the end, stamped with the fresh id and the clock reading |
| Storage.AtualizarTransacao | src/hooks/useStorage.ts:141-148 | same length and order; other ids untouched; matching records merged |
| Storage.RemoverTransacao | src/hooks/useStorage.ts:150-154 | declined: unchanged; confirmed: exactly the records with other ids remain |
| Storage.AdicionarDespesa | src/hooks/useStorage.ts:180-189 | one record appended at the end, stamped with the fresh id only (its date is the caller's) |
| Storage.AtualizarDespesa | src/hooks/useStorage.ts:191-198 | same length and order; other ids untouched; matching records merged |
| Storage.RemoverDespesa | src/hooks/useStorage.ts:200-204 | declined: unchanged; confirmed: exactly the records with other ids remain |
| Storage.SoUltimoSobrevive | src/hooks/useStorage.ts:22-26 | several appends in one handler, each applied to the list as rendered, leave that list plus only the last record |
| Storage.Acrescentar | src/hooks/useStorage.ts:62-65 | appending a batch keeps the old list as prefix and the batch, in order, as suffix |
| Storage.ConfigPadraoMensagem | src/hooks/useStorage.ts:215-222 | the default settings: "Minha Loja", empty phone, 2% a day, notifications on, and a template that fills name, amount due and due date in place |
| Storage.AtualizarConfiguracoesLeis | src/hooks/useStorage.ts:224-226 | an empty patch changes nothing; a patch applied twice is applied once; two patches in a row are their combination |
| Contacts.SepTelExiste | src/app/page.tsx:165 | the recursive matcher for the separator-then-phone tail agrees with its split-point definition |
| Contacts.PrimeiroCorte | src/app/page.tsx:165-169 | the cut is the shortest name prefix that the separator form accepts; none iff the form does not match |
| Contacts.TelefoneLivreDesde | src/app/page.tsx:182 | the leftmost position starting a run of at least eight phone characters, if any |
| Contacts.SemSeparadores | src/app/page.tsx:185 | the characters kept are exactly those that are not `-` or `:` |
| Contacts.LimparNome | src/app/page.tsx:185 | the cleaned name holds no `-` and no `:` |
| Contacts.ExtrairContato | src/app/page.tsx:160-189 | the four line forms in priority order; the name or the phone is always non-empty |
| Contacts.ExtrairLivre | src/app/page.tsx:181-189 | free form: with no run of eight or more phone characters the whole line is the name and the phone is empty; otherwise the phone is the leftmost such run, taken whole, and the name is the rest of the line with `-` and `:` removed and trimmed |
| Contacts.ExtrairSoNumero | src/app/page.tsx:170-174 | a line with no separator split made of phone characters only gets the name "Contato i+1" and keeps the whole line as phone |
| Contacts.ExtrairSoNome | src/app/page.tsx:175-179 | a line with no separator split, not all phone characters and without digits is a name with an empty phone |
| Contacts.ExtrairFormaLivre | src/app/page.tsx:180-189 | every other line without a separator split takes the free form |
| Contacts.CorteLivre | src/app/page.tsx:182-185 | replacing the first occurrence of the found run deletes exactly that run |
| Contacts.PrimeiraOcorrenciaLivre | src/app/page.tsx:182-185 | the found run occurs first where it was found |
| Contacts.TelefoneSeparadorDigitos | src/app/page.tsx:165-168 | in the separator form, the trimmed phone group has the same digits as the whole tail after the name |
| Contacts.ContatoDe | src/app/page.tsx:157-198 | every non-blank line yields one contact: its index as id, the line as original, the name the line parse extracts (or "Contato i+1" when that is empty), and only the digits of the phone text it extracts |
| Contacts.NaoBrancas | src/app/page.tsx:154 | the kept lines are exactly the non-blank ones |
| Contacts.NaoBrancasUma | src/app/page.tsx:154 | one line is kept exactly when it is not blank |
| Contacts.NaoBrancasConcat | src/app/page.tsx:154 | the filter distributes over concatenation: the non-blank lines are kept in order, repeats included |
| Text.JoinSplit | src/app/page.tsx:154 | the pieces of `split('\n')`, joined back with the newline, are the text: nothing is lost, added or reordered |
| Contacts.ContatosDe | src/app/page.tsx:157-199 | one contact per line, in line order: contact i is the contact of line i with id desde + i |
| Contacts.ProcessarContatos | src/app/page.tsx:148-202 | blank input gives nothing; otherwise contact i is the contact of the i-th non-blank line, trimmed, with id i: a non-empty name and a digits-only phone taken from that line's parse |
| Contacts.SelecaoInicial | src/app/page.tsx:202 | every parsed contact starts selected |
| Contacts.ExtrairComCorte | src/app/page.tsx:165-169 | when the separator form matches, name and phone come from that cut |
| Contacts.CorteNoEspaco | src/app/page.tsx:165 | a bare number with a space after its area code matches the separator form at that space |
| Contacts.NumeroComEspacoViraNome | src/app/page.tsx:164-174 | such a number becomes a contact named after its area code, whose phone lacks the area code |
| Contacts.ExtrairContatoCorrigido | src/app/page.tsx:170-174 | corrected: a line of phone characters only is a number, named "Contato i+1", with all its digits |
| Contacts.CorrecaoSoAfetaNumeros | src/app/page.tsx:164-189 | the correction changes nothing for any other line |
| Seqs.Buscar | src/app/page.tsx:215 | `find` by id (the contact lookup of the import, and the customer lookup of the undo at line 401): a found record is the first in the list with that id; none iff no record has it |
| Handlers.VencimentoImportado | src/app/page.tsx:229 | the imported due date is the UTC midnight of the day thirty days from now |
| Handlers.DadosImportados | src/app/page.tsx:223-233 | the imported record: the contact's name and phone, no debt, the original line in the notes |
| Handlers.Triar | src/app/page.tsx:215-239 | imported + duplicates = selected ids naming a contact; each record to add passes the duplicate check against the list as rendered, with no debt, due in thirty days and the configured rate |
| Handlers.ImportarSelecionados | src/app/page.tsx:206-241 | empty selection: nothing; otherwise the alert's two numbers are the triage's records to add and its duplicates, and they add up to the selected ids naming a contact, but only one new customer is kept however many are counted: the last record of the triage, active, under the fresh id of its position |
| Handlers.TriarAcrescentar | src/app/page.tsx:215-239 | the triage read left to right: one more selected id naming a contact whose name the list as rendered already has adds one duplicate; one naming a new contact appends its record after those already kept; any other id changes nothing |
| Handlers.ImportacaoPerdeClientes | src/app/page.tsx:215-234 | importing two or more keeps fewer customers than reported |
| Handlers.ImportarSelecionadosCorrigido | src/app/page.tsx:206-241 | corrected: every counted customer is appended in order, active, under its fresh id, with the imported field values |
| Handlers.MesmoNomeNoLote | src/app/page.tsx:215-234 | corrected: the duplicate check never sees the batch, so two selected contacts with the same new name are both appended |
| Handlers.MesmoNomeNoLoteComoEscrito | src/app/page.tsx:206-241 | as written: the same two contacts are both counted as imported with no duplicate, yet only one new customer is stored |
| Handlers.TriarDois | src/app/page.tsx:215-239 | two selected new contacts both pass the triage, in order, with no duplicate counted |
| Handlers.Salvar | src/app/page.tsx:256-280 | refused iff adding and the checked name is a duplicate; adding appends the trimmed form as an active customer; editing replaces the form fields of the edited record and keeps its id, creation instant and status |
| Handlers.SubmeterCliente | src/app/page.tsx:250-283 | a new customer is refused iff an active customer's name equals the name as typed, case-insensitively; an edit is never refused |
| Handlers.EspacoFinalBurlaDuplicidade | src/app/page.tsx:254-262 | next to an active "Maria", the form "Maria " saves a second active "Maria" |
| Handlers.SubmeterClienteCorrigido | src/app/page.tsx:253-262 | corrected: the check uses the trimmed name, so adding keeps active names unique |
| Handlers.NovoNomeMantemUnicos | src/app/page.tsx:253-280 | adding under a checked name equal to the saved name keeps active names unique |
| Handlers.SaidaDaDespesa | src/app/page.tsx:304-309 | the mirror transaction is an outflow of the expense's amount with no customer, described as "Despesa: " and the trimmed name, in the expense's category |
| Handlers.SubmeterDespesa | src/app/page.tsx:285-314 | editing patches the expense and leaves the transactions alone; a new expense appends the form's expense (name trimmed) under its fresh id, and its mirror outflow under a fresh id at the clock reading |
| Handlers.DespesaContadaDuasVezes | src/app/page.tsx:301-309 | a new expense raises the summary's outflows by twice its amount and lowers the net result by twice its amount |
| Handlers.SubmeterDespesaCorrigido | src/app/page.tsx:297-311 | corrected: a new expense is recorded once, as the form's expense under its fresh id, with no transaction; editing patches that expense alone |
| Handlers.DespesaContadaUmaVez | src/app/page.tsx:301-302 | with the correction, outflows rise and the net result falls by the amount once |
| Handlers.EntradaDoPagamento | src/app/page.tsx:385-391 | the payment is an inflow for that customer of the amount due now, described as "Pagamento de " and the name, in category `pagamento`; for a non-negative principal and rate it is at least the principal |
| Handlers.Pagar | src/app/page.tsx:382-395 | declined: nothing changes; confirmed: one inflow of the amount due is appended and exactly the matching customer becomes paid |
| Handlers.PagamentoNoRelatorio | src/app/page.tsx:383-391 | a confirmed payment raises the summary's inflows by the amount due |
| Handlers.Reativar | src/app/page.tsx:401-404 | records with other ids untouched; with unique ids, the paid customer with that id becomes active and nothing else changes |
| Handlers.Desfazer | src/app/page.tsx:397-410 | nothing happens unless confirmed and the transaction is an inflow with a non-empty customer id; then the customer is reactivated and the transaction removed if the second question is confirmed |
| Handlers.PagarEDesfazer | src/app/page.tsx:382-410 | paying an active customer and undoing it, both questions confirmed, restores both lists exactly |
| Handlers.DesfazerPelaMetade | src/app/page.tsx:397-406 | declining the second question leaves the customer active again while the payment stays recorded |
| Handlers.RemoverRecemAdicionada | src/hooks/useStorage.ts:150-154 | removing a transaction just appended under a fresh id gives back the list before |
| Auth.Registrar | src/components/auth/LoginForm.tsx:31-59 | success iff the passwords match, the password has at least 6 UTF-16 units and both names are non-blank; mismatch is reported first, then length, then a blank name (each with its own message); the trial user expires 30 days after creation |
| Auth.Entrar | src/components/auth/LoginForm.tsx:61-72 | success iff a stored user exists with exactly that e-mail, returning it; no stored user gives "Usuário não encontrado…" and a different e-mail gives "Email ou senha incorretos" |
| Auth.Enviar | src/components/auth/LoginForm.tsx:30-73 | the stored user changes only on a successful registration, to the user handed on |
| Auth.RegistroDepoisEntrada | src/components/auth/LoginForm.tsx:46-66 | after registering, signing in with the same e-mail returns the registered user whatever the password |
| Auth.SenhaIgnorada | src/components/auth/LoginForm.tsx:61-66 | the password plays no part in signing in |
| Auth.SenhaDeCincoRecusada | src/components/auth/LoginForm.tsx:37-40 | a confirmed five-character password is refused for length |

## Left out

- Persistence: the `localStorage` reads and writes, JSON, the load effect and `isLoaded` (src/hooks/useStorage.ts:4-20). Each store is an in-memory list.
- The `storage-update` broadcast and its listeners (src/hooks/useStorage.ts:28-31, 43-53). Each listener calls the dispatching hook's own `setValue` again with the value just written, and `dispatchEvent` runs listeners synchronously, so the writes nest until the call stack overflows; the resulting `RangeError` is swallowed (by `setValue`'s own `catch` at lines 32-34, or reported by `dispatchEvent` without propagating). Every nested write stores the same value, so the model keeps only the value written.
- `formatCurrency`, `formatDate`, `encodeURIComponent` and the month name (Intl and `toLocaleDateString`) are function parameters. `window.open`, `alert`, notifications and the JSON "PDF" export are not modelled.
- Numbers are exact reals: no IEEE-754 rounding and no `parseFloat`/`NaN`. The form models take the numbers already parsed.
- `toLowerCase` maps ASCII and Latin-1 letters only. Other Unicode case mappings are not modelled.
- The local time zone is a fixed offset `tz`, with no daylight-saving changes.
- Every `Date.now()` and `new Date()` inside one handler is the same clock reading.
- Ids built from `Date.now()` and `Math.random()` are parameters. The round-trip lemmas require them to be fresh.
- Handlers.ImportarSelecionados: the selection is a sequence in insertion order. A JavaScript `Set` has no repeats; the model allows them, which only makes its contract more general.
- `handleTransacaoSubmit`, the edit-form loaders and all rendering in src/app/page.tsx are UI wiring outside the modelled handlers.
- Auth.Enviar: the `catch` branch (src/components/auth/LoginForm.tsx:74-75) is unreachable in the model, since nothing in it can throw. The ISO-string form of `createdAt` and `planExpiry` and the `isActive` flag of src/lib/auth-types.ts are not modelled.
- Format.GerarMensagemWhatsApp: its own contract covers only the template without placeholders. Filling is proved for templates of the default shape (`Format.PreencherTres`), not for templates where a placeholder repeats or where inserted text creates one.
- Contacts.ExtrairContato: its own contract states only that one of the two fields is non-empty. Each of its four branches is pinned down by a lemma: `Contacts.ExtrairComCorte`, `Contacts.ExtrairSoNumero`, `Contacts.ExtrairSoNome` and `Contacts.ExtrairFormaLivre` with the contract of `Contacts.ExtrairLivre`.

## Findings

| source | as written | input that shows it | evidently intended | confidence | as-written member | corrected member |
|---|---|---|---|---|---|---|
| src/lib/utils.ts:73-77 | the month window ends at local midnight starting the month's last day | a transaction at 10:00 on 31 January, reported for January or for February | the window covers the whole last day | high, not executed | Reports.UltimoDiaForaDeTodoMes | Reports.GerarRelatorioMensalCorrigido, Reports.MesCorrigidoCobreUltimoDia |
| src/app/page.tsx:254-262 | the duplicate check uses the name as typed, while the name saved is trimmed | an active "Maria" and a new form named "Maria " | the check uses the name that is saved | high, not executed | Handlers.EspacoFinalBurlaDuplicidade | Handlers.SubmeterClienteCorrigido, Handlers.NovoNomeMantemUnicos |
| src/hooks/useStorage.ts:22-26 | `setValue` applies the updater to the list as rendered, so a batch of appends in one handler keeps only the last | importing two selected new contacts | every imported customer is appended | high, not executed | Handlers.ImportacaoPerdeClientes | Handlers.ImportarSelecionadosCorrigido |
| src/lib/utils.ts:80-83 | a date-only expense date parses as UTC midnight but the window is in local time | time zone UTC−3, an expense dated 1 March | the expense counts in March | medium, not executed | Reports.DespesaDiaPrimeiroForaDeTodoMes | Reports.DataLocalNoMesCorrigido |
| src/lib/utils.ts:139 | any digit string starting with 55 is taken to carry the country code already | phone "(55) 99123-4567", area code 55 | national 10- or 11-digit numbers always get the 55 prefix | medium, not executed | Format.NumeroWhatsAppDDD55 | Format.NumeroWhatsAppCorrigido, Format.NumeroNacionalPreservado |
| src/app/page.tsx:302-309 | a new expense is stored and also mirrored as an outflow transaction, and the summary adds both | one new expense of 50 | the net result falls by 50 | medium, not executed | Handlers.DespesaContadaDuasVezes | Handlers.SubmeterDespesaCorrigido, Handlers.DespesaContadaUmaVez |
| src/app/page.tsx:164-174 | the separator form also matches a bare number with a space after the area code | the line "11 99999-9999" | a contact "Contato i+1" with phone 11999999999 | medium, not executed | Contacts.NumeroComEspacoViraNome | Contacts.ExtrairContatoCorrigido, Contacts.CorrecaoSoAfetaNumeros |

=== FILE: accrual.dfy ===
/** Simple daily interest on overdue principal (src/lib/utils.ts): the clock
    reading `now` and the due date are millisecond timestamps. */
module Accrual {
  import opened Types
  import opened Calendar

  /** Whole days elapsed from `due` to `now`, rounded down (`Math.floor`). */
  function DiasAtraso(due: int, now: int): int {
    (now - due) / DayMs
  }

  /** Interest for one whole day late: `valorDivida * jurosPercentual / 100`. */
  function JurosDiario(c: Cliente): real {
    c.valorDivida * c.jurosPercentual / 100.0
  }

  /** `calcularJuros`: nothing until the due date has passed, then the daily
      interest times the number of whole days late. */
  function CalcularJuros(c: Cliente, now: int): (j: real)
    ensures now < c.dataVencimento + DayMs ==> j == 0.0
    ensures c.valorDivida >= 0.0 && c.jurosPercentual >= 0.0 ==> j >= 0.0
  {
    if now <= c.dataVencimento then 0.0
    else
      var dias := DiasAtraso(c.dataVencimento, now);
      assert now < c.dataVencimento + DayMs ==> dias == 0 by {
        if now < c.dataVencimento + DayMs {
          DivDay(0, now - c.dataVencimento);
        }
      }
      assert dias >= 0;
      assert c.valorDivida >= 0.0 && c.jurosPercentual >= 0.0 ==> JurosDiario(c) >= 0.0;
      JurosDiario(c) * (dias as real)
  }

  /** `calcularValorTotal`: principal plus accrued interest. */
  function CalcularValorTotal(c: Cliente, now: int): (v: real)
    ensures now < c.dataVencimento + DayMs ==> v == c.valorDivida
    ensures c.valorDivida >= 0.0 && c.jurosPercentual >= 0.0 ==> v >= c.valorDivida
  {
    c.valorDivida + CalcularJuros(c, now)
  }

  /** `isVencido`: strictly past the due instant. An overdue debt is never a
      negative number of days late, and one not yet overdue never a positive number. */
  function IsVencido(due: int, now: int): (v: bool)
    ensures v ==> DiasAtraso(due, now) >= 0
    ensures !v ==> DiasAtraso(due, now) <= 0
    ensures now == due ==> !v
  {
    now > due
  }

  /** Once overdue, always overdue; and before that, no interest is charged. */
  lemma VencidoPermanece(c: Cliente, t1: int, t2: int)
    requires t1 <= t2
    ensures IsVencido(c.dataVencimento, t1) ==> IsVencido(c.dataVencimento, t2)
    ensures !IsVencido(c.dataVencimento, t1) ==> CalcularJuros(c, t1) == 0.0
  {
  }

  /** The interest after `k` whole days and a fraction `r` of a day is the daily
      interest times `k`: simple interest, linear in whole days. */
  lemma JurosDiasCompletos(c: Cliente, k: nat, r: int)
    requires 0 <= r < DayMs
    ensures CalcularJuros(c, c.dataVencimento + k * DayMs + r) == JurosDiario(c) * (k as real)
  {
    var now := c.dataVencimento + k * DayMs + r;
    DivDay(k, r);
    assert now - c.dataVencimento == k * DayMs + r;
    if now > c.dataVencimento {
      assert DiasAtraso(c.dataVencimento, now) == k;
      assert CalcularJuros(c, now) == JurosDiario(c) * (DiasAtraso(c.dataVencimento, now) as real);
    } else {
      assert k == 0;
    }
  }

  /** Non-compounding: one more day adds exactly one daily interest, never interest on interest. */
  lemma JurosUmDiaAMais(c: Cliente, now: int)
    requires now >= c.dataVencimento
    ensures CalcularJuros(c, now + DayMs) == CalcularJuros(c, now) + JurosDiario(c)
  {
    var q := DiasAtraso(c.dataVencimento, now);
    var r := (now - c.dataVencimento) % DayMs;
    assert now - c.dataVencimento == q * DayMs + r;
    DivDay(q + 1, r);
    assert now + DayMs - c.dataVencimento == (q + 1) * DayMs + r;
    assert DiasAtraso(c.dataVencimento, now + DayMs) == q + 1;
    var j := JurosDiario(c);
    assert j * ((q + 1) as real) == j * (q as real) + j;
    if now == c.dataVencimento {
      assert q == 0;
    }
  }

  /** With non-negative principal and rate, interest never decreases as time passes. */
  lemma JurosMonotono(c: Cliente, t1: int, t2: int)
    requires t1 <= t2
    requires c.valorDivida >= 0.0 && c.jurosPercentual >= 0.0
    ensures CalcularJuros(c, t1) <= CalcularJuros(c, t2)
    ensures CalcularValorTotal(c, t1) <= CalcularValorTotal(c, t2)
  {
    if t1 > c.dataVencimento {
      var j := JurosDiario(c);
      var d1 := DiasAtraso(c.dataVencimento, t1);
      var d2 := DiasAtraso(c.dataVencimento, t2);
      calc {
        CalcularJuros(c, t1);
      == { JurosComoProduto(c, t1); }
        j * (d1 as real);
      <= { DiasAtrasoMonotono(c.dataVencimento, t1, t2); MultiplicarMonotono(j, d1 as real, d2 as real); }
        j * (d2 as real);
      == { JurosComoProduto(c, t2); }
        CalcularJuros(c, t2);
      }
    } else {
      assert CalcularJuros(c, t1) == 0.0;
      assert CalcularJuros(c, t2) >= 0.0;
    }
  }

  /** Once due, the interest is the daily interest times the whole days late. */
  lemma JurosComoProduto(c: Cliente, t: int)
    requires t > c.dataVencimento
    ensures CalcularJuros(c, t) == JurosDiario(c) * (DiasAtraso(c.dataVencimento, t) as real)
  {
  }

  /** Later instants are never fewer whole days late. */
  lemma DiasAtrasoMonotono(due: int, t1: int, t2: int)
    requires t1 <= t2
    ensures DiasAtraso(due, t1) <= DiasAtraso(due, t2)
  {
    var q1, r1 := (t1 - due) / DayMs, (t1 - due) % DayMs;
    var q2, r2 := (t2 - due) / DayMs, (t2 - due) % DayMs;
    assert t1 - due == q1 * DayMs + r1 && 0 <= r1 < DayMs;
    assert t2 - due == q2 * DayMs + r2 && 0 <= r2 < DayMs;
  }

  /** Multiplying by a non-negative factor keeps the order. */
  lemma MultiplicarMonotono(j: real, x: real, y: real)
    requires 0.0 <= j && x <= y
    ensures j * x <= j * y
  {
    assert j * y - j * x == j * (y - x);
  }

  /** Overdue and interest-bearing are different notions: in the first day after
      the due instant a debt is already overdue yet accrues nothing; and any
      non-zero interest implies the debt is overdue. */
  lemma VencidoSemJuros(c: Cliente, now: int)
    ensures c.dataVencimento < now < c.dataVencimento + DayMs ==>
              IsVencido(c.dataVencimento, now) && CalcularJuros(c, now) == 0.0
    ensures CalcularJuros(c, now) != 0.0 ==> IsVencido(c.dataVencimento, now)
  {
  }

  /** A principal of 100 at 2% a day, ten days late, owes 20 of interest and 120 in all. */
  lemma CenarioJurosDezDias(c: Cliente, now: int)
    requires c.valorDivida == 100.0 && c.jurosPercentual == 2.0
    requires now == c.dataVencimento + 10 * DayMs
    ensures CalcularJuros(c, now) == 20.0
    ensures CalcularValorTotal(c, now) == 120.0
  {
    JurosDiasCompletos(c, 10, 0);
  }
}

=== FILE: auth.dfy ===
/** The local sign-up and sign-in of src/components/auth/LoginForm.tsx. There is
    no server: registering stores one user record, and signing in compares only
    the e-mail address with the stored record. The stored record and the clock
    reading are parameters. */
module Auth {
  import opened Common
  import opened Text
  import opened Calendar

  datatype Plano = Trial | Monthly | Yearly

  /** The stored user (`crediario_user`). Instants are milliseconds; the
      source writes them as ISO strings. */
  datatype Usuario = Usuario(
    id: string,
    email: string,
    name: string,
    businessName: string,
    createdAt: int,
    plan: Plano,
    planExpiry: int)

  /** The form's fields. */
  datatype Formulario = Formulario(
    email: string,
    password: string,
    name: string,
    businessName: string,
    confirmPassword: string)

  /** What one submission ends in: the user handed to `onLogin`, or the error shown. */
  datatype Resultado = Entrou(usuario: Usuario) | Erro(mensagem: string)

  const SenhasDiferentes := "As senhas não coincidem"
  const SenhaCurta := "A senha deve ter pelo menos 6 caracteres"
  const CamposObrigatorios := "Preencha todos os campos obrigatórios"
  const EmailOuSenhaIncorretos := "Email ou senha incorretos"
  const UsuarioNaoEncontrado := "Usuário não encontrado. Faça seu cadastro primeiro."

  /** The trial lasts thirty days. */
  const DiasDeTeste := 30

  /** `String(n)` for an integer. */
  function IntToString(n: int): (s: string)
    ensures |s| > 0
  {
    if n < 0 then "-" + NatToString(-n) else NatToString(n)
  }

  /** Registration: the three checks in the order the source makes them (the
      password length counted in UTF-16 code units, names blank after
      `trim()`), then a trial user whose id is the clock reading. */
  function Registrar(f: Formulario, now: int): (r: Resultado)
    ensures r.Entrou? <==>
              f.password == f.confirmPassword && Utf16Length(f.password) >= 6 &&
              !IsBlank(f.name) && !IsBlank(f.businessName)
    ensures f.password != f.confirmPassword ==> r == Erro(SenhasDiferentes)
    ensures f.password == f.confirmPassword && Utf16Length(f.password) < 6 ==> r == Erro(SenhaCurta)
    ensures (f.password == f.confirmPassword && Utf16Length(f.password) >= 6 &&
             (IsBlank(f.name) || IsBlank(f.businessName))) ==> r == Erro(CamposObrigatorios)
    ensures r.Entrou? ==>
              && r.usuario.email == f.email && r.usuario.name == f.name
              && r.usuario.businessName == f.businessName
              && r.usuario.createdAt == now && r.usuario.plan == Trial
              && r.usuario.planExpiry == now + DiasDeTeste * DayMs
  {
    if f.password != f.confirmPassword then Erro(SenhasDiferentes)
    else if Utf16Length(f.password) < 6 then Erro(SenhaCurta)
    else if Trim(f.name) == "" || Trim(f.businessName) == "" then Erro(CamposObrigatorios)
    else
      Entrou(Usuario(IntToString(now), f.email, f.name, f.businessName, now, Trial,
                     now + DiasDeTeste * DayMs))
  }

  /** Sign-in: the stored user when its e-mail matches exactly; the password is
      never looked at. */
  function Entrar(f: Formulario, salvo: Option<Usuario>): (r: Resultado)
    ensures r.Entrou? <==> salvo.Some? && salvo.value.email == f.email
    ensures r.Entrou? ==> r.usuario == salvo.value
    ensures salvo.None? ==> r == Erro(UsuarioNaoEncontrado)
    ensures salvo.Some? && salvo.value.email != f.email ==> r == Erro(EmailOuSenhaIncorretos)
  {
    match salvo
    case None => Erro(UsuarioNaoEncontrado)
    case Some(u) => if u.email == f.email then Entrou(u) else Erro(EmailOuSenhaIncorretos)
  }

  /** `handleSubmit`: the outcome and the stored user afterwards (only a
      successful registration writes it). */
  function Enviar(registro: bool, f: Formulario, salvo: Option<Usuario>, now: int): (r: (Resultado, Option<Usuario>))
    ensures r.0.Erro? ==> r.1 == salvo
    ensures r.0.Entrou? ==> r.1 == Some(r.0.usuario)
    ensures !registro ==> r.1 == salvo
  {
    if registro then
      var res := Registrar(f, now);
      (res, if res.Entrou? then Some(res.usuario) else salvo)
    else
      (Entrar(f, salvo), salvo)
  }

  /** After a successful registration, signing in with the same e-mail returns
      the registered user, whatever password is typed. */
  lemma RegistroDepoisEntrada(f: Formulario, g: Formulario, salvo: Option<Usuario>, now: int)
    requires Enviar(true, f, salvo, now).0.Entrou?
    requires g.email == f.email
    ensures var (r, depois) := Enviar(true, f, salvo, now);
            Enviar(false, g, depois, now + 1).0 == r
  {
  }

  /** The password plays no part in signing in. */
  lemma SenhaIgnorada(f: Formulario, g: Formulario, salvo: Option<Usuario>)
    requires f.email == g.email
    ensures Entrar(f, salvo) == Entrar(g, salvo)
  {
  }

  /** A password of five characters is refused even when confirmed and the names are filled. */
  lemma SenhaDeCincoRecusada(f: Formulario, now: int)
    requires f.password == "abcde" && f.confirmPassword == "abcde"
    ensures Registrar(f, now) == Erro(SenhaCurta)
  {
    assert Utf16Length("abcde") == 5;
  }
}

=== FILE: calendar.dfy ===
/** The calendar arithmetic behind JavaScript's `new Date(year, monthIndex, day)`
    (ECMAScript section 21.4.1, "Time Values and Time Range": DayFromYear,
    InLeapYear, MakeDay), with the host's local time zone taken as a fixed
    offset `tz` in milliseconds (local time minus UTC). */
module Calendar {

  /** `1000 * 60 * 60 * 24`. */
  const DayMs: int := 86400000

  /** The day number of 1 January of year `y`, counted from 1 January 1970. */
  function DayFromYear(y: int): int {
    365 * (y - 1970) + (y - 1969) / 4 - (y - 1901) / 100 + (y - 1601) / 400
  }

  predicate InLeapYear(y: int) {
    (y % 4 == 0 && y % 100 != 0) || y % 400 == 0
  }

  function DaysInYear(y: int): int {
    if InLeapYear(y) then 366 else 365
  }

  /** Days of the year before month `m` (0 = January). */
  function DaysBeforeMonth(m: int, leap: bool): int
    requires 0 <= m <= 12
  {
    var feb := if leap then 29 else 28;
    [0, 31, 31 + feb, 62 + feb, 92 + feb, 123 + feb, 153 + feb, 184 + feb,
     215 + feb, 245 + feb, 276 + feb, 306 + feb, 337 + feb][m]
  }

  /** Length of month `m` (0 = January) of year `y`. */
  function DaysInMonth(y: int, m: int): (n: int)
    requires 0 <= m < 12
    ensures 28 <= n <= 31
  {
    DaysBeforeMonth(m + 1, InLeapYear(y)) - DaysBeforeMonth(m, InLeapYear(y))
  }

  /** MakeDay: the day number of day `date` of month `month` of `year`, where an
      out-of-range month carries into the year and day 0 is the day before day 1. */
  function MakeDay(year: int, month: int, date: int): int {
    var ym := year + month / 12;
    var mn := month % 12;
    DayFromYear(ym) + DaysBeforeMonth(mn, InLeapYear(ym)) + date - 1
  }

  /** The Date constructor reads a two-digit year as 1900 + year. */
  function FullYear(y: int): int {
    if 0 <= y <= 99 then 1900 + y else y
  }

  /** `new Date(y, monthIndex, day).getTime()`: local midnight of that day. */
  function LocalDate(y: int, monthIndex: int, day: int, tz: int): int {
    MakeDay(FullYear(y), monthIndex, day) * DayMs - tz
  }

  /** A year is as long as the distance between two consecutive New Year's days. */
  lemma DayFromYearStep(y: int)
    ensures DayFromYear(y + 1) - DayFromYear(y) == DaysInYear(y)
  {
    Step4(y);
    Step100(y);
    Step400(y);
  }

  /** Splitting a duration into whole days and a remainder. */
  lemma DivDay(q: int, r: int)
    requires 0 <= r < DayMs
    ensures (q * DayMs + r) / DayMs == q
  {
    var x := q * DayMs + r;
    var d := x / DayMs;
    var m := x % DayMs;
    assert x == d * DayMs + m && 0 <= m < DayMs;
    assert (d - q) * DayMs == r - m;
  }

  /** The count of multiples of 4 in the leap-day term of `DayFromYear` steps up
      by one exactly when `y` is a multiple of 4. */
  lemma Step4(y: int)
    ensures (y - 1968) / 4 - (y - 1969) / 4 == if y % 4 == 0 then 1 else 0
  {
    var q, r := y / 4, y % 4;
    assert y == 4 * q + r && 0 <= r < 4;
    assert (y - 1968) / 4 == q - 492;
    assert (y - 1969) / 4 == if r == 0 then q - 493 else q - 492;
  }

  lemma Step100(y: int)
    ensures (y - 1900) / 100 - (y - 1901) / 100 == if y % 100 == 0 then 1 else 0
  {
    var q, r := y / 100, y % 100;
    assert y == 100 * q + r && 0 <= r < 100;
    assert (y - 1900) / 100 == q - 19;
    assert (y - 1901) / 100 == if r == 0 then q - 20 else q - 19;
  }

  lemma Step400(y: int)
    ensures (y - 1600) / 400 - (y - 1601) / 400 == if y % 400 == 0 then 1 else 0
  {
    var q, r := y / 400, y % 400;
    assert y == 400 * q + r && 0 <= r < 400;
    assert (y - 1600) / 400 == q - 4;
    assert (y - 1601) / 400 == if r == 0 then q - 5 else q - 4;
  }

  /** The day after the last of a month is the first of the next one. */
  lemma MakeDayMonthEnd(y: int, m: int)
    requires 0 <= m < 12
    ensures MakeDay(y, m + 1, 0) == MakeDay(y, m, 1) + DaysInMonth(y, m) - 1
  {
    assert m / 12 == 0 && m % 12 == m;
    if m == 11 {
      assert (m + 1) / 12 == 1 && (m + 1) % 12 == 0;
      DayFromYearStep(y);
    } else {
      assert (m + 1) / 12 == 0 && (m + 1) % 12 == m + 1;
    }
  }
}

=== FILE: common.dfy ===
/** Optional values: the model's rendering of a TypeScript `T | undefined`
    (an optional field, an absent key in a partial record) and of `T | null`. */
module Common {

  datatype Option<+T> = None | Some(value: T) {

    /** The value, or `default` when there is none (`x ?? default`). */
    function GetOr(default: T): T {
      match this
      case Some(v) => v
      case None => default
    }
  }
}

=== FILE: contacts.dfy ===
/** `processImportedContacts` (src/app/page.tsx): pasted text, one contact per
    non-blank line, each line read by the first of four formats that applies.
    The regular expressions are given here by what they match:

    - the separator form `^(.+?)[\s\-:]+(\(?[\d\s\-\(\)]+\)?)$`: a shortest
      non-empty prefix without line terminators (the name), then a run of
      separator characters, then a non-empty run of phone characters to the end;
    - the digits-only form `^[\d\s\-\(\)]+$`;
    - the no-digit form `!/\d/`;
    - the free form `(\(?[\d\s\-\(\)]{8,}\)?)`: the leftmost place where a run of at
      least eight phone characters starts, matched greedily to the end of that run
      (both optional parentheses are themselves phone characters). */
module Contacts {
  import opened Common
  import opened Text

  /** `[\s\-:]`: a character of the run between name and number. */
  predicate IsSep(c: char) {
    IsSpace(c) || c == '-' || c == ':'
  }

  /** `[\d\s\-\(\)]`: a character that may appear in a written phone number. */
  predicate IsPhoneChar(c: char) {
    IsDigit(c) || IsSpace(c) || c == '-' || c == '(' || c == ')'
  }

  predicate AllSep(s: string) {
    forall i :: 0 <= i < |s| ==> IsSep(s[i])
  }

  predicate AllPhone(s: string) {
    forall i :: 0 <= i < |s| ==> IsPhoneChar(s[i])
  }

  /** `[\s\-:]+(\(?[\d\s\-\(\)]+\)?)$` matches all of `r`, decided left to right. */
  predicate SepTel(r: string) {
    |r| >= 2 && IsSep(r[0]) && (AllPhone(r[1..]) || SepTel(r[1..]))
  }

  /** The recursive reading agrees with the regular expression: some split of
      `r` into a non-empty separator run and a non-empty phone run. */
  lemma {:induction false} SepTelExiste(r: string)
    ensures SepTel(r) <==> exists j :: 1 <= j < |r| && AllSep(r[..j]) && AllPhone(r[j..])
  {
    if SepTel(r) {
      if AllPhone(r[1..]) {
        assert AllSep(r[..1]);
      } else {
        SepTelExiste(r[1..]);
        var j :| 1 <= j < |r[1..]| && AllSep(r[1..][..j]) && AllPhone(r[1..][j..]);
        assert r[1..][j..] == r[j + 1..];
        assert AllSep(r[..j + 1]) by {
          forall i | 0 <= i < j + 1
            ensures IsSep(r[i])
          {
            if i > 0 {
              assert r[i] == r[1..][..j][i - 1];
            }
          }
        }
      }
    }
    if exists j :: 1 <= j < |r| && AllSep(r[..j]) && AllPhone(r[j..]) {
      var j :| 1 <= j < |r| && AllSep(r[..j]) && AllPhone(r[j..]);
      assert IsSep(r[..j][0]);
      if j > 1 {
        assert r[1..][..j - 1] == r[1..j];
        assert AllSep(r[1..j]) by {
          forall i | 1 <= i < j
            ensures IsSep(r[i])
          {
            assert r[i] == r[..j][i];
          }
        }
        assert r[1..][j - 1..] == r[j..];
        SepTelExiste(r[1..]);
      }
    }
  }

  /** Group 1 of the separator form can end at `k`: `line[..k]` is non-empty
      and free of line terminators, and the rest is separators then a number. */
  predicate Corte(line: string, k: int) {
    && 1 <= k <= |line|
    && (forall i :: 0 <= i < k ==> !IsLineTerminator(line[i]))
    && SepTel(line[k..])
  }

  /** The lazy `(.+?)`: the first end position at or after `k` that works. */
  function CorteDesde(line: string, k: nat): (r: Option<nat>)
    requires 1 <= k <= |line| + 1
    requires forall i :: 0 <= i < k - 1 ==> !IsLineTerminator(line[i])
    ensures r.Some? ==> k <= r.value && Corte(line, r.value)
    ensures r.Some? ==> forall m :: k <= m < r.value ==> !Corte(line, m)
    ensures r.None? ==> forall m :: k <= m ==> !Corte(line, m)
    decreases |line| + 1 - k
  {
    if k > |line| then None
    else if IsLineTerminator(line[k - 1]) then None
    else if SepTel(line[k..]) then Some(k)
    else CorteDesde(line, k + 1)
  }

  /** Where the name of the separator form ends, if that form matches. */
  function PrimeiroCorte(line: string): (r: Option<nat>)
    ensures r.Some? ==> Corte(line, r.value) && forall m :: m < r.value ==> !Corte(line, m)
    ensures r.None? ==> forall m :: !Corte(line, m)
  {
    CorteDesde(line, 1)
  }

  /** The number of phone characters in a row from `i`. */
  function Corrida(s: string, i: nat): (n: nat)
    requires i <= |s|
    ensures i + n <= |s|
    ensures forall j :: i <= j < i + n ==> IsPhoneChar(s[j])
    ensures i + n < |s| ==> !IsPhoneChar(s[i + n])
    decreases |s| - i
  {
    if i == |s| || !IsPhoneChar(s[i]) then 0 else 1 + Corrida(s, i + 1)
  }

  /** The free form's search: the leftmost position at or after `i` where a run of
      eight or more phone characters starts. */
  function TelefoneLivreDesde(s: string, i: nat): (r: Option<nat>)
    requires i <= |s|
    ensures r.Some? ==> i <= r.value < |s| && Corrida(s, r.value) >= 8
    ensures r.Some? ==> forall q :: i <= q < r.value ==> Corrida(s, q) < 8
    ensures r.None? ==> forall q :: i <= q <= |s| ==> Corrida(s, q) < 8
    decreases |s| - i
  {
    if i == |s| then None
    else if Corrida(s, i) >= 8 then Some(i)
    else TelefoneLivreDesde(s, i + 1)
  }

  /** `s.replace(/[\-:]/g, '')`. */
  function SemSeparadores(s: string): (r: string)
    ensures |r| <= |s|
    ensures forall c :: c in r <==> c in s && c != '-' && c != ':'
  {
    if |s| == 0 then ""
    else
      var rest := SemSeparadores(s[1..]);
      assert forall c :: c in s <==> c == s[0] || c in s[1..];
      if s[0] == '-' || s[0] == ':' then rest else [s[0]] + rest
  }

  /** `Contato ${index + 1}`. */
  function ContatoPadrao(index: nat): string {
    "Contato " + NatToString(index + 1)
  }

  /** The name and the raw telephone text one trimmed line yields, as written:
      the separator form is tried first. In the separator form the raw text is
      everything from the end of the name on; only its digits are kept, and
      `TelefoneSeparadorDigitos` shows that they are those of the regular
      expression's second group, whichever split the engine settles on. */
  function ExtrairContato(line: string, index: nat): (r: (string, string))
    requires |line| > 0
    ensures r.0 != "" || r.1 != ""
  {
    match PrimeiroCorte(line)
    case Some(k) => (Trim(line[..k]), line[k..])
    case None =>
      if AllPhone(line) then (ContatoPadrao(index), line)
      else if forall i :: 0 <= i < |line| ==> !IsDigit(line[i]) then (line, "")
      else ExtrairLivre(line)
  }

  /** `.replace(/[\-:]/g, '').trim()`: the name left around the free form's phone. */
  function LimparNome(s: string): (r: string)
    ensures '-' !in r && ':' !in r
  {
    TrimSubset(SemSeparadores(s));
    Trim(SemSeparadores(s))
  }

  /** The free form's match in `line` is the `n` characters from `p`: a run of
      eight or more phone characters that cannot be extended to the right, with
      no such run starting earlier. */
  predicate TelefoneLivreEm(line: string, p: nat, n: nat) {
    && p + n <= |line| && n >= 8
    && AllPhone(line[p..p + n])
    && (p + n < |line| ==> !IsPhoneChar(line[p + n]))
    && (forall q :: 0 <= q < p ==> Corrida(line, q) < 8)
  }

  /** The free form: cut out the first run of eight or more phone characters,
      drop every `-` and `:` from the rest and trim it; with no such run, the
      whole line is the name. The source deletes the run with
      `replace(match, '')`; `CorteLivre` shows that this deletes exactly the
      run at its own position, which is what is computed here. */
  function ExtrairLivre(line: string): (r: (string, string))
    requires |line| > 0
    ensures r.0 != "" || r.1 != ""
    ensures r.1 == "" <==> forall q :: 0 <= q <= |line| ==> Corrida(line, q) < 8
    ensures r.1 == "" ==> r.0 == line
    ensures r.1 != "" ==> exists p: nat, n: nat ::
              TelefoneLivreEm(line, p, n) && r == (LimparNome(line[..p] + line[p + n..]), line[p..p + n])
  {
    LivreCorreto(line);
    CortarLivre(line, TelefoneLivreDesde(line, 0))
  }

  /** The free form's result for the run found at `o`, if any. */
  function CortarLivre(line: string, o: Option<nat>): (string, string)
    requires o.Some? ==> o.value < |line|
  {
    match o
    case Some(p) =>
      var n := Corrida(line, p);
      (LimparNome(line[..p] + line[p + n..]), line[p..p + n])
    case None => (line, "")
  }

  /** The free form's result meets `ExtrairLivre`'s contract. */
  lemma LivreCorreto(line: string)
    requires |line| > 0
    ensures var r := CortarLivre(line, TelefoneLivreDesde(line, 0));
            && (r.0 != "" || r.1 != "")
            && (r.1 == "" <==> forall q :: 0 <= q <= |line| ==> Corrida(line, q) < 8)
            && (r.1 == "" ==> r.0 == line)
            && (r.1 != "" ==> exists p: nat, n: nat ::
                  TelefoneLivreEm(line, p, n) && r == (LimparNome(line[..p] + line[p + n..]), line[p..p + n]))
  {
    var o := TelefoneLivreDesde(line, 0);
    if o.Some? {
      LivreFatos(line, o.value);
      LivreEncontrado(line, o.value);
    }
  }

  /** With a run of eight or more phone characters at `p` and none earlier,
      the free form cuts out that run. */
  lemma LivreEncontrado(line: string, p: nat)
    requires p < |line| && Corrida(line, p) >= 8
    requires forall q :: 0 <= q < p ==> Corrida(line, q) < 8
    ensures var r := CortarLivre(line, Some(p));
            && r.1 != ""
            && !(forall q :: 0 <= q <= |line| ==> Corrida(line, q) < 8)
            && exists p': nat, n: nat ::
                 TelefoneLivreEm(line, p', n) && r == (LimparNome(line[..p'] + line[p' + n..]), line[p'..p' + n])
  {
    var n := Corrida(line, p);
    LivreAchado(line, p, n);
    var r := CortarLivre(line, Some(p));
    assert r == (LimparNome(line[..p] + line[p + n..]), line[p..p + n]);
    assert |r.1| == n;
  }

  /** The run the free form's search stops at is its match. */
  lemma LivreAchado(line: string, p: nat, n: nat)
    requires p < |line| && n == Corrida(line, p) && n >= 8
    requires forall q :: 0 <= q < p ==> Corrida(line, q) < 8
    ensures TelefoneLivreEm(line, p, n) && |line[p..p + n]| == n
    ensures exists q :: 0 <= q <= |line| && Corrida(line, q) >= 8
  {
    CorridaToda(line, p);
  }

  /** The run counted from `i` is made of phone characters only. */
  lemma CorridaToda(s: string, i: nat)
    requires i <= |s|
    ensures AllPhone(s[i..i + Corrida(s, i)])
  {
    var t := s[i..i + Corrida(s, i)];
    forall k | 0 <= k < |t| ensures IsPhoneChar(t[k]) {
      assert t[k] == s[i + k];
    }
  }

  /** In the separator form, the digits kept are those of the regular
      expression's second group for every split of the tail into separators and
      number: the separator run holds no digit and `trim()` removes none. */
  lemma TelefoneSeparadorDigitos(line: string, k: nat, j: nat)
    requires k < j < |line|
    requires AllSep(line[k..j]) && AllPhone(line[j..])
    ensures Digits(Trim(line[j..])) == Digits(line[k..])
  {
    var sep, tel := line[k..j], line[j..];
    CorteEm(line, k, j);
    DigitsConcat(sep, tel);
    SemDigitoNoSeparador(sep);
    DigitsTrim(tel);
  }

  lemma CorteEm(s: string, k: nat, j: nat)
    requires k <= j <= |s|
    ensures s[k..] == s[k..j] + s[j..]
  {
  }

  lemma SemDigitoNoSeparador(sep: string)
    requires AllSep(sep)
    ensures Digits(sep) == ""
  {
    forall i | 0 <= i < |sep|
      ensures !IsDigit(sep[i])
    {
      assert IsSep(sep[i]);
    }
    DigitsOfNonDigits(sep);
  }

  /** A run of `n` phone characters at `j` makes the run there at least `n` long. */
  lemma CorridaPeloMenos(s: string, j: nat, n: nat)
    requires j + n <= |s|
    requires AllPhone(s[j..j + n])
    ensures Corrida(s, j) >= n
  {
  }

  /** The free form's match is the first occurrence of its own text: an earlier
      one would be an earlier run of eight or more phone characters. */
  lemma PrimeiraOcorrenciaLivre(line: string, p: nat)
    requires TelefoneLivreDesde(line, 0) == Some(p)
    ensures IndexOf(line, line[p..p + Corrida(line, p)]) == Some(p)
  {
    LivreFatos(line, p);
    PrimeiraOcorrenciaDeCorrida(line, p, Corrida(line, p));
  }

  /** What the free form's search promises about the position it stops at. */
  lemma LivreFatos(line: string, p: nat)
    requires TelefoneLivreDesde(line, 0) == Some(p)
    ensures p < |line| && Corrida(line, p) >= 8 && forall q :: 0 <= q < p ==> Corrida(line, q) < 8
  {
  }

  lemma PrimeiraOcorrenciaDeCorrida(line: string, p: nat, n: nat)
    requires p + n <= |line| && n == Corrida(line, p) && n >= 8
    requires forall q :: 0 <= q < p ==> Corrida(line, q) < 8
    ensures IndexOf(line, line[p..p + n]) == Some(p)
  {
    var tel := line[p..p + n];
    forall j | 0 <= j < p
      ensures !OccursAt(line, tel, j)
    {
      RunCurtoSemOcorrencia(line, j, tel);
    }
    IndexOfIs(line, tel, p);
  }

  /** Phone characters cannot occur where the run is shorter than they are. */
  lemma RunCurtoSemOcorrencia(line: string, j: nat, tel: string)
    requires AllPhone(tel)
    requires j <= |line| && Corrida(line, j) < |tel|
    ensures !OccursAt(line, tel, j)
  {
    if OccursAt(line, tel, j) {
      CorridaPeloMenos(line, j, |tel|);
    }
  }

  /** So `replace(match, '')` cuts exactly that run out. */
  lemma CorteLivre(line: string, p: nat)
    requires TelefoneLivreDesde(line, 0) == Some(p)
    ensures var n := Corrida(line, p);
            ReplaceFirst(line, line[p..p + n], "") == line[..p] + line[p + n..]
  {
    LivreFatos(line, p);
    PrimeiraOcorrenciaDeCorrida(line, p, Corrida(line, p));
    CortarCorrida(line, p, Corrida(line, p));
  }

  lemma CortarCorrida(line: string, p: nat, n: nat)
    requires p + n <= |line| && IndexOf(line, line[p..p + n]) == Some(p)
    ensures ReplaceFirst(line, line[p..p + n], "") == line[..p] + line[p + n..]
  {
    DeleteAtIndex(line, line[p..p + n], p);
  }

  /** A contact as the import screen lists it. */
  datatype Contato = Contato(id: nat, nome: string, telefone: string, original: string)

  /** The contact one trimmed line yields: only its digits are kept as the
      phone, and an empty name falls back to `Contato <n>`. */
  function ContatoDe(line: string, index: nat): (c: Option<Contato>)
    requires |line| > 0
    ensures c.Some?
    ensures c.value.id == index && c.value.original == line
    ensures c.value.nome != "" && AllDigits(c.value.telefone)
    ensures var e := ExtrairContato(line, index);
            && c.value.nome == (if e.0 == "" then ContatoPadrao(index) else e.0)
            && c.value.telefone == Digits(e.1)
  {
    var (nome, tel) := ExtrairContato(line, index);
    if nome != "" || tel != "" then
      Some(Contato(index, if nome == "" then ContatoPadrao(index) else nome, Digits(tel), line))
    else None
  }

  /** `split('\n').filter(line => line.trim())`. */
  function NaoBrancas(ls: seq<string>): (r: seq<string>)
    ensures |r| <= |ls|
    ensures forall i :: 0 <= i < |r| ==> !IsBlank(r[i]) && r[i] in ls
    ensures forall i :: 0 <= i < |ls| && !IsBlank(ls[i]) ==> ls[i] in r
  {
    if |ls| == 0 then []
    else
      var rest := NaoBrancas(ls[1..]);
      assert forall i :: 1 <= i < |ls| ==> ls[i] == ls[1..][i - 1];
      if IsBlank(ls[0]) then rest else [ls[0]] + rest
  }

  /** A single line is kept exactly when it is not blank. */
  lemma NaoBrancasUma(l: string)
    ensures NaoBrancas([l]) == if IsBlank(l) then [] else [l]
  {
    assert [l][1..] == [];
  }

  /** The filter keeps order and repeats: it distributes over concatenation. */
  lemma {:induction false} NaoBrancasConcat(a: seq<string>, b: seq<string>)
    ensures NaoBrancas(a + b) == NaoBrancas(a) + NaoBrancas(b)
  {
    if |a| == 0 {
      assert a + b == b;
    } else {
      assert (a + b)[1..] == a[1..] + b;
      NaoBrancasConcat(a[1..], b);
    }
  }

  /** The non-blank lines of the text, in order. */
  function Linhas(texto: string): seq<string> {
    NaoBrancas(Split(texto, '\n'))
  }

  /** `line.trim()` for every line. */
  function Aparadas(ls: seq<string>): (r: seq<string>)
    requires forall i :: 0 <= i < |ls| ==> !IsBlank(ls[i])
    ensures |r| == |ls|
    ensures forall i :: 0 <= i < |ls| ==> r[i] == Trim(ls[i]) && |r[i]| > 0
  {
    seq(|ls|, i requires 0 <= i < |ls| => Trim(ls[i]))
  }

  /** One contact per trimmed line, numbered in order from `desde`. */
  function ContatosDe(ls: seq<string>, desde: nat): (cs: seq<Contato>)
    requires forall i :: 0 <= i < |ls| ==> |ls[i]| > 0
    ensures |cs| == |ls|
    ensures forall i :: 0 <= i < |cs| ==> cs[i].id == desde + i && cs[i].original == ls[i]
    ensures forall i :: 0 <= i < |cs| ==> cs[i].nome != "" && AllDigits(cs[i].telefone)
    ensures forall i :: 0 <= i < |cs| ==> cs[i] == ContatoDe(ls[i], desde + i).value
  {
    var cs := seq(|ls|, i requires 0 <= i < |ls| => ContatoDe(ls[i], desde + i).value);
    forall i | 0 <= i < |cs|
      ensures cs[i] == ContatoDe(ls[i], desde + i).value
      ensures cs[i].id == desde + i && cs[i].original == ls[i]
      ensures cs[i].nome != "" && AllDigits(cs[i].telefone)
    {
      var c := ContatoDe(ls[i], desde + i);
      assert cs[i] == c.value;
    }
    cs
  }

  /** `processImportedContacts`: nothing for blank text (the alert), otherwise
      one contact for each non-blank line, with ids `0, 1, …` in line order. */
  function ProcessarContatos(texto: string): (r: Option<seq<Contato>>)
    ensures r.None? <==> IsBlank(texto)
    ensures r.Some? ==> |r.value| == |Linhas(texto)|
    ensures r.Some? ==> forall i :: 0 <= i < |r.value| ==>
              r.value[i].id == i && r.value[i].original == Trim(Linhas(texto)[i])
    ensures r.Some? ==> forall i :: 0 <= i < |r.value| ==>
              r.value[i].nome != "" && AllDigits(r.value[i].telefone)
    ensures r.Some? ==> forall i :: 0 <= i < |r.value| ==>
              |Trim(Linhas(texto)[i])| > 0 && r.value[i] == ContatoDe(Trim(Linhas(texto)[i]), i).value
  {
    if Trim(texto) == "" then None else Some(ContatosDe(Aparadas(Linhas(texto)), 0))
  }

  /** Every listed contact starts selected (`new Set(contacts.map(c => c.id))`). */
  function SelecaoInicial(cs: seq<Contato>): (ids: seq<nat>)
    ensures |ids| == |cs| && forall i :: 0 <= i < |cs| ==> ids[i] == cs[i].id
  {
    seq(|cs|, i requires 0 <= i < |cs| => cs[i].id)
  }

  /** When the separator form matches, the name is the trimmed text before the cut. */
  lemma ExtrairComCorte(line: string, index: nat, k: nat)
    requires |line| > 0 && PrimeiroCorte(line) == Some(k)
    ensures ExtrairContato(line, index) == (Trim(line[..k]), line[k..])
  {
  }

  /** A line with no separator split made of phone characters only is a bare
      number: it gets the default name. */
  lemma ExtrairSoNumero(line: string, index: nat)
    requires |line| > 0 && (forall m :: !Corte(line, m)) && AllPhone(line)
    ensures ExtrairContato(line, index) == (ContatoPadrao(index), line)
  {
  }

  /** A line with no separator split, some non-phone character and no digit is
      a name without a phone. */
  lemma ExtrairSoNome(line: string, index: nat)
    requires |line| > 0 && (forall m :: !Corte(line, m)) && !AllPhone(line)
    requires forall i :: 0 <= i < |line| ==> !IsDigit(line[i])
    ensures ExtrairContato(line, index) == (line, "")
  {
  }

  /** Any other line with no separator split goes to the free form. */
  lemma ExtrairFormaLivre(line: string, index: nat)
    requires |line| > 0 && (forall m :: !Corte(line, m)) && !AllPhone(line)
    requires exists i :: 0 <= i < |line| && IsDigit(line[i])
    ensures ExtrairContato(line, index) == ExtrairLivre(line)
  {
  }

  /** In `ddd + " " + numero`, with `ddd` all digits, the separator form ends the name at the space. */
  lemma CorteNoEspaco(ddd: string, numero: string)
    requires |ddd| > 0 && AllDigits(ddd)
    requires |numero| > 0 && AllPhone(numero)
    ensures PrimeiroCorte(ddd + " " + numero) == Some(|ddd|)
  {
    var line := ddd + " " + numero;
    var tail := line[|ddd|..];
    assert tail[..1] == " " && tail[1..] == numero;
    assert AllSep(tail[..1]);
    SepTelExiste(tail);
    assert Corte(line, |ddd|);
    forall m | 1 <= m < |ddd|
      ensures !Corte(line, m)
    {
      assert line[m..][0] == ddd[m];
    }
  }

  /** A bare number with a space in it is read by the separator form as written:
      `11 99999-9999` becomes a contact named `11` whose phone is `999999999`,
      and so does every area code followed by a space and a number. */
  lemma NumeroComEspacoViraNome(ddd: string, numero: string, index: nat)
    requires |ddd| > 0 && AllDigits(ddd)
    requires |numero| > 0 && AllPhone(numero)
    ensures ExtrairContato(ddd + " " + numero, index).0 == ddd
    ensures Digits(ExtrairContato(ddd + " " + numero, index).1) == Digits(numero)
  {
    CorteNoEspaco(ddd, numero);
    ExtrairComCorte(ddd + " " + numero, index, |ddd|);
    NomeAntesDoEspaco(ddd, numero);
    TelefoneDepoisDoEspaco(ddd, numero);
  }

  lemma NomeAntesDoEspaco(ddd: string, numero: string)
    requires |ddd| > 0 && AllDigits(ddd)
    ensures Trim((ddd + " " + numero)[..|ddd|]) == ddd
  {
    assert (ddd + " " + numero)[..|ddd|] == ddd;
    TrimNoEdgeSpace(ddd);
  }

  lemma TelefoneDepoisDoEspaco(ddd: string, numero: string)
    ensures Digits((ddd + " " + numero)[|ddd|..]) == Digits(numero)
  {
    assert (ddd + " " + numero)[|ddd|..] == " " + numero;
    DigitsConcat(" ", numero);
    assert Digits(" ") == "";
  }

  /** Evidently intended: a line made only of phone characters is a number,
      whatever spaces or dashes it holds. */
  function ExtrairContatoCorrigido(line: string, index: nat): (r: (string, string))
    requires |line| > 0
    ensures r.0 != "" || r.1 != ""
    ensures AllPhone(line) ==> r.0 == ContatoPadrao(index) && Digits(r.1) == Digits(line)
  {
    if AllPhone(line) then (ContatoPadrao(index), line) else ExtrairContato(line, index)
  }

  /** The correction changes nothing but bare numbers. */
  lemma CorrecaoSoAfetaNumeros(line: string, index: nat)
    requires |line| > 0
    ensures !AllPhone(line) ==> ExtrairContatoCorrigido(line, index) == ExtrairContato(line, index)
    ensures AllPhone(line) && PrimeiroCorte(line).None? ==>
              ExtrairContatoCorrigido(line, index) == ExtrairContato(line, index)
  {
  }
}

=== FILE: format.dfy ===
/** The display helpers of src/lib/utils.ts: the CPF and phone masks, the
    collection message built from a template, the WhatsApp link, and the list
    of expense categories offered by the forms. */
module Format {
  import opened Common
  import opened Text
  import opened Types
  import opened Accrual

  /** Appending a separator and a group of digits to a mask appends just the group to its digits. */
  lemma DigitsAppendGroup(x: string, sep: string, g: string)
    requires forall i :: 0 <= i < |sep| ==> !IsDigit(sep[i])
    requires AllDigits(g)
    ensures Digits(x + sep + g) == Digits(x) + g
  {
    var y := x + sep;
    DigitsConcat(y, g);
    DigitsConcat(x, sep);
    DigitsOfNonDigits(sep);
    assert Digits(y) == Digits(x);
  }

  /** The groups `ddd.ddd.ddd-` laid over a digit string, the rest appended. */
  function MascaraCPF(n: string): (m: string)
    requires |n| >= 9
    ensures |m| == |n| + 3 && m[3] == '.' && m[7] == '.' && m[11] == '-'
  {
    n[..3] + "." + n[3..6] + "." + n[6..9] + "-" + n[9..]
  }

  lemma MascaraCPFDigits(n: string)
    requires AllDigits(n) && |n| >= 9
    ensures Digits(MascaraCPF(n)) == n
  {
    var g1, g2, g3, g4 := n[..3], n[3..6], n[6..9], n[9..];
    var m1 := g1 + "." + g2;
    var m2 := m1 + "." + g3;
    DigitsAppendGroup(g1, ".", g2);
    DigitsAppendGroup(m1, ".", g3);
    DigitsAppendGroup(m2, "-", g4);
    assert g1 + g2 + g3 + g4 == n;
  }

  /** `formatCPF`: keep the digits; when there are at least eleven, the first
      eleven are grouped `ddd.ddd.ddd-dd` (the pattern is not anchored, so any
      further digits follow the mask); with fewer, the bare digits. */
  function FormatCPF(cpf: string): (r: string)
    ensures Digits(r) == Digits(cpf)
    ensures |Digits(cpf)| < 11 ==> r == Digits(cpf)
    ensures |Digits(cpf)| >= 11 ==> |r| == |Digits(cpf)| + 3 && r[3] == '.' && r[7] == '.' && r[11] == '-'
  {
    var n := Digits(cpf);
    if |n| >= 11 then
      MascaraCPFDigits(n);
      MascaraCPF(n)
    else n
  }

  /** The mask is stable: formatting a formatted CPF changes nothing. */
  lemma FormatCPFIdempotent(cpf: string)
    ensures FormatCPF(FormatCPF(cpf)) == FormatCPF(cpf)
  {
  }

  /** `(dd) ` and a `-` before position `k` laid over a digit string. */
  function MascaraFone(n: string, k: nat): (m: string)
    requires 2 <= k <= |n|
    ensures |m| == |n| + 4 && m[0] == '(' && m[3] == ')' && m[4] == ' ' && m[k + 3] == '-'
  {
    "(" + n[..2] + ") " + n[2..k] + "-" + n[k..]
  }

  lemma MascaraFoneDigits(n: string, k: nat)
    requires AllDigits(n) && 2 <= k <= |n|
    ensures Digits(MascaraFone(n, k)) == n
  {
    var g1, g2, g3 := n[..2], n[2..k], n[k..];
    var m1 := "(" + g1;
    var m2 := m1 + ") " + g2;
    DigitsAppendGroup("", "(", g1);
    assert "" + "(" + g1 == m1;
    DigitsAppendGroup(m1, ") ", g2);
    DigitsAppendGroup(m2, "-", g3);
    assert g1 + g2 + g3 == n;
  }

  /** `formatPhone`: eleven digits read as `(dd) ddddd-dddd` (mobile), ten or
      more otherwise as `(dd) dddd-dddd` followed by any further digits, fewer
      than ten as the bare digits. */
  function FormatPhone(phone: string): (r: string)
    ensures Digits(r) == Digits(phone)
    ensures |Digits(phone)| < 10 ==> r == Digits(phone)
    ensures |Digits(phone)| == 11 ==> |r| == 15 && r[0] == '(' && r[3] == ')' && r[4] == ' ' && r[10] == '-'
    ensures |Digits(phone)| == 10 ==> |r| == 14 && r[0] == '(' && r[3] == ')' && r[4] == ' ' && r[9] == '-'
  {
    var n := Digits(phone);
    if |n| >= 10 then
      var k := if |n| == 11 then 7 else 6;
      MascaraFoneDigits(n, k);
      MascaraFone(n, k)
    else n
  }

  /** The phone mask is stable as well. */
  lemma FormatPhoneIdempotent(phone: string)
    ensures FormatPhone(FormatPhone(phone)) == FormatPhone(phone)
  {
  }

  /** `s` has no opening brace, so no placeholder can start inside it. */
  predicate SemChave(s: string) {
    '{' !in s
  }

  /** `gerarMensagemWhatsApp`: the first `{nome}`, then the first `{valor}`, then
      the first `{data}` of the template are replaced, in that order, by the
      customer's name, the rendered amount due now and the rendered due date.
      `formatCurrency` and `formatDate` stand for the `pt-BR` formatters. */
  function GerarMensagemWhatsApp(c: Cliente, template: string, now: int,
                                 formatCurrency: real -> string, formatDate: int -> string): (m: string)
    ensures !Contains(template, "{nome}") && !Contains(template, "{valor}") && !Contains(template, "{data}") ==> m == template
  {
    var s1 := ReplaceFirst(template, "{nome}", c.nome);
    var s2 := ReplaceFirst(s1, "{valor}", formatCurrency(CalcularValorTotal(c, now)));
    ReplaceFirst(s2, "{data}", formatDate(c.dataVencimento))
  }

  /** A template with no brace at all is sent as it is. */
  lemma MensagemSemMarcadores(c: Cliente, template: string, now: int,
                              formatCurrency: real -> string, formatDate: int -> string)
    requires SemChave(template)
    ensures GerarMensagemWhatsApp(c, template, now, formatCurrency, formatDate) == template
  {
    AbsentFirstChar(template, "{nome}");
    AbsentFirstChar(template, "{valor}");
    AbsentFirstChar(template, "{data}");
  }

  /** No brace in either part, none in the whole. */
  lemma SemChaveConcat(a: string, b: string)
    requires SemChave(a) && SemChave(b)
    ensures SemChave(a + b)
  {
  }

  /** The text of the collection message configured out of the box, between its placeholders. */
  const Trecho0: string := "Olá "
  const Trecho1: string := ", estamos lembrando que sua dívida de "
  const Trecho2: string := " venceu em "
  const Trecho3: string := ". Podemos agendar o pagamento?"

  /** The collection message configured out of the box:
      "Olá {nome}, estamos lembrando que sua dívida de {valor} venceu em {data}. Podemos agendar o pagamento?" */
  const MensagemPadrao: string := Trecho0 + "{nome}" + Trecho1 + "{valor}" + Trecho2 + "{data}" + Trecho3

  lemma TrechosSemChave()
    ensures SemChave(Trecho0) && SemChave(Trecho1) && SemChave(Trecho2)
  {
  }

  /** The default template filled in: each placeholder is replaced where it
      stands, provided the name and amount open no brace of their own and no
      inserted text holds a `$` substitution pattern (a currency such as
      `R$ 120,00` holds none). */
  lemma MensagemPadraoPreenchida(c: Cliente, now: int, formatCurrency: real -> string, formatDate: int -> string)
    requires SemChave(c.nome) && IsLiteralReplacement(c.nome)
    requires SemChave(formatCurrency(CalcularValorTotal(c, now)))
    requires IsLiteralReplacement(formatCurrency(CalcularValorTotal(c, now)))
    requires IsLiteralReplacement(formatDate(c.dataVencimento))
    ensures GerarMensagemWhatsApp(c, MensagemPadrao, now, formatCurrency, formatDate) ==
              Trecho0 + c.nome + Trecho1 + formatCurrency(CalcularValorTotal(c, now)) +
              Trecho2 + formatDate(c.dataVencimento) + Trecho3
  {
    TrechosSemChave();
    PreencherTres(Trecho0, Trecho1, Trecho2, Trecho3, c.nome, formatCurrency(CalcularValorTotal(c, now)),
                  formatDate(c.dataVencimento));
  }

  /** Any template shaped `t0{nome}t1{valor}t2{data}t3`, whose text before
      `{data}` opens no other brace, is filled in place. */
  lemma PreencherTres(t0: string, t1: string, t2: string, t3: string, nome: string, valor: string, data: string)
    requires SemChave(t0) && SemChave(t1) && SemChave(t2) && SemChave(nome) && SemChave(valor)
    requires IsLiteralReplacement(nome) && IsLiteralReplacement(valor) && IsLiteralReplacement(data)
    ensures var m := t0 + "{nome}" + t1 + "{valor}" + t2 + "{data}" + t3;
            ReplaceFirst(ReplaceFirst(ReplaceFirst(m, "{nome}", nome), "{valor}", valor), "{data}", data) ==
              t0 + nome + t1 + valor + t2 + data + t3
  {
    var m := t0 + "{nome}" + t1 + "{valor}" + t2 + "{data}" + t3;
    var r1 := t2 + "{data}" + t3;
    var r0 := t1 + "{valor}" + r1;
    assert m == t0 + "{nome}" + r0;
    ReplaceAfterPrefix(t0, "{nome}", r0, nome);
    var s1 := t0 + nome + r0;
    var a1 := t0 + nome + t1;
    assert s1 == a1 + "{valor}" + r1;
    SemChaveConcat(t0, nome);
    SemChaveConcat(t0 + nome, t1);
    ReplaceAfterPrefix(a1, "{valor}", r1, valor);
    var s2 := a1 + valor + r1;
    var a2 := a1 + valor + t2;
    assert s2 == a2 + "{data}" + t3;
    SemChaveConcat(a1, valor);
    SemChaveConcat(a1 + valor, t2);
    ReplaceAfterPrefix(a2, "{data}", t3, data);
  }

  /** The number put in the `wa.me` link: the phone's digits, prefixed with
      Brazil's country code 55 unless they already start with it. */
  function NumeroWhatsApp(telefone: string): (r: string)
    ensures AllDigits(r) && StartsWith(r, "55")
    ensures StartsWith(Digits(telefone), "55") ==> r == Digits(telefone)
    ensures !StartsWith(Digits(telefone), "55") ==> r == "55" + Digits(telefone)
  {
    var n := Digits(telefone);
    if StartsWith(n, "55") then n else "55" + n
  }

  /** Building the number twice gives the same number. */
  lemma NumeroWhatsAppIdempotent(telefone: string)
    ensures NumeroWhatsApp(NumeroWhatsApp(telefone)) == NumeroWhatsApp(telefone)
  {
  }

  /** A national number from area code 55, `(55) 99123-4567`, already starts
      with "55", so no country code is added: the link dials country 55, area 99. */
  lemma NumeroWhatsAppDDD55()
    ensures NumeroWhatsApp("55991234567") == "55991234567"
    ensures NumeroWhatsApp("55991234567") != "55" + Digits("55991234567")
  {
    assert AllDigits("55991234567");
  }

  /** The evidently intended rule: the digits already carry the country code
      only when there are more than a national number's eleven. */
  function NumeroWhatsAppCorrigido(telefone: string): (r: string)
    ensures AllDigits(r) && StartsWith(r, "55")
  {
    var n := Digits(telefone);
    if |n| > 11 && StartsWith(n, "55") then n else "55" + n
  }

  /** With the corrected rule every national number (ten or eleven digits) is
      dialled as country code 55 followed by that number, whatever its area code. */
  lemma NumeroNacionalPreservado(telefone: string)
    requires 10 <= |Digits(telefone)| <= 11
    ensures NumeroWhatsAppCorrigido(telefone) == "55" + Digits(telefone)
    ensures NumeroWhatsAppCorrigido(telefone)[2..] == Digits(telefone)
  {
  }

  /** `abrirWhatsApp`'s link; `encode` stands for `encodeURIComponent`. */
  function UrlWhatsApp(telefone: string, mensagem: string, encode: string -> string): (url: string)
    ensures StartsWith(url, "https://wa.me/55")
    ensures var n := NumeroWhatsApp(telefone);
            && |url| == |"https://wa.me/"| + |n| + |"?text="| + |encode(mensagem)|
            && url[14..14 + |n|] == n
            && url[14 + |n|..20 + |n|] == "?text="
    ensures |url| >= |encode(mensagem)| && url[|url| - |encode(mensagem)|..] == encode(mensagem)
  {
    var numero := NumeroWhatsApp(telefone);
    var url := "https://wa.me/" + numero + "?text=" + encode(mensagem);
    assert url[..16] == "https://wa.me/" + numero[..2];
    assert url[|url| - |encode(mensagem)|..] == encode(mensagem);
    url
  }

  /** An entry of `categoriasDespesas`: stored `value` and display `label` (`rotulo`). */
  datatype OpcaoCategoria = OpcaoCategoria(value: string, rotulo: string)

  const CategoriasDespesas: seq<OpcaoCategoria> := [
    OpcaoCategoria("agua", "Água"),
    OpcaoCategoria("luz", "Luz"),
    OpcaoCategoria("carro", "Carro"),
    OpcaoCategoria("alimentacao", "Alimentação"),
    OpcaoCategoria("aluguel", "Aluguel"),
    OpcaoCategoria("internet", "Internet"),
    OpcaoCategoria("telefone", "Telefone"),
    OpcaoCategoria("outros", "Outros")
  ]

  /** The categories in the order the list offers them. */
  const OrdemCategorias: seq<Categoria> := [Agua, Luz, Carro, Alimentacao, Aluguel, Internet, Telefone, Outros]

  /** The list offers every category exactly once, in declaration order, each
      under the literal it is stored as. */
  lemma CategoriasCompletas()
    ensures |CategoriasDespesas| == |OrdemCategorias| == 8
    ensures forall i :: 0 <= i < |CategoriasDespesas| ==> CategoriasDespesas[i].value == CategoriaValue(OrdemCategorias[i])
    ensures forall c: Categoria :: c in OrdemCategorias
    ensures forall i, j :: 0 <= i < j < |CategoriasDespesas| ==> CategoriasDespesas[i].value != CategoriasDespesas[j].value
  {
    forall c: Categoria
      ensures c in OrdemCategorias
    {
      match c
      case Agua => assert OrdemCategorias[0] == c;
      case Luz => assert OrdemCategorias[1] == c;
      case Carro => assert OrdemCategorias[2] == c;
      case Alimentacao => assert OrdemCategorias[3] == c;
      case Aluguel => assert OrdemCategorias[4] == c;
      case Internet => assert OrdemCategorias[5] == c;
      case Telefone => assert OrdemCategorias[6] == c;
      case Outros => assert OrdemCategorias[7] == c;
    }
    forall i, j | 0 <= i < j < |CategoriasDespesas|
      ensures CategoriasDespesas[i].value != CategoriasDespesas[j].value
    {
      ParseCategoriaValue(OrdemCategorias[i]);
      ParseCategoriaValue(OrdemCategorias[j]);
    }
  }
}

=== FILE: handlers.dfy ===
/** The event handlers of src/app/page.tsx that change the books: importing
    selected contacts, saving the customer form, saving the expense form,
    recording a payment and undoing one. Each is a function from the lists as
    the screen last rendered them to the lists it leaves behind; alerts are
    left out, `confirm()` answers, fresh ids and the clock are parameters. */
module Handlers {
  import opened Common
  import opened Text
  import opened Types
  import opened Seqs
  import opened Calendar
  import opened Accrual
  import opened Reports
  import opened Storage
  import opened Contacts

  // ---------------------------------------------------------------------------
  // importSelectedContacts

  function IdContato(c: Contato): nat { c.id }

  /** `importedContacts.find(c => c.id === contactId)`. */
  function ContatoPorId(cs: seq<Contato>, id: nat): Option<Contato> {
    Buscar(cs, IdContato, id)
  }

  /** How many selected ids name a listed contact. */
  function Encontrados(cs: seq<Contato>, sel: seq<nat>): (n: nat)
    ensures n <= |sel|
  {
    if |sel| == 0 then 0
    else (if ContatoPorId(cs, sel[0]).Some? then 1 else 0) + Encontrados(cs, sel[1..])
  }

  /** The due date of an imported customer: the UTC calendar day thirty days
      from now (`toISOString().split('T')[0]`, read back as UTC midnight). */
  function VencimentoImportado(now: int): (d: int)
    ensures d % DayMs == 0
    ensures d <= now + 30 * DayMs < d + DayMs
  {
    ((now + 30 * DayMs) / DayMs) * DayMs
  }

  const PrefixoImportado := "Importado de contatos - Original: "

  /** The record handed to `adicionarCliente` for one contact. */
  function DadosImportados(c: Contato, now: int, juros: real): (d: DadosCliente)
    ensures d.nome == c.nome && d.telefone == c.telefone && d.valorDivida == 0.0
    ensures d.observacoes == Some(PrefixoImportado + c.original)
  {
    DadosCliente(c.nome, c.telefone, "", Some(""), 0.0, VencimentoImportado(now), juros,
                 Some(PrefixoImportado + c.original), Some(""))
  }

  /** The fixed fields of an imported customer: no debt, due in thirty days, the configured rate. */
  predicate Importado(d: DadosCliente, now: int, juros: real) {
    d.valorDivida == 0.0 && d.dataVencimento == VencimentoImportado(now) && d.jurosPercentual == juros
  }

  /** The `forEach` over the selection: for each id that names a contact,
      either the record to add or one more duplicate. The duplicate check reads
      the customer list as rendered, never the records added in this batch. */
  function Triar(clientes: seq<Cliente>, contatos: seq<Contato>, sel: seq<nat>, now: int, juros: real): (r: (seq<DadosCliente>, nat))
    ensures |r.0| + r.1 == Encontrados(contatos, sel)
    ensures forall i :: 0 <= i < |r.0| ==> !VerificarClienteExistente(clientes, r.0[i].nome, None)
    ensures forall i :: 0 <= i < |r.0| ==> Importado(r.0[i], now, juros)
  {
    if |sel| == 0 then ([], 0)
    else Frente(clientes, contatos, sel[0], Triar(clientes, contatos, sel[1..], now, juros), now, juros)
  }

  /** The customers `adicionarCliente` builds for a batch, the `i`-th with the `i`-th fresh id. */
  function NovosClientes(ds: seq<DadosCliente>, ids: seq<string>, now: int): (cs: seq<Cliente>)
    requires |ids| >= |ds|
    ensures |cs| == |ds|
    ensures forall i :: 0 <= i < |ds| ==> DadosDe(cs[i]) == ds[i] && cs[i].id == ids[i] && cs[i].status == Ativo
  {
    seq(|ds|, i requires 0 <= i < |ds| => NovoCliente(ds[i], ids[i], now))
  }

  /** What the import leaves behind, and the two numbers of the closing alert. */
  datatype Importacao = Importacao(clientes: seq<Cliente>, importados: nat, duplicados: nat)

  /** The triage `antes` extended by one more selected id `x`: a contact it
      names is either one more duplicate, when the list as rendered already
      has its name, or one more record to add, after those already kept. */
  function Passo(clientes: seq<Cliente>, contatos: seq<Contato>, antes: (seq<DadosCliente>, nat), x: nat,
                 now: int, juros: real): (seq<DadosCliente>, nat)
  {
    match ContatoPorId(contatos, x)
    case None => antes
    case Some(c) =>
      if VerificarClienteExistente(clientes, c.nome, None) then (antes.0, antes.1 + 1)
      else (antes.0 + [DadosImportados(c, now, juros)], antes.1)
  }

  /** The triage read left to right: one more id at the end of the selection
      is one more `Passo`. With `Triar(…, [], …) == ([], 0)` this fixes which
      found contacts are counted as duplicates and which records are added,
      in selection order. */
  lemma {:induction false} TriarAcrescentar(clientes: seq<Cliente>, contatos: seq<Contato>, sel: seq<nat>, x: nat,
                                            now: int, juros: real)
    ensures Triar(clientes, contatos, sel + [x], now, juros) ==
              Passo(clientes, contatos, Triar(clientes, contatos, sel, now, juros), x, now, juros)
    decreases |sel|
  {
    if |sel| == 0 {
      assert sel + [x] == [x];
      TriarUnitario(clientes, contatos, x, now, juros);
    } else {
      assert (sel + [x])[1..] == sel[1..] + [x];
      TriarAcrescentar(clientes, contatos, sel[1..], x, now, juros);
      TriarPasso(clientes, contatos, sel, x, now, juros);
    }
  }

  lemma TriarUnitario(clientes: seq<Cliente>, contatos: seq<Contato>, x: nat, now: int, juros: real)
    ensures Triar(clientes, contatos, [x], now, juros) == Passo(clientes, contatos, ([], 0), x, now, juros)
  {
    assert [x][1..] == [] && [x][0] == x;
    match ContatoPorId(contatos, x)
    case None =>
    case Some(c) =>
      var d := DadosImportados(c, now, juros);
      assert [d] + [] == [] + [d];
  }

  /** The inductive step of `TriarAcrescentar`: the head's contribution goes
      in front of the rest, `x`'s at the end, in either order. */
  lemma TriarPasso(clientes: seq<Cliente>, contatos: seq<Contato>, sel: seq<nat>, x: nat, now: int, juros: real)
    requires |sel| > 0 && (sel + [x])[1..] == sel[1..] + [x]
    requires Triar(clientes, contatos, sel[1..] + [x], now, juros) ==
               Passo(clientes, contatos, Triar(clientes, contatos, sel[1..], now, juros), x, now, juros)
    ensures Triar(clientes, contatos, sel + [x], now, juros) ==
              Passo(clientes, contatos, Triar(clientes, contatos, sel, now, juros), x, now, juros)
  {
    var rest := Triar(clientes, contatos, sel[1..], now, juros);
    calc {
      Triar(clientes, contatos, sel + [x], now, juros);
    == { assert (sel + [x])[0] == sel[0]; }
      Frente(clientes, contatos, sel[0], Triar(clientes, contatos, sel[1..] + [x], now, juros), now, juros);
    ==
      Frente(clientes, contatos, sel[0], Passo(clientes, contatos, rest, x, now, juros), now, juros);
    == { FrentePasso(clientes, contatos, sel[0], x, rest, now, juros); }
      Passo(clientes, contatos, Frente(clientes, contatos, sel[0], rest, now, juros), x, now, juros);
    ==
      Passo(clientes, contatos, Triar(clientes, contatos, sel, now, juros), x, now, juros);
    }
  }

  /** The triage `depois` of the rest of the selection, preceded by the id `x`. */
  function Frente(clientes: seq<Cliente>, contatos: seq<Contato>, x: nat, depois: (seq<DadosCliente>, nat),
                  now: int, juros: real): (seq<DadosCliente>, nat)
  {
    match ContatoPorId(contatos, x)
    case None => depois
    case Some(c) =>
      if VerificarClienteExistente(clientes, c.nome, None) then (depois.0, depois.1 + 1)
      else ([DadosImportados(c, now, juros)] + depois.0, depois.1)
  }

  /** Adding an id in front and one at the end commute. */
  lemma FrentePasso(clientes: seq<Cliente>, contatos: seq<Contato>, x0: nat, x: nat, t: (seq<DadosCliente>, nat),
                    now: int, juros: real)
    ensures Passo(clientes, contatos, Frente(clientes, contatos, x0, t, now, juros), x, now, juros) ==
              Frente(clientes, contatos, x0, Passo(clientes, contatos, t, x, now, juros), now, juros)
  {
    match ContatoPorId(contatos, x)
    case None =>
    case Some(c) =>
      var d := DadosImportados(c, now, juros);
      assert forall e :: [e] + (t.0 + [d]) == ([e] + t.0) + [d];
  }

  /** `importSelectedContacts` as written: nothing for an empty selection;
      otherwise every append goes through `setValue`, which applies the
      updater to the list as rendered, so only the last new customer is kept
      although every one is counted as imported. */
  function ImportarSelecionados(clientes: seq<Cliente>, contatos: seq<Contato>, sel: seq<nat>,
                                ids: seq<string>, now: int, juros: real): (r: Option<Importacao>)
    requires |ids| >= |sel|
    ensures r.None? <==> |sel| == 0
    ensures r.Some? ==> r.value.importados + r.value.duplicados == Encontrados(contatos, sel)
    ensures r.Some? ==> var t := Triar(clientes, contatos, sel, now, juros);
              r.value.importados == |t.0| && r.value.duplicados == t.1
    ensures r.Some? && r.value.importados == 0 ==> r.value.clientes == clientes
    ensures r.Some? && r.value.importados > 0 ==>
              |r.value.clientes| == |clientes| + 1 && r.value.clientes[..|clientes|] == clientes
    ensures r.Some? && r.value.importados > 0 ==>
              var dados := Triar(clientes, contatos, sel, now, juros).0;
              var k := r.value.importados - 1;
              && r.value.clientes == clientes + [NovoCliente(dados[k], ids[k], now)]
              && r.value.clientes[|clientes|].status == Ativo && r.value.clientes[|clientes|].id == ids[k]
              && DadosDe(r.value.clientes[|clientes|]) == dados[k]
  {
    if |sel| == 0 then None
    else
      var (dados, dup) := Triar(clientes, contatos, sel, now, juros);
      var novos := NovosClientes(dados, ids, now);
      if |novos| > 0 then
        SoUltimoSobrevive(clientes, clientes, novos);
        Some(Importacao(AcrescentarComoEscrito(clientes, clientes, novos), |dados|, dup))
      else
        Some(Importacao(AcrescentarComoEscrito(clientes, clientes, novos), |dados|, dup))
  }

  /** Importing two or more new contacts at once keeps fewer customers than it reports. */
  lemma ImportacaoPerdeClientes(clientes: seq<Cliente>, contatos: seq<Contato>, sel: seq<nat>,
                                ids: seq<string>, now: int, juros: real)
    requires |ids| >= |sel|
    requires ImportarSelecionados(clientes, contatos, sel, ids, now, juros).Some?
    requires ImportarSelecionados(clientes, contatos, sel, ids, now, juros).value.importados >= 2
    ensures var r := ImportarSelecionados(clientes, contatos, sel, ids, now, juros).value;
            |r.clientes| < |clientes| + r.importados
  {
  }

  /** Evidently intended: every new customer appended, in selection order. */
  function ImportarSelecionadosCorrigido(clientes: seq<Cliente>, contatos: seq<Contato>, sel: seq<nat>,
                                         ids: seq<string>, now: int, juros: real): (r: Option<Importacao>)
    requires |ids| >= |sel|
    ensures r.None? <==> |sel| == 0
    ensures r.Some? ==> r.value.importados + r.value.duplicados == Encontrados(contatos, sel)
    ensures r.Some? ==> |r.value.clientes| == |clientes| + r.value.importados
    ensures r.Some? ==> r.value.clientes[..|clientes|] == clientes
    ensures r.Some? ==> forall i :: |clientes| <= i < |r.value.clientes| ==>
              r.value.clientes[i].status == Ativo && r.value.clientes[i].id == ids[i - |clientes|] &&
              !VerificarClienteExistente(clientes, r.value.clientes[i].nome, None) &&
              Importado(DadosDe(r.value.clientes[i]), now, juros)
    ensures r.Some? ==> r.value.duplicados == Triar(clientes, contatos, sel, now, juros).1
    ensures r.Some? ==> var dados := Triar(clientes, contatos, sel, now, juros).0;
              r.value.importados == |dados| &&
              forall i :: 0 <= i < |dados| ==> DadosDe(r.value.clientes[|clientes| + i]) == dados[i]
  {
    if |sel| == 0 then None
    else
      var (dados, dup) := Triar(clientes, contatos, sel, now, juros);
      var novos := NovosClientes(dados, ids, now);
      var todos := Acrescentar(clientes, novos);
      assert forall i :: |clientes| <= i < |todos| ==> todos[i] == novos[i - |clientes|];
      assert forall i :: 0 <= i < |novos| ==> novos[i].nome == dados[i].nome;
      Some(Importacao(todos, |dados|, dup))
  }

  /** The duplicate check never sees the batch itself: two selected contacts
      with the same new name are both imported. */
  lemma MesmoNomeNoLote(clientes: seq<Cliente>, contatos: seq<Contato>, a: nat, b: nat,
                        ids: seq<string>, now: int, juros: real)
    requires |ids| >= 2
    requires ContatoPorId(contatos, a).Some? && ContatoPorId(contatos, b).Some?
    requires ContatoPorId(contatos, a).value.nome == ContatoPorId(contatos, b).value.nome
    requires !VerificarClienteExistente(clientes, ContatoPorId(contatos, a).value.nome, None)
    ensures var r := ImportarSelecionadosCorrigido(clientes, contatos, [a, b], ids, now, juros).value;
            r.importados == 2 && r.duplicados == 0 &&
            |r.clientes| == |clientes| + 2 && r.clientes[|clientes|].nome == r.clientes[|clientes| + 1].nome
  {
    var ca := ContatoPorId(contatos, a).value;
    var cb := ContatoPorId(contatos, b).value;
    TriarDois(clientes, contatos, a, b, now, juros);
    var r := ImportarSelecionadosCorrigido(clientes, contatos, [a, b], ids, now, juros).value;
    assert DadosDe(r.clientes[|clientes|]).nome == ca.nome;
    assert DadosDe(r.clientes[|clientes| + 1]).nome == cb.nome;
  }

  /** As written, the same two contacts are both counted as imported, with no
      duplicate, but only one new customer is stored. */
  lemma MesmoNomeNoLoteComoEscrito(clientes: seq<Cliente>, contatos: seq<Contato>, a: nat, b: nat,
                                   ids: seq<string>, now: int, juros: real)
    requires |ids| >= 2
    requires ContatoPorId(contatos, a).Some? && ContatoPorId(contatos, b).Some?
    requires ContatoPorId(contatos, a).value.nome == ContatoPorId(contatos, b).value.nome
    requires !VerificarClienteExistente(clientes, ContatoPorId(contatos, a).value.nome, None)
    ensures var r := ImportarSelecionados(clientes, contatos, [a, b], ids, now, juros).value;
            r.importados == 2 && r.duplicados == 0 && |r.clientes| == |clientes| + 1
  {
    TriarDois(clientes, contatos, a, b, now, juros);
  }

  /** One selected id that names a new contact yields its record. */
  lemma TriarUm(clientes: seq<Cliente>, contatos: seq<Contato>, b: nat, now: int, juros: real)
    requires ContatoPorId(contatos, b).Some?
    requires !VerificarClienteExistente(clientes, ContatoPorId(contatos, b).value.nome, None)
    ensures Triar(clientes, contatos, [b], now, juros) == ([DadosImportados(ContatoPorId(contatos, b).value, now, juros)], 0)
  {
    assert [b][1..] == [];
    assert [b][0] == b;
    var x := DadosImportados(ContatoPorId(contatos, b).value, now, juros);
    assert [x] + [] == [x];
  }

  /** Two selected ids that both name new contacts are both kept by the triage. */
  lemma TriarDois(clientes: seq<Cliente>, contatos: seq<Contato>, a: nat, b: nat, now: int, juros: real)
    requires ContatoPorId(contatos, a).Some? && ContatoPorId(contatos, b).Some?
    requires !VerificarClienteExistente(clientes, ContatoPorId(contatos, a).value.nome, None)
    requires !VerificarClienteExistente(clientes, ContatoPorId(contatos, b).value.nome, None)
    ensures Triar(clientes, contatos, [a, b], now, juros) ==
              ([DadosImportados(ContatoPorId(contatos, a).value, now, juros),
                DadosImportados(ContatoPorId(contatos, b).value, now, juros)], 0)
  {
    var ca := ContatoPorId(contatos, a).value;
    var cb := ContatoPorId(contatos, b).value;
    TriarUm(clientes, contatos, b, now, juros);
    assert [a, b][1..] == [b];
    assert [a, b][0] == a;
    var x := DadosImportados(ca, now, juros);
    var y := DadosImportados(cb, now, juros);
    assert [x] + [y] == [x, y];
  }

  // ---------------------------------------------------------------------------
  // handleClientSubmit

  /** The customer form, its numbers already parsed. */
  datatype FormCliente = FormCliente(
    nome: string,
    telefone: string,
    cpf: string,
    endereco: string,
    valorDivida: real,
    dataVencimento: int,
    jurosPercentual: real,
    observacoes: string,
    produtoComprado: string)

  /** `clienteData`: the form with the name trimmed. */
  function DadosDoForm(f: FormCliente): DadosCliente {
    DadosCliente(Trim(f.nome), f.telefone, f.cpf, Some(f.endereco), f.valorDivida, f.dataVencimento,
                 f.jurosPercentual, Some(f.observacoes), Some(f.produtoComprado))
  }

  /** `clienteData` as a patch: every form field, but not `id`, `dataCadastro` or `status`. */
  function PatchDoForm(f: FormCliente): ClientePatch {
    var d := DadosDoForm(f);
    ClientePatch(None, Some(d.nome), Some(d.telefone), Some(d.cpf), Some(d.endereco), Some(d.valorDivida),
                 Some(d.dataVencimento), None, Some(d.jurosPercentual), None, Some(d.observacoes),
                 Some(d.produtoComprado))
  }

  /** A form submission either is refused (the duplicate alert) or saves a list. */
  datatype Envio = Recusado | Salvo(clientes: seq<Cliente>)

  /** Saving the form under the name `nomeVerificado` was checked against. */
  function Salvar(cs: seq<Cliente>, f: FormCliente, editando: Option<Cliente>, nomeVerificado: string,
                  id: string, now: int): (r: Envio)
    ensures r.Recusado? <==> editando.None? && VerificarClienteExistente(cs, nomeVerificado, None)
    ensures r.Salvo? && editando.None? ==>
              |r.clientes| == |cs| + 1 && r.clientes[..|cs|] == cs &&
              DadosDe(r.clientes[|cs|]) == DadosDoForm(f) && r.clientes[|cs|].status == Ativo
    ensures r.Salvo? && editando.Some? ==>
              |r.clientes| == |cs| &&
              forall i :: 0 <= i < |cs| ==>
                r.clientes[i] == if cs[i].id == editando.value.id
                                 then NovoCliente(DadosDoForm(f), cs[i].id, cs[i].dataCadastro).(status := cs[i].status)
                                 else cs[i]
  {
    match editando
    case Some(e) => Salvo(AtualizarCliente(cs, e.id, PatchDoForm(f)))
    case None =>
      if VerificarClienteExistente(cs, nomeVerificado, None) then Recusado
      else Salvo(AdicionarCliente(cs, DadosDoForm(f), id, now))
  }

  /** `handleClientSubmit` as written: the duplicate check uses the name as
      typed, the record saved uses it trimmed. An edit is never refused. */
  function SubmeterCliente(cs: seq<Cliente>, f: FormCliente, editando: Option<Cliente>, id: string, now: int): (r: Envio)
    ensures r.Recusado? <==> editando.None? && exists i :: 0 <= i < |cs| && Duplicado(cs[i], f.nome, None)
  {
    Salvar(cs, f, editando, f.nome, id, now)
  }

  /** No two active customers share a name, ignoring case. */
  predicate NomesUnicos(cs: seq<Cliente>) {
    forall i, j :: 0 <= i < j < |cs| && cs[i].status == Ativo && cs[j].status == Ativo ==>
      ToLower(cs[i].nome) != ToLower(cs[j].nome)
  }

  /** A trailing space slips past the duplicate check as written: with an
      active `Maria` on the books, a form naming `Maria ` saves a second active `Maria`. */
  lemma EspacoFinalBurlaDuplicidade(c: Cliente, f: FormCliente, id: string, now: int)
    requires c.status == Ativo && |c.nome| > 0 && !IsSpace(c.nome[0]) && !IsSpace(c.nome[|c.nome| - 1])
    requires f.nome == c.nome + " "
    ensures SubmeterCliente([c], f, None, id, now).Salvo?
    ensures !NomesUnicos(SubmeterCliente([c], f, None, id, now).clientes)
  {
    EspacoNaoDuplica(c, f.nome);
    TrimAppendSpace(c.nome);
    var e := SubmeterCliente([c], f, None, id, now);
    assert e.Salvo?;
    var r := e.clientes;
    assert r[..1] == [c] && DadosDe(r[1]) == DadosDoForm(f);
    assert r[0] == c && r[1].nome == c.nome && r[1].status == Ativo;
  }

  /** The check compares whole lower-cased names, so one more character makes them differ. */
  lemma EspacoNaoDuplica(c: Cliente, nome: string)
    requires nome == c.nome + " "
    ensures forall i :: 0 <= i < |[c]| ==> !Duplicado([c][i], nome, None)
  {
    assert |ToLower(c.nome)| != |ToLower(nome)|;
  }

  /** Evidently intended: check the name that is saved. */
  function SubmeterClienteCorrigido(cs: seq<Cliente>, f: FormCliente, editando: Option<Cliente>, id: string, now: int): (r: Envio)
    ensures r.Recusado? <==> editando.None? && exists i :: 0 <= i < |cs| && Duplicado(cs[i], Trim(f.nome), None)
    ensures NomesUnicos(cs) && editando.None? && r.Salvo? ==> NomesUnicos(r.clientes)
  {
    NovoNomeMantemUnicos(cs, f, Trim(f.nome), id, now);
    Salvar(cs, f, editando, Trim(f.nome), id, now)
  }

  /** Adding a customer whose checked name is the name saved keeps active names unique. */
  lemma NovoNomeMantemUnicos(cs: seq<Cliente>, f: FormCliente, nome: string, id: string, now: int)
    requires nome == Trim(f.nome)
    ensures var r := Salvar(cs, f, None, nome, id, now);
            NomesUnicos(cs) && r.Salvo? ==> NomesUnicos(r.clientes)
  {
    var r := Salvar(cs, f, None, nome, id, now);
    if NomesUnicos(cs) && r.Salvo? {
      assert r.clientes[|cs|].nome == nome;
      assert forall i :: 0 <= i < |cs| ==> r.clientes[i] == cs[i];
      assert forall i :: 0 <= i < |cs| ==> !Duplicado(cs[i], nome, None);
    }
  }

  // ---------------------------------------------------------------------------
  // handleDespesaSubmit

  /** The expense form, its amount already parsed. */
  datatype FormDespesa = FormDespesa(
    nome: string,
    categoria: Categoria,
    valor: real,
    data: int,
    observacao: string,
    recorrente: bool)

  /** `despesaData`: the form with the name trimmed. */
  function DadosDespesaDoForm(f: FormDespesa): DadosDespesa {
    DadosDespesa(Trim(f.nome), f.categoria, f.valor, f.data, Some(f.observacao), Some(f.recorrente))
  }

  function PatchDespesaDoForm(f: FormDespesa): DespesaPatch {
    var d := DadosDespesaDoForm(f);
    DespesaPatch(None, Some(d.nome), Some(d.categoria), Some(d.valor), Some(d.data), Some(d.observacao),
                 Some(d.recorrente))
  }

  /** The outflow transaction recorded beside a new expense. */
  function SaidaDaDespesa(f: FormDespesa): (t: DadosTransacao)
    ensures t.tipo == Saida && t.valor == f.valor && t.clienteId.None?
    ensures t.descricao == "Despesa: " + DadosDespesaDoForm(f).nome
    ensures t.categoria == Some(CategoriaValue(DadosDespesaDoForm(f).categoria))
  {
    DadosTransacao(None, Saida, f.valor, "Despesa: " + Trim(f.nome), Some(CategoriaValue(f.categoria)))
  }

  /** `handleDespesaSubmit`: an edit patches the expense only; a new expense is
      appended and, beside it, an outflow transaction of the same amount. */
  function SubmeterDespesa(ds: seq<Despesa>, ts: seq<Transacao>, f: FormDespesa, editando: Option<Despesa>,
                           idD: string, idT: string, now: int): (r: (seq<Despesa>, seq<Transacao>))
    ensures editando.Some? ==> r.1 == ts && |r.0| == |ds|
    ensures editando.Some? ==> forall i :: 0 <= i < |ds| ==>
              r.0[i] == if ds[i].id == editando.value.id then DespesaComId(ds[i].id, DadosDespesaDoForm(f)) else ds[i]
    ensures editando.None? ==> |r.0| == |ds| + 1 && r.0[..|ds|] == ds && |r.1| == |ts| + 1 && r.1[..|ts|] == ts
    ensures editando.None? ==> r.0[|ds|].valor == f.valor && r.1[|ts|].tipo == Saida && r.1[|ts|].valor == f.valor
    ensures editando.None? ==> DadosDespesaDe(r.0[|ds|]) == DadosDespesaDoForm(f) && r.0[|ds|].id == idD
    ensures editando.None? ==>
              DadosTransacaoDe(r.1[|ts|]) == SaidaDaDespesa(f) && r.1[|ts|].id == idT && r.1[|ts|].data == now
  {
    match editando
    case Some(e) => (AtualizarDespesa(ds, e.id, PatchDespesaDoForm(f)), ts)
    case None => (AdicionarDespesa(ds, DadosDespesaDoForm(f), idD), AdicionarTransacao(ts, SaidaDaDespesa(f), idT, now))
  }

  /** The expense record with id `id` and data `d`. */
  function DespesaComId(id: string, d: DadosDespesa): Despesa {
    Despesa(id, d.nome, d.categoria, d.valor, d.data, d.observacao, d.recorrente)
  }

  /** A new expense is counted twice in the report's outflows: once as an
      expense and once as the outflow transaction recorded beside it. */
  lemma DespesaContadaDuasVezes(cs: seq<Cliente>, ds: seq<Despesa>, ts: seq<Transacao>, f: FormDespesa,
                                idD: string, idT: string, now: int)
    ensures var (ds2, ts2) := SubmeterDespesa(ds, ts, f, None, idD, idT, now);
            var antes := GerarRelatorio(cs, ts, Some(ds), now);
            var depois := GerarRelatorio(cs, ts2, Some(ds2), now);
            depois.totalSaidas == antes.totalSaidas + 2.0 * f.valor &&
            depois.lucroLiquido == antes.lucroLiquido - 2.0 * f.valor
  {
    var (ds2, ts2) := SubmeterDespesa(ds, ts, f, None, idD, idT, now);
    assert ds2 == ds + [ds2[|ds|]];
    assert ts2 == ts + [ts2[|ts|]];
    RelatorioNovaDespesa(cs, ts, ds, now, ds2[|ds|]);
    RelatorioNovaTransacao(cs, ts, Some(ds2), now, ts2[|ts|]);
  }

  /** Evidently intended: a new expense is recorded once, as an expense. */
  function SubmeterDespesaCorrigido(ds: seq<Despesa>, ts: seq<Transacao>, f: FormDespesa, editando: Option<Despesa>,
                                    idD: string): (r: (seq<Despesa>, seq<Transacao>))
    ensures r.1 == ts
    ensures editando.None? ==> |r.0| == |ds| + 1 && r.0[..|ds|] == ds && r.0[|ds|].valor == f.valor
    ensures editando.None? ==> DadosDespesaDe(r.0[|ds|]) == DadosDespesaDoForm(f) && r.0[|ds|].id == idD
    ensures editando.Some? ==> |r.0| == |ds| && forall i :: 0 <= i < |ds| ==>
              r.0[i] == if ds[i].id == editando.value.id then DespesaComId(ds[i].id, DadosDespesaDoForm(f)) else ds[i]
  {
    match editando
    case Some(e) => (AtualizarDespesa(ds, e.id, PatchDespesaDoForm(f)), ts)
    case None => (AdicionarDespesa(ds, DadosDespesaDoForm(f), idD), ts)
  }

  /** With the correction, a new expense lowers the net result by its amount once. */
  lemma DespesaContadaUmaVez(cs: seq<Cliente>, ds: seq<Despesa>, ts: seq<Transacao>, f: FormDespesa, idD: string, now: int)
    ensures var (ds2, ts2) := SubmeterDespesaCorrigido(ds, ts, f, None, idD);
            var antes := GerarRelatorio(cs, ts, Some(ds), now);
            var depois := GerarRelatorio(cs, ts2, Some(ds2), now);
            depois.totalSaidas == antes.totalSaidas + f.valor &&
            depois.lucroLiquido == antes.lucroLiquido - f.valor
  {
    var (ds2, ts2) := SubmeterDespesaCorrigido(ds, ts, f, None, idD);
    assert ds2 == ds + [ds2[|ds|]];
    RelatorioNovaDespesa(cs, ts, ds, now, ds2[|ds|]);
  }

  // ---------------------------------------------------------------------------
  // handlePagamento and handleDesfazerPagamento

  /** The inflow recorded for a payment: the principal plus the interest accrued by now. */
  function EntradaDoPagamento(c: Cliente, now: int): (t: DadosTransacao)
    ensures t.clienteId == Some(c.id) && t.tipo == Entrada
    ensures c.valorDivida >= 0.0 && c.jurosPercentual >= 0.0 ==> t.valor >= c.valorDivida
    ensures t.valor == CalcularValorTotal(c, now)
    ensures t.descricao == "Pagamento de " + c.nome && t.categoria == Some("pagamento")
  {
    DadosTransacao(Some(c.id), Entrada, CalcularValorTotal(c, now), "Pagamento de " + c.nome, Some("pagamento"))
  }

  /** `handlePagamento`: once confirmed, an inflow of the amount due is recorded
      and the customer is marked paid; declined, nothing changes. */
  function Pagar(cs: seq<Cliente>, ts: seq<Transacao>, c: Cliente, confirmado: bool, idT: string, now: int): (r: (seq<Cliente>, seq<Transacao>))
    ensures !confirmado ==> r == (cs, ts)
    ensures confirmado ==> |r.1| == |ts| + 1 && r.1[..|ts|] == ts && r.1[|ts|].id == idT
    ensures confirmado ==> DadosTransacaoDe(r.1[|ts|]) == EntradaDoPagamento(c, now)
    ensures confirmado ==> |r.0| == |cs| && forall i :: 0 <= i < |cs| ==>
              r.0[i] == if cs[i].id == c.id then cs[i].(status := Pago) else cs[i]
  {
    if confirmado then (MarcarComoPago(cs, c.id), AdicionarTransacao(ts, EntradaDoPagamento(c, now), idT, now))
    else (cs, ts)
  }

  /** A confirmed payment raises the report's inflows by the amount due. */
  lemma PagamentoNoRelatorio(cs: seq<Cliente>, ts: seq<Transacao>, ds: seq<Despesa>, c: Cliente, idT: string, now: int)
    ensures var (cs2, ts2) := Pagar(cs, ts, c, true, idT, now);
            GerarRelatorio(cs2, ts2, Some(ds), now).totalEntradas ==
              GerarRelatorio(cs, ts, Some(ds), now).totalEntradas + CalcularValorTotal(c, now)
  {
    var (cs2, ts2) := Pagar(cs, ts, c, true, idT, now);
    assert ts2 == ts + [ts2[|ts|]];
    RelatorioNovaTransacao(cs2, ts, Some(ds), now, ts2[|ts|]);
  }

  /** `clientes.find(c => c.id === id)`. */
  function ClientePorId(cs: seq<Cliente>, id: string): Option<Cliente> {
    Buscar(cs, IdCliente, id)
  }

  /** With unique ids, the record a search by id finds is the only one with that id. */
  lemma ClienteComIdUnico(cs: seq<Cliente>, c: Cliente)
    ensures IdsUnicos(cs, IdCliente) && c in cs ==>
              forall i :: 0 <= i < |cs| && cs[i].id == c.id ==> cs[i] == c
  {
    if IdsUnicos(cs, IdCliente) && c in cs {
      var k :| 0 <= k < |cs| && cs[k] == c;
      forall i | 0 <= i < |cs| && cs[i].id == c.id
        ensures cs[i] == c
      {
        assert IdCliente(cs[i]) == cs[i].id && IdCliente(cs[k]) == cs[k].id;
      }
    }
  }

  /** The customer half of the undo: the customer with that id, when paid, is
      made active again by patching in the whole found record. */
  function Reativar(cs: seq<Cliente>, id: string): (r: seq<Cliente>)
    ensures |r| == |cs|
    ensures forall i :: 0 <= i < |cs| && cs[i].id != id ==> r[i] == cs[i]
    ensures IdsUnicos(cs, IdCliente) ==> forall i :: 0 <= i < |cs| ==>
              r[i] == if cs[i].id == id && cs[i].status == Pago then cs[i].(status := Ativo) else cs[i]
  {
    match ClientePorId(cs, id)
    case None => cs
    case Some(c) =>
      if c.status == Pago then
        ClienteComIdUnico(cs, c);
        AtualizarCliente(cs, c.id, PatchCompleto(c.(status := Ativo)))
      else
        ClienteComIdUnico(cs, c);
        cs
  }

  /** `handleDesfazerPagamento`: only for an inflow tied to a customer, and only
      once its own question is confirmed. The paid customer is made active
      again; then the transaction goes, if `removerTransacao`'s own question is
      confirmed too. */
  function Desfazer(cs: seq<Cliente>, ts: seq<Transacao>, t: Transacao, confirmado: bool, confirmaRemocao: bool): (r: (seq<Cliente>, seq<Transacao>))
    ensures !confirmado || t.clienteId.None? || t.clienteId == Some("") || t.tipo == Saida ==> r == (cs, ts)
    ensures confirmado && t.clienteId.Some? && t.clienteId != Some("") && t.tipo == Entrada ==>
              r.0 == Reativar(cs, t.clienteId.value) && r.1 == RemoverTransacao(ts, t.id, confirmaRemocao)
  {
    if confirmado && t.clienteId.Some? && t.clienteId.value != "" && t.tipo == Entrada then
      (Reativar(cs, t.clienteId.value), RemoverTransacao(ts, t.id, confirmaRemocao))
    else (cs, ts)
  }

  /** Marking paid keeps ids, so it keeps them unique. */
  lemma PagoMantemIds(cs: seq<Cliente>, id: string)
    requires IdsUnicos(cs, IdCliente)
    ensures IdsUnicos(MarcarComoPago(cs, id), IdCliente)
  {
    var r := MarcarComoPago(cs, id);
    forall i, j | 0 <= i < j < |r|
      ensures IdCliente(r[i]) != IdCliente(r[j])
    {
      assert IdCliente(cs[i]) != IdCliente(cs[j]);
    }
  }

  /** Paying an active customer and undoing it, with both questions confirmed,
      restores both lists exactly. */
  lemma PagarEDesfazer(cs: seq<Cliente>, ts: seq<Transacao>, k: nat, idT: string, now: int)
    requires k < |cs| && IdsUnicos(cs, IdCliente)
    requires cs[k].status == Ativo && cs[k].id != ""
    requires forall i :: 0 <= i < |ts| ==> ts[i].id != idT
    ensures var (cs1, ts1) := Pagar(cs, ts, cs[k], true, idT, now);
            Desfazer(cs1, ts1, ts1[|ts|], true, true) == (cs, ts)
  {
    var c := cs[k];
    PagoMantemIds(cs, c.id);
    ClienteComIdUnico(cs, c);
    var (cs1, ts1) := Pagar(cs, ts, c, true, idT, now);
    var t := ts1[|ts|];
    assert t.id == idT && t.clienteId == Some(c.id) && t.tipo == Entrada;
    var cs2 := Reativar(cs1, c.id);
    forall i | 0 <= i < |cs|
      ensures cs2[i] == cs[i]
    {
      if cs[i].id == c.id {
        assert cs1[i] == c.(status := Pago);
      }
    }
    assert cs2 == cs;
    assert ts1 == ts + [t];
    RemoverRecemAdicionada(ts, t);
    assert Desfazer(cs1, ts1, t, true, true) == (cs2, RemoverTransacao(ts1, t.id, true));
  }

  /** Removing, with confirmation, a transaction just appended under a fresh id gives back the list before. */
  lemma RemoverRecemAdicionada(ts: seq<Transacao>, t: Transacao)
    requires forall i :: 0 <= i < |ts| ==> ts[i].id != t.id
    ensures RemoverTransacao(ts + [t], t.id, true) == ts
  {
    SemIdConcat(ts, [t], IdTransacao, t.id);
    SemIdAusente(ts, IdTransacao, t.id);
    assert SemId([t], IdTransacao, t.id) == [];
  }

  /** Declining only the second question leaves the books inconsistent: the
      customer owes again while the payment still counts as received. */
  lemma DesfazerPelaMetade(cs: seq<Cliente>, ts: seq<Transacao>, k: nat, idT: string, now: int)
    requires k < |cs| && IdsUnicos(cs, IdCliente)
    requires cs[k].status == Ativo && cs[k].id != ""
    ensures var (cs1, ts1) := Pagar(cs, ts, cs[k], true, idT, now);
            var (cs2, ts2) := Desfazer(cs1, ts1, ts1[|ts|], true, false);
            cs2 == cs && ts2 == ts1 && ts2[|ts|].tipo == Entrada
  {
    var c := cs[k];
    PagoMantemIds(cs, c.id);
    ClienteComIdUnico(cs, c);
  }
}

=== FILE: reports.dfy ===
/** The global summary and the monthly report (src/lib/utils.ts). */
module Reports {
  import opened Common
  import opened Types
  import opened Seqs
  import opened Calendar
  import opened Accrual

  /** Sum of the amounts of the transactions of type `tipo`. */
  function TotalTipo(ts: seq<Transacao>, tipo: Tipo): real {
    if |ts| == 0 then 0.0 else (if ts[0].tipo == tipo then ts[0].valor else 0.0) + TotalTipo(ts[1..], tipo)
  }

  lemma {:induction false} TotalTipoConcat(a: seq<Transacao>, b: seq<Transacao>, tipo: Tipo)
    ensures TotalTipo(a + b, tipo) == TotalTipo(a, tipo) + TotalTipo(b, tipo)
  {
    if |a| == 0 {
      assert a + b == b;
    } else {
      assert (a + b)[1..] == a[1..] + b;
      TotalTipoConcat(a[1..], b, tipo);
    }
  }

  /** Sum of all expense amounts. */
  function TotalDespesas(ds: seq<Despesa>): real {
    if |ds| == 0 then 0.0 else ds[0].valor + TotalDespesas(ds[1..])
  }

  lemma {:induction false} TotalDespesasConcat(a: seq<Despesa>, b: seq<Despesa>)
    ensures TotalDespesas(a + b) == TotalDespesas(a) + TotalDespesas(b)
  {
    if |a| == 0 {
      assert a + b == b;
    } else {
      assert (a + b)[1..] == a[1..] + b;
      TotalDespesasConcat(a[1..], b);
    }
  }

  /** Number of customers whose stored status is `Ativo`. */
  function ContaAtivos(cs: seq<Cliente>): nat {
    if |cs| == 0 then 0 else (if cs[0].status == Ativo then 1 else 0) + ContaAtivos(cs[1..])
  }

  /** Number of active customers past their due date: a subset of the active ones. */
  function ContaVencidos(cs: seq<Cliente>, now: int): (n: nat)
    ensures n <= ContaAtivos(cs)
  {
    if |cs| == 0 then 0
    else (if IsVencido(cs[0].dataVencimento, now) && cs[0].status == Ativo then 1 else 0) + ContaVencidos(cs[1..], now)
  }

  /** Sum of `calcularValorTotal` over the active customers. */
  function CreditoAtivo(cs: seq<Cliente>, now: int): real {
    if |cs| == 0 then 0.0
    else (if cs[0].status == Ativo then CalcularValorTotal(cs[0], now) else 0.0) + CreditoAtivo(cs[1..], now)
  }

  lemma {:induction false} ClientesConcat(a: seq<Cliente>, b: seq<Cliente>, now: int)
    ensures ContaAtivos(a + b) == ContaAtivos(a) + ContaAtivos(b)
    ensures ContaVencidos(a + b, now) == ContaVencidos(a, now) + ContaVencidos(b, now)
    ensures CreditoAtivo(a + b, now) == CreditoAtivo(a, now) + CreditoAtivo(b, now)
  {
    if |a| == 0 {
      assert a + b == b;
    } else {
      assert (a + b)[1..] == a[1..] + b;
      ClientesConcat(a[1..], b, now);
    }
  }

  /** Expenses per category, as key/value pairs in key insertion order. */
  type Tabela = seq<(Categoria, real)>

  predicate HasKey(tab: Tabela, k: Categoria) {
    |tab| > 0 && (tab[0].0 == k || HasKey(tab[1..], k))
  }

  /** No key occurs twice. */
  predicate DistinctKeys(tab: Tabela) {
    |tab| == 0 || (!HasKey(tab[1..], tab[0].0) && DistinctKeys(tab[1..]))
  }

  /** `acc[k] || 0`: the value stored under `k`, or 0 when there is none. */
  function TotalOf(tab: Tabela, k: Categoria): real {
    if |tab| == 0 then 0.0 else if tab[0].0 == k then tab[0].1 else TotalOf(tab[1..], k)
  }

  function SumValues(tab: Tabela): real {
    if |tab| == 0 then 0.0 else tab[0].1 + SumValues(tab[1..])
  }

  /** `acc[k] = (acc[k] || 0) + v`: an existing key keeps its place, a new key goes last. */
  function AddCategoria(tab: Tabela, k: Categoria, v: real): (r: Tabela)
    ensures forall x :: HasKey(r, x) <==> HasKey(tab, x) || x == k
    ensures DistinctKeys(tab) ==> DistinctKeys(r)
    ensures forall x :: TotalOf(r, x) == TotalOf(tab, x) + (if x == k then v else 0.0)
    ensures SumValues(r) == SumValues(tab) + v
    ensures |r| == if HasKey(tab, k) then |tab| else |tab| + 1
    ensures forall i :: 0 <= i < |tab| ==> r[i].0 == tab[i].0
  {
    if |tab| == 0 then [(k, v)]
    else if tab[0].0 == k then [(k, tab[0].1 + v)] + tab[1..]
    else [tab[0]] + AddCategoria(tab[1..], k, v)
  }

  /** Some expense of the list has category `k`. */
  predicate Ocorre(ds: seq<Despesa>, k: Categoria) {
    exists i :: 0 <= i < |ds| && ds[i].categoria == k
  }

  /** The amount of the expenses of category `k`, accumulated left to right. */
  function SomaCategoria(ds: seq<Despesa>, k: Categoria): real {
    if |ds| == 0 then 0.0
    else SomaCategoria(ds[..|ds| - 1], k) + (if ds[|ds| - 1].categoria == k then ds[|ds| - 1].valor else 0.0)
  }

  /** `despesasPorCategoria`: one entry per category that occurs, holding that
      category's total; the entries add up to the total of all expenses. */
  function PorCategoria(ds: seq<Despesa>): (tab: Tabela)
    ensures DistinctKeys(tab)
    ensures forall k :: HasKey(tab, k) <==> Ocorre(ds, k)
    ensures forall k :: TotalOf(tab, k) == SomaCategoria(ds, k)
    ensures SumValues(tab) == TotalDespesas(ds)
  {
    if |ds| == 0 then []
    else
      var init := ds[..|ds| - 1];
      var d := ds[|ds| - 1];
      assert init + [d] == ds;
      TotalDespesasConcat(init, [d]);
      var prev := PorCategoria(init);
      assert forall k :: Ocorre(ds, k) <==> Ocorre(init, k) || d.categoria == k by {
        forall k | Ocorre(ds, k) ensures Ocorre(init, k) || d.categoria == k {
          var i :| 0 <= i < |ds| && ds[i].categoria == k;
          if i < |init| {
            assert init[i].categoria == k;
          }
        }
        forall k | Ocorre(init, k) ensures Ocorre(ds, k) {
          var i :| 0 <= i < |init| && init[i].categoria == k;
          assert ds[i].categoria == k;
        }
      }
      AddCategoria(prev, d.categoria, d.valor)
  }

  /** `gerarRelatorio(clientes, transacoes, despesas)`: `ds` is `None` when the
      expense list argument is omitted; `now` is the clock reading. */
  function GerarRelatorio(clientes: seq<Cliente>, ts: seq<Transacao>, ds: Option<seq<Despesa>>, now: int): (r: RelatorioFinanceiro)
    ensures r.totalEntradas == TotalTipo(ts, Entrada)
    ensures r.lucroLiquido == r.totalEntradas - r.totalSaidas
    ensures r.totalSaidas == TotalTipo(ts, Saida) + r.totalDespesas
    ensures ds.Some? ==> r.totalDespesas == TotalDespesas(ds.value)
    ensures ds.None? ==> r.totalDespesas == 0.0 && r.despesasPorCategoria == []
    ensures DistinctKeys(r.despesasPorCategoria)
    ensures SumValues(r.despesasPorCategoria) == r.totalDespesas
    ensures forall k :: HasKey(r.despesasPorCategoria, k) <==> ds.Some? && Ocorre(ds.value, k)
    ensures r.clientesVencidos <= r.clientesAtivos
  {
    var totalEntradas := TotalTipo(ts, Entrada);
    var totalSaidas := TotalTipo(ts, Saida);
    var totalDespesas := if ds.Some? then TotalDespesas(ds.value) else 0.0;
    var porCategoria := if ds.Some? then PorCategoria(ds.value) else [];
    RelatorioFinanceiro(
      totalEntradas,
      totalSaidas + totalDespesas,
      totalEntradas - (totalSaidas + totalDespesas),
      ContaAtivos(clientes),
      ContaVencidos(clientes, now),
      CreditoAtivo(clientes, now),
      porCategoria,
      totalDespesas)
  }

  /** With nothing recorded, every figure is zero. */
  lemma RelatorioVazio(ds: Option<seq<Despesa>>, now: int)
    requires ds.None? || ds == Some([])
    ensures GerarRelatorio([], [], ds, now) ==
              RelatorioFinanceiro(0.0, 0.0, 0.0, 0, 0, 0.0, [], 0.0)
  {
  }

  /** Recording one more transaction moves exactly one of the two cash totals,
      by its amount, and the net result with it. */
  lemma RelatorioNovaTransacao(clientes: seq<Cliente>, ts: seq<Transacao>, ds: Option<seq<Despesa>>, now: int, t: Transacao)
    ensures var antes := GerarRelatorio(clientes, ts, ds, now);
            var depois := GerarRelatorio(clientes, ts + [t], ds, now);
            && depois.totalEntradas == antes.totalEntradas + (if t.tipo == Entrada then t.valor else 0.0)
            && depois.totalSaidas == antes.totalSaidas + (if t.tipo == Saida then t.valor else 0.0)
            && depois.lucroLiquido == antes.lucroLiquido + (if t.tipo == Entrada then t.valor else -t.valor)
  {
    TotalTipoConcat(ts, [t], Entrada);
    TotalTipoConcat(ts, [t], Saida);
  }

  /** Recording one more expense adds its amount to the expense total, to its
      category's entry, and to the outflow total. */
  lemma RelatorioNovaDespesa(clientes: seq<Cliente>, ts: seq<Transacao>, ds: seq<Despesa>, now: int, d: Despesa)
    ensures var antes := GerarRelatorio(clientes, ts, Some(ds), now);
            var depois := GerarRelatorio(clientes, ts, Some(ds + [d]), now);
            && depois.totalDespesas == antes.totalDespesas + d.valor
            && depois.totalSaidas == antes.totalSaidas + d.valor
            && TotalOf(depois.despesasPorCategoria, d.categoria) == TotalOf(antes.despesasPorCategoria, d.categoria) + d.valor
  {
    TotalDespesasConcat(ds, [d]);
    assert (ds + [d])[..|ds|] == ds;
  }

  /** The outstanding credit counts active customers only: appending a
      customer stored as paid or as overdue changes no customer figure. */
  lemma CreditoIgnoraPagos(clientes: seq<Cliente>, ts: seq<Transacao>, ds: Option<seq<Despesa>>, now: int, c: Cliente)
    requires c.status != Ativo
    ensures GerarRelatorio(clientes + [c], ts, ds, now) == GerarRelatorio(clientes, ts, ds, now)
  {
    ClientesConcat(clientes, [c], now);
  }

  /** Registering one more active customer counts it as active, adds what it
      owes now to the outstanding credit, and counts it as overdue exactly when
      it is past its due date; the cash figures do not move. */
  lemma RelatorioNovoCliente(clientes: seq<Cliente>, ts: seq<Transacao>, ds: Option<seq<Despesa>>, now: int, c: Cliente)
    requires c.status == Ativo
    ensures var antes := GerarRelatorio(clientes, ts, ds, now);
            var depois := GerarRelatorio(clientes + [c], ts, ds, now);
            && depois.clientesAtivos == antes.clientesAtivos + 1
            && depois.valorTotalCredito == antes.valorTotalCredito + CalcularValorTotal(c, now)
            && depois.clientesVencidos == antes.clientesVencidos + (if IsVencido(c.dataVencimento, now) then 1 else 0)
            && depois.(clientesAtivos := 0, clientesVencidos := 0, valorTotalCredito := 0.0) ==
               antes.(clientesAtivos := 0, clientesVencidos := 0, valorTotalCredito := 0.0)
  {
    ClientesConcat(clientes, [c], now);
    assert [c][1..] == [];
  }

  /** Inflow 500, outflow 200 and one expense of 50: inflows 500, outflows 250, net 250. */
  lemma CenarioEntradaSaidaDespesa(t1: Transacao, t2: Transacao, d: Despesa, now: int)
    requires t1.tipo == Entrada && t1.valor == 500.0
    requires t2.tipo == Saida && t2.valor == 200.0
    requires d.valor == 50.0
    ensures var r := GerarRelatorio([], [t1, t2], Some([d]), now);
            r.totalEntradas == 500.0 && r.totalSaidas == 250.0 && r.lucroLiquido == 250.0
  {
    assert [t1, t2][1..] == [t2];
    assert [t2][1..] == [];
    assert TotalTipo([t2], Entrada) == 0.0 && TotalTipo([t2], Saida) == 200.0;
    assert [d][1..] == [];
    assert TotalDespesas([d]) == 50.0;
  }

  /** One pass over the transactions, accumulating both cash totals. */
  method SomarTransacoes(ts: seq<Transacao>) returns (entradas: real, saidas: real)
    ensures entradas == TotalTipo(ts, Entrada) && saidas == TotalTipo(ts, Saida)
  {
    entradas, saidas := 0.0, 0.0;
    var i := 0;
    while i < |ts|
      invariant 0 <= i <= |ts|
      invariant entradas == TotalTipo(ts[..i], Entrada)
      invariant saidas == TotalTipo(ts[..i], Saida)
    {
      assert ts[..i + 1] == ts[..i] + [ts[i]];
      TotalTipoConcat(ts[..i], [ts[i]], Entrada);
      TotalTipoConcat(ts[..i], [ts[i]], Saida);
      if ts[i].tipo == Entrada {
        entradas := entradas + ts[i].valor;
      } else {
        saidas := saidas + ts[i].valor;
      }
      i := i + 1;
    }
    assert ts[..|ts|] == ts;
  }

  /** One pass over the expenses, accumulating the total and the per-category table. */
  method SomarDespesas(ds: seq<Despesa>) returns (total: real, tabela: Tabela)
    ensures total == TotalDespesas(ds) && tabela == PorCategoria(ds)
  {
    total, tabela := 0.0, [];
    var j := 0;
    while j < |ds|
      invariant 0 <= j <= |ds|
      invariant total == TotalDespesas(ds[..j])
      invariant tabela == PorCategoria(ds[..j])
    {
      assert ds[..j + 1] == ds[..j] + [ds[j]];
      assert ds[..j + 1][..j] == ds[..j];
      TotalDespesasConcat(ds[..j], [ds[j]]);
      total := total + ds[j].valor;
      tabela := AddCategoria(tabela, ds[j].categoria, ds[j].valor);
      j := j + 1;
    }
    assert ds[..|ds|] == ds;
  }

  /** One pass over the customers, counting the active and overdue ones and
      accumulating the credit. */
  method ResumirClientes(clientes: seq<Cliente>, now: int) returns (ativos: nat, vencidos: nat, credito: real)
    ensures ativos == ContaAtivos(clientes)
    ensures vencidos == ContaVencidos(clientes, now)
    ensures credito == CreditoAtivo(clientes, now)
  {
    ativos, vencidos, credito := 0, 0, 0.0;
    var k := 0;
    while k < |clientes|
      invariant 0 <= k <= |clientes|
      invariant ativos == ContaAtivos(clientes[..k])
      invariant vencidos == ContaVencidos(clientes[..k], now)
      invariant credito == CreditoAtivo(clientes[..k], now)
    {
      assert clientes[..k + 1] == clientes[..k] + [clientes[k]];
      ClientesConcat(clientes[..k], [clientes[k]], now);
      var c := clientes[k];
      if c.status == Ativo {
        ativos := ativos + 1;
        credito := credito + CalcularValorTotal(c, now);
        if IsVencido(c.dataVencimento, now) {
          vencidos := vencidos + 1;
        }
      }
      k := k + 1;
    }
    assert clientes[..|clientes|] == clientes;
  }

  /** The summary computed by accumulating loops; it agrees with the definition above. */
  method GerarRelatorioIterativo(clientes: seq<Cliente>, ts: seq<Transacao>, ds: Option<seq<Despesa>>, now: int)
    returns (r: RelatorioFinanceiro)
    ensures r == GerarRelatorio(clientes, ts, ds, now)
  {
    var entradas, saidas := SomarTransacoes(ts);
    var totalDespesas, tabela := 0.0, [];
    if ds.Some? {
      totalDespesas, tabela := SomarDespesas(ds.value);
    }
    var ativos, vencidos, credito := ResumirClientes(clientes, now);
    r := RelatorioFinanceiro(entradas, saidas + totalDespesas, entradas - (saidas + totalDespesas),
                             ativos, vencidos, credito, tabela, totalDespesas);
  }

  // ---------------------------------------------------------------------------
  // Monthly report

  /** `new Date(ano, mes - 1, 1)`: local midnight starting day 1 of month `mes` (1-based). */
  function InicioMes(ano: int, mes: int, tz: int): int {
    LocalDate(ano, mes - 1, 1, tz)
  }

  /** `new Date(ano, mes, 0)`: local midnight STARTING the last day of month `mes`. */
  function FimMes(ano: int, mes: int, tz: int): int {
    LocalDate(ano, mes, 0, tz)
  }

  /** The transactions dated within `[ini, fim]`, in list order. */
  function TransacoesEntre(ts: seq<Transacao>, ini: int, fim: int): (r: seq<Transacao>)
    ensures |r| <= |ts|
    ensures forall t :: t in r <==> t in ts && ini <= t.data <= fim
  {
    if |ts| == 0 then []
    else (if ini <= ts[0].data <= fim then [ts[0]] else []) + TransacoesEntre(ts[1..], ini, fim)
  }

  /** The expenses dated within `[ini, fim]`, in list order. */
  function DespesasEntre(ds: seq<Despesa>, ini: int, fim: int): (r: seq<Despesa>)
    ensures |r| <= |ds|
    ensures forall d :: d in r <==> d in ds && ini <= d.data <= fim
  {
    if |ds| == 0 then []
    else (if ini <= ds[0].data <= fim then [ds[0]] else []) + DespesasEntre(ds[1..], ini, fim)
  }

  /** The customer ids of the inflows that carry a (non-empty) customer id. */
  function IdsPagantes(ts: seq<Transacao>): (ids: seq<string>)
    ensures |ids| <= |ts|
    ensures forall x :: x in ids <==> x != "" && exists t :: t in ts && t.tipo == Entrada && t.clienteId == Some(x)
  {
    if |ts| == 0 then []
    else
      var t := ts[0];
      var rest := IdsPagantes(ts[1..]);
      assert forall u :: u in ts <==> u == t || u in ts[1..];
      if t.tipo == Entrada && t.clienteId.Some? && t.clienteId.value != "" then [t.clienteId.value] + rest else rest
  }

  /** The report over the inclusive window `[ini, fim]`; month name supplied. */
  function RelatorioDoPeriodo(clientes: seq<Cliente>, ts: seq<Transacao>, ds: seq<Despesa>,
                              ini: int, fim: int, mes: string, ano: int, now: int): (r: RelatorioMensal)
    ensures r.lucroFinal == r.totalRecebido - r.totalDespesas
    ensures r.clientesPagaram <= |TransacoesEntre(ts, ini, fim)|
  {
    var tsMes := TransacoesEntre(ts, ini, fim);
    var dsMes := DespesasEntre(ds, ini, fim);
    var recebido := TotalTipo(tsMes, Entrada);
    var despesas := TotalDespesas(dsMes);
    RelatorioMensal(
      mes,
      ano,
      recebido,
      CreditoAtivo(clientes, now),
      despesas,
      recebido - despesas,
      |Dedup(IdsPagantes(tsMes))|,
      ContaVencidos(clientes, now))
  }

  /** `gerarRelatorioMensal(clientes, transacoes, despesas, mes, ano)` as written:
      the window runs from the first instant of the month to the first instant of
      its last day. `nomeMes` renders the month name of a timestamp. */
  function GerarRelatorioMensal(clientes: seq<Cliente>, ts: seq<Transacao>, ds: seq<Despesa>,
                                mes: int, ano: int, now: int, tz: int, nomeMes: int -> string): (r: RelatorioMensal)
    ensures r.ano == ano && r.mes == nomeMes(InicioMes(ano, mes, tz))
    ensures r.lucroFinal == r.totalRecebido - r.totalDespesas
    ensures r.totalDividasPendentes == GerarRelatorio(clientes, ts, Some(ds), now).valorTotalCredito
    ensures r.clientesInadimplentes == GerarRelatorio(clientes, ts, Some(ds), now).clientesVencidos
  {
    RelatorioDoPeriodo(clientes, ts, ds, InicioMes(ano, mes, tz), FimMes(ano, mes, tz),
                       nomeMes(InicioMes(ano, mes, tz)), ano, now)
  }

  /** The figures tied to the month see only what is dated inside the window:
      an item outside it changes nothing, an inflow inside it adds its amount. */
  lemma MensalSoJanela(clientes: seq<Cliente>, ts: seq<Transacao>, ds: seq<Despesa>,
                       ini: int, fim: int, mes: string, ano: int, now: int, t: Transacao, d: Despesa)
    ensures var antes := RelatorioDoPeriodo(clientes, ts, ds, ini, fim, mes, ano, now);
            var depois := RelatorioDoPeriodo(clientes, ts + [t], ds + [d], ini, fim, mes, ano, now);
            && depois.totalRecebido == antes.totalRecebido + (if ini <= t.data <= fim && t.tipo == Entrada then t.valor else 0.0)
            && depois.totalDespesas == antes.totalDespesas + (if ini <= d.data <= fim then d.valor else 0.0)
            && (!(ini <= t.data <= fim) ==> depois.clientesPagaram == antes.clientesPagaram)
  {
    RecebidoNaJanela(ts, ini, fim, t);
    DespesasNaJanela(ds, ini, fim, d);
    if !(ini <= t.data <= fim) {
      PagantesForaDaJanela(clientes, ts, ds, ini, fim, mes, ano, now, t, d);
    }
  }

  /** One more transaction adds its amount to the window's inflows iff it is an inflow inside the window. */
  lemma RecebidoNaJanela(ts: seq<Transacao>, ini: int, fim: int, t: Transacao)
    ensures TotalTipo(TransacoesEntre(ts + [t], ini, fim), Entrada) ==
            TotalTipo(TransacoesEntre(ts, ini, fim), Entrada) + (if ini <= t.data <= fim && t.tipo == Entrada then t.valor else 0.0)
  {
    TransacoesEntreConcat(ts, [t], ini, fim);
    TotalTipoConcat(TransacoesEntre(ts, ini, fim), TransacoesEntre([t], ini, fim), Entrada);
  }

  /** One more expense adds its amount to the window's expenses iff it is inside the window. */
  lemma DespesasNaJanela(ds: seq<Despesa>, ini: int, fim: int, d: Despesa)
    ensures TotalDespesas(DespesasEntre(ds + [d], ini, fim)) ==
            TotalDespesas(DespesasEntre(ds, ini, fim)) + (if ini <= d.data <= fim then d.valor else 0.0)
  {
    DespesasEntreConcat(ds, [d], ini, fim);
    TotalDespesasConcat(DespesasEntre(ds, ini, fim), DespesasEntre([d], ini, fim));
  }

  lemma {:induction false} TransacoesEntreConcat(a: seq<Transacao>, b: seq<Transacao>, ini: int, fim: int)
    ensures TransacoesEntre(a + b, ini, fim) == TransacoesEntre(a, ini, fim) + TransacoesEntre(b, ini, fim)
  {
    if |a| == 0 {
      assert a + b == b;
    } else {
      assert (a + b)[1..] == a[1..] + b;
      TransacoesEntreConcat(a[1..], b, ini, fim);
    }
  }

  lemma {:induction false} DespesasEntreConcat(a: seq<Despesa>, b: seq<Despesa>, ini: int, fim: int)
    ensures DespesasEntre(a + b, ini, fim) == DespesasEntre(a, ini, fim) + DespesasEntre(b, ini, fim)
  {
    if |a| == 0 {
      assert a + b == b;
    } else {
      assert (a + b)[1..] == a[1..] + b;
      DespesasEntreConcat(a[1..], b, ini, fim);
    }
  }

  /** A month with no transaction and no expense dated inside it reports zero
      received, zero spent, zero result and no paying customer, while the
      outstanding-credit and overdue figures still reflect every active customer. */
  lemma MensalSemMovimento(clientes: seq<Cliente>, ts: seq<Transacao>, ds: seq<Despesa>,
                           mes: int, ano: int, now: int, tz: int, nomeMes: int -> string)
    requires forall i :: 0 <= i < |ts| ==> !(InicioMes(ano, mes, tz) <= ts[i].data <= FimMes(ano, mes, tz))
    requires forall i :: 0 <= i < |ds| ==> !(InicioMes(ano, mes, tz) <= ds[i].data <= FimMes(ano, mes, tz))
    ensures var r := GerarRelatorioMensal(clientes, ts, ds, mes, ano, now, tz, nomeMes);
            && r.totalRecebido == 0.0 && r.totalDespesas == 0.0 && r.lucroFinal == 0.0 && r.clientesPagaram == 0
            && r.totalDividasPendentes == CreditoAtivo(clientes, now)
            && r.clientesInadimplentes == ContaVencidos(clientes, now)
  {
  }

  /** The customer-wide figures do not depend on the requested month. */
  lemma MensalPendentesIndependemDoMes(clientes: seq<Cliente>, ts: seq<Transacao>, ds: seq<Despesa>,
                                       mes1: int, ano1: int, mes2: int, ano2: int, now: int, tz: int, nomeMes: int -> string)
    ensures var r1 := GerarRelatorioMensal(clientes, ts, ds, mes1, ano1, now, tz, nomeMes);
            var r2 := GerarRelatorioMensal(clientes, ts, ds, mes2, ano2, now, tz, nomeMes);
            r1.totalDividasPendentes == r2.totalDividasPendentes && r1.clientesInadimplentes == r2.clientesInadimplentes
  {
  }

  /** A transaction outside the window leaves the window's transactions, and
      so the paying customers, as they were. */
  lemma PagantesForaDaJanela(clientes: seq<Cliente>, ts: seq<Transacao>, ds: seq<Despesa>,
                             ini: int, fim: int, mes: string, ano: int, now: int, t: Transacao, d: Despesa)
    requires !(ini <= t.data <= fim)
    ensures RelatorioDoPeriodo(clientes, ts + [t], ds + [d], ini, fim, mes, ano, now).clientesPagaram ==
            RelatorioDoPeriodo(clientes, ts, ds, ini, fim, mes, ano, now).clientesPagaram
  {
    TransacoesEntreConcat(ts, [t], ini, fim);
    assert TransacoesEntre([t], ini, fim) == [];
    assert TransacoesEntre(ts + [t], ini, fim) == TransacoesEntre(ts, ini, fim);
  }

  /** `clientesPagaram` is the number of distinct customer ids among the window's inflows. */
  lemma ClientesPagaramDistintos(clientes: seq<Cliente>, ts: seq<Transacao>, ds: seq<Despesa>,
                                 ini: int, fim: int, mes: string, ano: int, now: int)
    ensures RelatorioDoPeriodo(clientes, ts, ds, ini, fim, mes, ano, now).clientesPagaram ==
            |set x | x in IdsPagantes(TransacoesEntre(ts, ini, fim))|
  {
    DedupCard(IdsPagantes(TransacoesEntre(ts, ini, fim)));
  }

  /** The first instant of the month after month `mes` of `ano`. */
  function InicioMesSeguinte(ano: int, mes: int, tz: int): int {
    if mes < 12 then InicioMes(ano, mes + 1, tz) else InicioMes(ano + 1, 1, tz)
  }

  /** Day 1 of month index 12 is 1 January of the next year, outside the two-digit-year range. */
  lemma JaneiroSeguinte(ano: int, tz: int)
    requires ano != -1 && ano != 99
    ensures LocalDate(ano, 12, 1, tz) == InicioMes(ano + 1, 1, tz)
  {
    assert FullYear(ano + 1) == FullYear(ano) + 1;
  }

  /** Midnight starting day 1 of month index `mes` is one day after midnight starting its day 0. */
  lemma DiaSeguinte(ano: int, mes: int, tz: int)
    ensures LocalDate(ano, mes, 1, tz) == LocalDate(ano, mes, 0, tz) + DayMs
  {
    var x := MakeDay(FullYear(ano), mes, 0);
    assert MakeDay(FullYear(ano), mes, 1) == x + 1;
    assert (x + 1) * DayMs == x * DayMs + DayMs;
  }

  /** The window of month `mes` ends one day before the next month starts. */
  lemma FimMesUmDiaAntes(ano: int, mes: int, tz: int)
    requires 1 <= mes <= 12
    requires mes < 12 || (ano != -1 && ano != 99)
    ensures FimMes(ano, mes, tz) + DayMs == InicioMesSeguinte(ano, mes, tz)
  {
    DiaSeguinte(ano, mes, tz);
    if mes == 12 {
      JaneiroSeguinte(ano, tz);
    } else {
      assert InicioMes(ano, mes + 1, tz) == LocalDate(ano, mes, 1, tz);
    }
  }

  /** The last day of a month lies `DaysInMonth - 1` days after its first. */
  lemma FimMesUltimoDia(ano: int, mes: int, tz: int)
    requires 1 <= mes <= 12
    ensures FimMes(ano, mes, tz) == InicioMes(ano, mes, tz) + (DaysInMonth(FullYear(ano), mes - 1) - 1) * DayMs
  {
    MakeDayMonthEnd(FullYear(ano), mes - 1);
  }

  /** As written, a timestamp later on the last day of a month than its first
      instant is in no monthly report: past this month's window, and before the
      next month's. */
  lemma UltimoDiaForaDeTodoMes(ano: int, mes: int, tz: int, t: int)
    requires 1 <= mes <= 12
    requires mes < 12 || (ano != -1 && ano != 99)
    requires FimMes(ano, mes, tz) < t < FimMes(ano, mes, tz) + DayMs
    ensures !(InicioMes(ano, mes, tz) <= t <= FimMes(ano, mes, tz))
    ensures t < InicioMesSeguinte(ano, mes, tz)
  {
    FimMesUmDiaAntes(ano, mes, tz);
  }

  /** The evidently intended window: up to the last instant before the next month starts. */
  function FimMesCorrigido(ano: int, mes: int, tz: int): int {
    LocalDate(ano, mes, 1, tz) - 1
  }

  /** The monthly report over the whole calendar month. */
  function GerarRelatorioMensalCorrigido(clientes: seq<Cliente>, ts: seq<Transacao>, ds: seq<Despesa>,
                                         mes: int, ano: int, now: int, tz: int, nomeMes: int -> string): (r: RelatorioMensal)
    ensures r.ano == ano && r.mes == nomeMes(InicioMes(ano, mes, tz))
    ensures r.lucroFinal == r.totalRecebido - r.totalDespesas
    ensures r.totalDividasPendentes == GerarRelatorio(clientes, ts, Some(ds), now).valorTotalCredito
    ensures r.clientesInadimplentes == GerarRelatorio(clientes, ts, Some(ds), now).clientesVencidos
  {
    RelatorioDoPeriodo(clientes, ts, ds, InicioMes(ano, mes, tz), FimMesCorrigido(ano, mes, tz),
                       nomeMes(InicioMes(ano, mes, tz)), ano, now)
  }

  /** With the corrected window the whole last day belongs to the month, and
      consecutive months meet without gap or overlap. */
  lemma MesCorrigidoCobreUltimoDia(ano: int, mes: int, tz: int, t: int)
    requires 1 <= mes <= 12
    requires mes < 12 || (ano != -1 && ano != 99)
    requires FimMes(ano, mes, tz) <= t < FimMes(ano, mes, tz) + DayMs
    ensures InicioMes(ano, mes, tz) <= t <= FimMesCorrigido(ano, mes, tz)
    ensures FimMesCorrigido(ano, mes, tz) + 1 == InicioMesSeguinte(ano, mes, tz)
  {
    FimMesUmDiaAntes(ano, mes, tz);
    FimMesUltimoDia(ano, mes, tz);
    var n := DaysInMonth(FullYear(ano), mes - 1);
    assert (n - 1) * DayMs >= 0;
    DiaSeguinte(ano, mes, tz);
  }

  /** `new Date("YYYY-MM-DD")`: a date-only string is read as UTC midnight. */
  function DataSoDia(ano: int, mes: int, dia: int): int {
    MakeDay(ano, mes - 1, dia) * DayMs
  }

  /** West of UTC (Brazil's -3h, say), an expense dated the 1st of a month falls
      after the previous month's window and before its own month's window. */
  lemma DespesaDiaPrimeiroForaDeTodoMes(ano: int, mes: int, tz: int)
    requires ano >= 100 && 1 <= mes <= 12
    requires -DayMs < tz < 0
    ensures FimMes(ano, mes - 1, tz) < DataSoDia(ano, mes, 1) < InicioMes(ano, mes, tz)
  {
  }

  /** Reading a date-only string as LOCAL midnight, the evidently intended
      calendar-date comparison: every day of the month lands in that month's
      corrected window. */
  lemma DataLocalNoMesCorrigido(ano: int, mes: int, dia: int, tz: int)
    requires 1 <= mes <= 12
    requires 1 <= dia <= DaysInMonth(FullYear(ano), mes - 1)
    ensures InicioMes(ano, mes, tz) <= LocalDate(ano, mes - 1, dia, tz) <= FimMesCorrigido(ano, mes, tz)
  {
    MakeDayMonthEnd(FullYear(ano), mes - 1);
  }
}

=== FILE: seqs.dfy ===
/** The list operations the three stores share, over records identified by a
    string id (`idOf`): delete-by-id (`filter`), patch-by-id (`map` with a
    conditional replacement), and the `indexOf`-based de-duplication of
    `gerarRelatorioMensal`, and `find` by id. */
module Seqs {
  import opened Common

  /** `xs.find(x => idOf(x) === id)`: the first record with that id, if any. */
  function Buscar<T(==), K(==)>(xs: seq<T>, idOf: T -> K, id: K): (r: Option<T>)
    ensures r.Some? ==> exists k :: 0 <= k < |xs| && xs[k] == r.value && idOf(xs[k]) == id &&
                                    forall j :: 0 <= j < k ==> idOf(xs[j]) != id
    ensures r.None? <==> forall i :: 0 <= i < |xs| ==> idOf(xs[i]) != id
  {
    if |xs| == 0 then None
    else if idOf(xs[0]) == id then
      assert 0 < |xs| && xs[0] == xs[0] && idOf(xs[0]) == id;
      Some(xs[0])
    else
      var r := Buscar(xs[1..], idOf, id);
      assert forall i :: 1 <= i < |xs| ==> xs[i] == xs[1..][i - 1];
      if r.Some? then
        var k :| 0 <= k < |xs[1..]| && xs[1..][k] == r.value && idOf(xs[1..][k]) == id &&
                 forall j :: 0 <= j < k ==> idOf(xs[1..][j]) != id;
        assert xs[k + 1] == r.value && forall j :: 0 <= j < k + 1 ==> idOf(xs[j]) != id;
        r
      else r
  }

  /** `xs.filter(x => idOf(x) !== id)`. */
  function SemId<T>(xs: seq<T>, idOf: T -> string, id: string): (ys: seq<T>)
    ensures |ys| <= |xs|
    ensures forall i :: 0 <= i < |ys| ==> ys[i] in xs && idOf(ys[i]) != id
    ensures forall i :: 0 <= i < |xs| && idOf(xs[i]) != id ==> xs[i] in ys
  {
    if |xs| == 0 then [] else (if idOf(xs[0]) == id then [] else [xs[0]]) + SemId(xs[1..], idOf, id)
  }

  /** Deleting keeps relative order: it distributes over concatenation. */
  lemma {:induction false} SemIdConcat<T>(a: seq<T>, b: seq<T>, idOf: T -> string, id: string)
    ensures SemId(a + b, idOf, id) == SemId(a, idOf, id) + SemId(b, idOf, id)
  {
    if |a| == 0 {
      assert a + b == b;
    } else {
      assert (a + b)[1..] == a[1..] + b;
      SemIdConcat(a[1..], b, idOf, id);
    }
  }

  /** Deleting an id nobody has changes nothing. */
  lemma {:induction false} SemIdAusente<T>(xs: seq<T>, idOf: T -> string, id: string)
    requires forall i :: 0 <= i < |xs| ==> idOf(xs[i]) != id
    ensures SemId(xs, idOf, id) == xs
  {
    if |xs| > 0 {
      SemIdAusente(xs[1..], idOf, id);
    }
  }

  /** Deleting the id of exactly one record removes that record and keeps the others in order. */
  lemma {:induction false} SemIdUnico<T>(xs: seq<T>, idOf: T -> string, k: nat)
    requires k < |xs|
    requires forall i :: 0 <= i < |xs| && i != k ==> idOf(xs[i]) != idOf(xs[k])
    ensures SemId(xs, idOf, idOf(xs[k])) == xs[..k] + xs[k + 1..]
  {
    var id := idOf(xs[k]);
    var tail := xs[1..];
    if k == 0 {
      forall i | 0 <= i < |tail|
        ensures idOf(tail[i]) != id
      {
        assert tail[i] == xs[i + 1];
      }
      SemIdAusente(tail, idOf, id);
    } else {
      forall i | 0 <= i < |tail| && i != k - 1
        ensures idOf(tail[i]) != idOf(tail[k - 1])
      {
        assert tail[i] == xs[i + 1];
      }
      SemIdUnico(tail, idOf, k - 1);
      assert idOf(xs[0]) != id;
      assert xs[..k] + xs[k + 1..] == [xs[0]] + (tail[..k - 1] + tail[k..]);
    }
  }

  /** `xs.map(x => idOf(x) === id ? f(x) : x)`. */
  function AtualizarId<T>(xs: seq<T>, idOf: T -> string, id: string, f: T -> T): (ys: seq<T>)
    ensures |ys| == |xs|
    ensures forall i :: 0 <= i < |xs| && idOf(xs[i]) != id ==> ys[i] == xs[i]
    ensures forall i :: 0 <= i < |xs| && idOf(xs[i]) == id ==> ys[i] == f(xs[i])
  {
    if |xs| == 0 then []
    else [if idOf(xs[0]) == id then f(xs[0]) else xs[0]] + AtualizarId(xs[1..], idOf, id, f)
  }

  /** No two records share an id. */
  predicate IdsUnicos<T>(xs: seq<T>, idOf: T -> string) {
    forall i, j :: 0 <= i < j < |xs| ==> idOf(xs[i]) != idOf(xs[j])
  }

  /** `xs.filter((x, i, arr) => arr.indexOf(x) === i)`: the first occurrence of each value. */
  function Dedup<T(==)>(xs: seq<T>): (ys: seq<T>)
    ensures |ys| <= |xs|
    ensures forall i :: 0 <= i < |ys| ==> ys[i] in xs
    ensures forall i :: 0 <= i < |xs| ==> xs[i] in ys
    ensures forall i, j :: 0 <= i < j < |ys| ==> ys[i] != ys[j]
  {
    if |xs| == 0 then []
    else
      var init := Dedup(xs[..|xs| - 1]);
      var last := xs[|xs| - 1];
      assert forall i :: 0 <= i < |xs| - 1 ==> xs[i] in xs[..|xs| - 1];
      if last in xs[..|xs| - 1] then init else init + [last]
  }

  /** A list without repeats has as many elements as its set of values. */
  lemma {:induction false} DistinctCard<T>(xs: seq<T>)
    requires forall i, j :: 0 <= i < j < |xs| ==> xs[i] != xs[j]
    ensures |set x | x in xs| == |xs|
  {
    if |xs| > 0 {
      var init := xs[..|xs| - 1];
      DistinctCard(init);
      var last := xs[|xs| - 1];
      assert (set x | x in xs) == (set x | x in init) + {last};
      assert last !in init;
    }
  }

  /** The number of distinct values `Dedup` reports. */
  lemma DedupCard<T>(xs: seq<T>)
    ensures |Dedup(xs)| == |set x | x in xs|
  {
    DistinctCard(Dedup(xs));
    assert (set x | x in Dedup(xs)) == (set x | x in xs);
  }
}

=== FILE: storage.dfy ===
/** The entity stores of src/hooks/useStorage.ts as pure functions over
    in-memory lists: append, patch-by-id, delete-by-id, mark-paid, the two
    customer lookups, and the settings record with its defaults. The fresh id,
    the clock reading and the user's `confirm()` answer are parameters. */
module Storage {
  import opened Common
  import opened Text
  import opened Types
  import opened Seqs
  import opened Format
  import opened Accrual

  function IdCliente(c: Cliente): string { c.id }
  function IdTransacao(t: Transacao): string { t.id }
  function IdDespesa(d: Despesa): string { d.id }

  // ---------------------------------------------------------------------------
  // Customers

  /** What the caller of `adicionarCliente` supplies: a customer without
      `id`, `dataCadastro` and `status`. */
  datatype DadosCliente = DadosCliente(
    nome: string,
    telefone: string,
    cpf: string,
    endereco: Option<string>,
    valorDivida: real,
    dataVencimento: int,
    jurosPercentual: real,
    observacoes: Option<string>,
    produtoComprado: Option<string>)

  /** The caller-supplied part of a stored customer. */
  function DadosDe(c: Cliente): DadosCliente {
    DadosCliente(c.nome, c.telefone, c.cpf, c.endereco, c.valorDivida, c.dataVencimento,
                 c.jurosPercentual, c.observacoes, c.produtoComprado)
  }

  /** The record `adicionarCliente` builds: the data, a fresh id, the
      registration instant and status `ativo`. */
  function NovoCliente(d: DadosCliente, id: string, now: int): (c: Cliente)
    ensures DadosDe(c) == d
    ensures c.id == id && c.dataCadastro == now && c.status == Ativo
  {
    Cliente(id, d.nome, d.telefone, d.cpf, d.endereco, d.valorDivida, d.dataVencimento, now,
            d.jurosPercentual, Ativo, d.observacoes, d.produtoComprado)
  }

  /** `adicionarCliente`: exactly one record appended at the end; the earlier ones untouched. */
  function AdicionarCliente(cs: seq<Cliente>, d: DadosCliente, id: string, now: int): (r: seq<Cliente>)
    ensures |r| == |cs| + 1 && r[..|cs|] == cs
    ensures r[|cs|].id == id && r[|cs|].dataCadastro == now && r[|cs|].status == Ativo
    ensures DadosDe(r[|cs|]) == d
  {
    cs + [NovoCliente(d, id, now)]
  }

  /** With a fresh id, the customer ids stay unique. */
  lemma AdicionarClienteIdsUnicos(cs: seq<Cliente>, d: DadosCliente, id: string, now: int)
    requires IdsUnicos(cs, IdCliente)
    requires forall i :: 0 <= i < |cs| ==> cs[i].id != id
    ensures IdsUnicos(AdicionarCliente(cs, d, id, now), IdCliente)
  {
    var r := AdicionarCliente(cs, d, id, now);
    forall i, j | 0 <= i < j < |r|
      ensures IdCliente(r[i]) != IdCliente(r[j])
    {
      assert r[i] == cs[i];
      if j < |cs| {
        assert r[j] == cs[j];
      }
    }
  }

  /** `Partial<Cliente>`: a field is `Some` when the patch carries that key.
      An optional field carries `Some(None)` when the key is present with
      value `undefined`. */
  datatype ClientePatch = ClientePatch(
    id: Option<string>,
    nome: Option<string>,
    telefone: Option<string>,
    cpf: Option<string>,
    endereco: Option<Option<string>>,
    valorDivida: Option<real>,
    dataVencimento: Option<int>,
    dataCadastro: Option<int>,
    jurosPercentual: Option<real>,
    status: Option<Status>,
    observacoes: Option<Option<string>>,
    produtoComprado: Option<Option<string>>)

  const ClientePatchVazio: ClientePatch :=
    ClientePatch(None, None, None, None, None, None, None, None, None, None, None, None)

  /** The patch carrying every field of `c` (`{ ...c }`). */
  function PatchCompleto(c: Cliente): ClientePatch {
    ClientePatch(Some(c.id), Some(c.nome), Some(c.telefone), Some(c.cpf), Some(c.endereco),
                 Some(c.valorDivida), Some(c.dataVencimento), Some(c.dataCadastro),
                 Some(c.jurosPercentual), Some(c.status), Some(c.observacoes), Some(c.produtoComprado))
  }

  /** `{ ...c, ...p }`: the patch's fields win, the others are kept. */
  function MergeCliente(c: Cliente, p: ClientePatch): Cliente {
    Cliente(p.id.GetOr(c.id), p.nome.GetOr(c.nome), p.telefone.GetOr(c.telefone), p.cpf.GetOr(c.cpf),
            p.endereco.GetOr(c.endereco), p.valorDivida.GetOr(c.valorDivida),
            p.dataVencimento.GetOr(c.dataVencimento), p.dataCadastro.GetOr(c.dataCadastro),
            p.jurosPercentual.GetOr(c.jurosPercentual), p.status.GetOr(c.status),
            p.observacoes.GetOr(c.observacoes), p.produtoComprado.GetOr(c.produtoComprado))
  }

  /** The shallow merge: an empty patch changes nothing, merging twice is
      merging once, and a patch carrying every field yields exactly that record. */
  lemma MergeClienteLeis(c: Cliente, p: ClientePatch, x: Cliente)
    ensures MergeCliente(c, ClientePatchVazio) == c
    ensures MergeCliente(MergeCliente(c, p), p) == MergeCliente(c, p)
    ensures MergeCliente(c, PatchCompleto(x)) == x
  {
  }

  function AplicarCliente(p: ClientePatch): Cliente -> Cliente {
    c => MergeCliente(c, p)
  }

  /** `atualizarCliente`: same length and order; the records with that id get
      the patch merged in, every other record is untouched. */
  function AtualizarCliente(cs: seq<Cliente>, id: string, p: ClientePatch): (r: seq<Cliente>)
    ensures |r| == |cs|
    ensures forall i :: 0 <= i < |cs| && cs[i].id != id ==> r[i] == cs[i]
    ensures forall i :: 0 <= i < |cs| && cs[i].id == id ==> r[i] == MergeCliente(cs[i], p)
  {
    AtualizarId(cs, IdCliente, id, AplicarCliente(p))
  }

  /** An absent id or an empty patch leaves the list as it was. */
  lemma AtualizarClienteSemEfeito(cs: seq<Cliente>, id: string, p: ClientePatch)
    requires p == ClientePatchVazio || forall i :: 0 <= i < |cs| ==> cs[i].id != id
    ensures AtualizarCliente(cs, id, p) == cs
  {
    var r := AtualizarCliente(cs, id, p);
    forall i | 0 <= i < |cs|
      ensures r[i] == cs[i]
    {
      MergeClienteLeis(cs[i], p, cs[i]);
    }
  }

  /** Applying the same patch twice is applying it once. */
  lemma AtualizarClienteIdempotente(cs: seq<Cliente>, id: string, p: ClientePatch)
    ensures AtualizarCliente(AtualizarCliente(cs, id, p), id, p) == AtualizarCliente(cs, id, p)
  {
    var r1 := AtualizarCliente(cs, id, p);
    var r2 := AtualizarCliente(r1, id, p);
    forall i | 0 <= i < |cs|
      ensures r2[i] == r1[i]
    {
      MergeClienteLeis(cs[i], p, cs[i]);
    }
  }

  /** `removerCliente`: when confirmed, every record with that id goes and the
      others stay; when declined, nothing changes. */
  function RemoverCliente(cs: seq<Cliente>, id: string, confirmado: bool): (r: seq<Cliente>)
    ensures !confirmado ==> r == cs
    ensures confirmado ==> forall i :: 0 <= i < |r| ==> r[i] in cs && r[i].id != id
    ensures confirmado ==> forall i :: 0 <= i < |cs| && cs[i].id != id ==> cs[i] in r
  {
    if confirmado then SemId(cs, IdCliente, id) else cs
  }

  /** With unique ids, removing the customer at position `k` leaves the others in order. */
  lemma RemoverClienteMantemOrdem(cs: seq<Cliente>, k: nat)
    requires k < |cs| && IdsUnicos(cs, IdCliente)
    ensures RemoverCliente(cs, cs[k].id, true) == cs[..k] + cs[k + 1..]
  {
    assert forall i :: 0 <= i < |cs| && i != k ==> IdCliente(cs[i]) != IdCliente(cs[k]) by {
      forall i | 0 <= i < |cs| && i != k
        ensures IdCliente(cs[i]) != IdCliente(cs[k])
      {
        if i < k {
          assert IdCliente(cs[i]) != IdCliente(cs[k]);
        } else {
          assert IdCliente(cs[k]) != IdCliente(cs[i]);
        }
      }
    }
    SemIdUnico(cs, IdCliente, k);
  }

  /** `{ status: 'pago' }`. */
  const PatchPago: ClientePatch := ClientePatchVazio.(status := Some(Pago))

  /** `marcarComoPago`: the matching customers become `pago`, nothing else changes. */
  function MarcarComoPago(cs: seq<Cliente>, id: string): (r: seq<Cliente>)
    ensures |r| == |cs|
    ensures forall i :: 0 <= i < |cs| ==> r[i] == if cs[i].id == id then cs[i].(status := Pago) else cs[i]
  {
    AtualizarCliente(cs, id, PatchPago)
  }

  /** `c` is what a search for `nome` finds: active, and its lower-cased name
      contains the lower-cased query (taken untrimmed). */
  predicate Encontrado(c: Cliente, nome: string) {
    c.status == Ativo && Contains(ToLower(c.nome), ToLower(nome))
  }

  /** `clientes.find(...)`: the first match in list order. */
  function Primeiro(cs: seq<Cliente>, nome: string): (r: Option<Cliente>)
    ensures r.None? <==> forall i :: 0 <= i < |cs| ==> !Encontrado(cs[i], nome)
    ensures r.Some? ==> exists k :: 0 <= k < |cs| && cs[k] == r.value && Encontrado(cs[k], nome) &&
                          forall j :: 0 <= j < k ==> !Encontrado(cs[j], nome)
  {
    if |cs| == 0 then None
    else if Encontrado(cs[0], nome) then Some(cs[0])
    else
      var r := Primeiro(cs[1..], nome);
      assert forall i :: 1 <= i < |cs| ==> cs[i] == cs[1..][i - 1];
      if r.Some? then
        var k :| 0 <= k < |cs[1..]| && cs[1..][k] == r.value && Encontrado(cs[1..][k], nome) &&
                 forall j :: 0 <= j < k ==> !Encontrado(cs[1..][j], nome);
        assert cs[k + 1] == r.value;
        r
      else r
  }

  /** `buscarCliente`: nothing for a blank query, otherwise the first active
      customer whose name contains it, ignoring case. */
  function BuscarCliente(cs: seq<Cliente>, nome: string): (r: Option<Cliente>)
    ensures IsBlank(nome) ==> r.None?
    ensures r.Some? ==> r.value in cs && Encontrado(r.value, nome)
    ensures !IsBlank(nome) && r.None? ==> forall i :: 0 <= i < |cs| ==> !Encontrado(cs[i], nome)
  {
    if Trim(nome) == "" then None else Primeiro(cs, nome)
  }

  /** `c` counts as an existing customer named `nome`, unless it is the record
      `idExcluir` names (an empty id excludes nothing, as `!idExcluir` holds). */
  predicate Duplicado(c: Cliente, nome: string, idExcluir: Option<string>) {
    && ToLower(c.nome) == ToLower(nome)
    && c.status == Ativo
    && (idExcluir.None? || idExcluir.value == "" || c.id != idExcluir.value)
  }

  /** `verificarClienteExistente`: some active customer has that name, ignoring case. */
  function VerificarClienteExistente(cs: seq<Cliente>, nome: string, idExcluir: Option<string>): (r: bool)
    ensures r <==> exists i :: 0 <= i < |cs| && Duplicado(cs[i], nome, idExcluir)
  {
    if |cs| == 0 then false
    else
      assert forall i :: 1 <= i < |cs| ==> cs[i] == cs[1..][i - 1];
      Duplicado(cs[0], nome, idExcluir) || VerificarClienteExistente(cs[1..], nome, idExcluir)
  }

  /** Excluding the id of the only customer with that name reports no duplicate. */
  lemma ExcluindoUnicoNaoHaDuplicado(cs: seq<Cliente>, nome: string, k: nat)
    requires k < |cs| && cs[k].id != ""
    requires forall i :: 0 <= i < |cs| && i != k ==> !(ToLower(cs[i].nome) == ToLower(nome) && cs[i].status == Ativo)
    ensures !VerificarClienteExistente(cs, nome, Some(cs[k].id))
  {
  }

  /** A name that exists, searched for, is found. */
  lemma ExistenteEncontrado(cs: seq<Cliente>, nome: string, idExcluir: Option<string>)
    requires !IsBlank(nome)
    requires VerificarClienteExistente(cs, nome, idExcluir)
    ensures BuscarCliente(cs, nome).Some?
  {
    var i :| 0 <= i < |cs| && Duplicado(cs[i], nome, idExcluir);
    var l := ToLower(cs[i].nome);
    assert OccursAt(l, ToLower(nome), 0) by {
      assert l[0..|ToLower(nome)|] == l;
    }
    assert Encontrado(cs[i], nome);
  }

  /** No record holds `vencido`: overdue-ness is always derived, never stored. */
  predicate SemVencido(cs: seq<Cliente>) {
    forall i :: 0 <= i < |cs| ==> cs[i].status != Vencido
  }

  /** Every customer mutation keeps `vencido` out of the store, given a patch that does not set it. */
  lemma OperacoesSemVencido(cs: seq<Cliente>, d: DadosCliente, id: string, now: int, p: ClientePatch, confirmado: bool)
    requires SemVencido(cs)
    requires p.status != Some(Vencido)
    ensures SemVencido(AdicionarCliente(cs, d, id, now))
    ensures SemVencido(AtualizarCliente(cs, id, p))
    ensures SemVencido(RemoverCliente(cs, id, confirmado))
    ensures SemVencido(MarcarComoPago(cs, id))
  {
    var r := RemoverCliente(cs, id, confirmado);
    forall i | 0 <= i < |r|
      ensures r[i].status != Vencido
    {
      assert r[i] in cs;
    }
  }

  // ---------------------------------------------------------------------------
  // Transactions

  /** What the caller of `adicionarTransacao` supplies: a transaction without `id` and `data`. */
  datatype DadosTransacao = DadosTransacao(
    clienteId: Option<string>,
    tipo: Tipo,
    valor: real,
    descricao: string,
    categoria: Option<string>)

  function DadosTransacaoDe(t: Transacao): DadosTransacao {
    DadosTransacao(t.clienteId, t.tipo, t.valor, t.descricao, t.categoria)
  }

  /** `adicionarTransacao`: one record appended, stamped with a fresh id and the current instant. */
  function AdicionarTransacao(ts: seq<Transacao>, d: DadosTransacao, id: string, now: int): (r: seq<Transacao>)
    ensures |r| == |ts| + 1 && r[..|ts|] == ts
    ensures r[|ts|].id == id && r[|ts|].data == now
    ensures DadosTransacaoDe(r[|ts|]) == d
  {
    ts + [Transacao(id, d.clienteId, d.tipo, d.valor, d.descricao, now, d.categoria)]
  }

  /** `Partial<Transacao>`. */
  datatype TransacaoPatch = TransacaoPatch(
    id: Option<string>,
    clienteId: Option<Option<string>>,
    tipo: Option<Tipo>,
    valor: Option<real>,
    descricao: Option<string>,
    data: Option<int>,
    categoria: Option<Option<string>>)

  const TransacaoPatchVazio: TransacaoPatch := TransacaoPatch(None, None, None, None, None, None, None)

  function MergeTransacao(t: Transacao, p: TransacaoPatch): Transacao {
    Transacao(p.id.GetOr(t.id), p.clienteId.GetOr(t.clienteId), p.tipo.GetOr(t.tipo),
              p.valor.GetOr(t.valor), p.descricao.GetOr(t.descricao), p.data.GetOr(t.data),
              p.categoria.GetOr(t.categoria))
  }

  lemma MergeTransacaoLeis(t: Transacao, p: TransacaoPatch)
    ensures MergeTransacao(t, TransacaoPatchVazio) == t
    ensures MergeTransacao(MergeTransacao(t, p), p) == MergeTransacao(t, p)
  {
  }

  function AplicarTransacao(p: TransacaoPatch): Transacao -> Transacao {
    t => MergeTransacao(t, p)
  }

  /** `atualizarTransacao`: same length and order, matching records merged, others untouched. */
  function AtualizarTransacao(ts: seq<Transacao>, id: string, p: TransacaoPatch): (r: seq<Transacao>)
    ensures |r| == |ts|
    ensures forall i :: 0 <= i < |ts| && ts[i].id != id ==> r[i] == ts[i]
    ensures forall i :: 0 <= i < |ts| && ts[i].id == id ==> r[i] == MergeTransacao(ts[i], p)
  {
    AtualizarId(ts, IdTransacao, id, AplicarTransacao(p))
  }

  /** `removerTransacao`: confirmed, the records with that id go; declined, nothing changes. */
  function RemoverTransacao(ts: seq<Transacao>, id: string, confirmado: bool): (r: seq<Transacao>)
    ensures !confirmado ==> r == ts
    ensures confirmado ==> forall i :: 0 <= i < |r| ==> r[i] in ts && r[i].id != id
    ensures confirmado ==> forall i :: 0 <= i < |ts| && ts[i].id != id ==> ts[i] in r
  {
    if confirmado then SemId(ts, IdTransacao, id) else ts
  }

  // ---------------------------------------------------------------------------
  // Expenses

  /** What the caller of `adicionarDespesa` supplies: an expense without `id`. */
  datatype DadosDespesa = DadosDespesa(
    nome: string,
    categoria: Categoria,
    valor: real,
    data: int,
    observacao: Option<string>,
    recorrente: Option<bool>)

  function DadosDespesaDe(d: Despesa): DadosDespesa {
    DadosDespesa(d.nome, d.categoria, d.valor, d.data, d.observacao, d.recorrente)
  }

  /** `adicionarDespesa`: one record appended, stamped with a fresh id only; its
      date is the one supplied. */
  function AdicionarDespesa(ds: seq<Despesa>, d: DadosDespesa, id: string): (r: seq<Despesa>)
    ensures |r| == |ds| + 1 && r[..|ds|] == ds
    ensures r[|ds|].id == id && r[|ds|].data == d.data
    ensures DadosDespesaDe(r[|ds|]) == d
  {
    ds + [Despesa(id, d.nome, d.categoria, d.valor, d.data, d.observacao, d.recorrente)]
  }

  /** `Partial<Despesa>`. */
  datatype DespesaPatch = DespesaPatch(
    id: Option<string>,
    nome: Option<string>,
    categoria: Option<Categoria>,
    valor: Option<real>,
    data: Option<int>,
    observacao: Option<Option<string>>,
    recorrente: Option<Option<bool>>)

  const DespesaPatchVazio: DespesaPatch := DespesaPatch(None, None, None, None, None, None, None)

  function MergeDespesa(d: Despesa, p: DespesaPatch): Despesa {
    Despesa(p.id.GetOr(d.id), p.nome.GetOr(d.nome), p.categoria.GetOr(d.categoria),
            p.valor.GetOr(d.valor), p.data.GetOr(d.data), p.observacao.GetOr(d.observacao),
            p.recorrente.GetOr(d.recorrente))
  }

  lemma MergeDespesaLeis(d: Despesa, p: DespesaPatch)
    ensures MergeDespesa(d, DespesaPatchVazio) == d
    ensures MergeDespesa(MergeDespesa(d, p), p) == MergeDespesa(d, p)
  {
  }

  function AplicarDespesa(p: DespesaPatch): Despesa -> Despesa {
    d => MergeDespesa(d, p)
  }

  /** `atualizarDespesa`: same length and order, matching records merged, others untouched. */
  function AtualizarDespesa(ds: seq<Despesa>, id: string, p: DespesaPatch): (r: seq<Despesa>)
    ensures |r| == |ds|
    ensures forall i :: 0 <= i < |ds| && ds[i].id != id ==> r[i] == ds[i]
    ensures forall i :: 0 <= i < |ds| && ds[i].id == id ==> r[i] == MergeDespesa(ds[i], p)
  {
    AtualizarId(ds, IdDespesa, id, AplicarDespesa(p))
  }

  /** `removerDespesa`: confirmed, the records with that id go; declined, nothing changes. */
  function RemoverDespesa(ds: seq<Despesa>, id: string, confirmado: bool): (r: seq<Despesa>)
    ensures !confirmado ==> r == ds
    ensures confirmado ==> forall i :: 0 <= i < |r| ==> r[i] in ds && r[i].id != id
    ensures confirmado ==> forall i :: 0 <= i < |ds| && ds[i].id != id ==> ds[i] in r
  {
    if confirmado then SemId(ds, IdDespesa, id) else ds
  }

  // ---------------------------------------------------------------------------
  // Writes through `setValue`

  /** `setValue(prev => [...prev, x])` called once per element of `novos` within
      one event handler, as written: each updater is applied to the value
      `lido` captured at render time, not to the previous write, so each write
      replaces the one before it. */
  function AcrescentarComoEscrito<T>(lido: seq<T>, atual: seq<T>, novos: seq<T>): seq<T>
    decreases |novos|
  {
    if |novos| == 0 then atual else AcrescentarComoEscrito(lido, lido + [novos[0]], novos[1..])
  }

  /** Only the last of several appends survives. */
  lemma {:induction false} SoUltimoSobrevive<T>(lido: seq<T>, atual: seq<T>, novos: seq<T>)
    requires |novos| > 0
    ensures AcrescentarComoEscrito(lido, atual, novos) == lido + [novos[|novos| - 1]]
    decreases |novos|
  {
    if |novos| > 1 {
      SoUltimoSobrevive(lido, lido + [novos[0]], novos[1..]);
    }
  }

  /** The evidently intended effect: each updater applied to the latest value. */
  function Acrescentar<T>(atual: seq<T>, novos: seq<T>): (r: seq<T>)
    ensures |r| == |atual| + |novos|
    ensures r[..|atual|] == atual && r[|atual|..] == novos
    decreases |novos|
  {
    if |novos| == 0 then atual else Acrescentar(atual + [novos[0]], novos[1..])
  }

  // ---------------------------------------------------------------------------
  // Settings

  /** The settings in effect before anything is saved. */
  const ConfigPadrao: ConfiguracaoApp := ConfiguracaoApp("Minha Loja", "", MensagemPadrao, 2.0, true)

  /** The out-of-the-box settings: "Minha Loja", a 2% daily rate, notifications
      on, and a collection message that fills the customer's name, the amount
      due and the due date in place. */
  lemma ConfigPadraoMensagem(c: Cliente, now: int, formatCurrency: real -> string, formatDate: int -> string)
    requires SemChave(c.nome) && IsLiteralReplacement(c.nome)
    requires SemChave(formatCurrency(CalcularValorTotal(c, now)))
    requires IsLiteralReplacement(formatCurrency(CalcularValorTotal(c, now)))
    requires IsLiteralReplacement(formatDate(c.dataVencimento))
    ensures ConfigPadrao.nomeEmpresa == "Minha Loja" && ConfigPadrao.telefoneEmpresa == ""
    ensures ConfigPadrao.jurosPercentualPadrao == 2.0 && ConfigPadrao.notificacoesAtivas
    ensures GerarMensagemWhatsApp(c, ConfigPadrao.mensagemCobrancaPadrao, now, formatCurrency, formatDate) ==
              Trecho0 + c.nome + Trecho1 + formatCurrency(CalcularValorTotal(c, now)) +
              Trecho2 + formatDate(c.dataVencimento) + Trecho3
  {
    MensagemPadraoPreenchida(c, now, formatCurrency, formatDate);
  }

  /** `Partial<ConfiguracaoApp>`. */
  datatype ConfigPatch = ConfigPatch(
    nomeEmpresa: Option<string>,
    telefoneEmpresa: Option<string>,
    mensagemCobrancaPadrao: Option<string>,
    jurosPercentualPadrao: Option<real>,
    notificacoesAtivas: Option<bool>)

  const ConfigPatchVazio: ConfigPatch := ConfigPatch(None, None, None, None, None)

  /** `atualizarConfiguracoes`: `{ ...prev, ...novas }`. */
  function AtualizarConfiguracoes(c: ConfiguracaoApp, p: ConfigPatch): ConfiguracaoApp {
    ConfiguracaoApp(p.nomeEmpresa.GetOr(c.nomeEmpresa), p.telefoneEmpresa.GetOr(c.telefoneEmpresa),
                    p.mensagemCobrancaPadrao.GetOr(c.mensagemCobrancaPadrao),
                    p.jurosPercentualPadrao.GetOr(c.jurosPercentualPadrao),
                    p.notificacoesAtivas.GetOr(c.notificacoesAtivas))
  }

  /** Two successive saves: the later one's fields win. */
  function Combinar(p: ConfigPatch, q: ConfigPatch): ConfigPatch {
    ConfigPatch(if q.nomeEmpresa.Some? then q.nomeEmpresa else p.nomeEmpresa,
                if q.telefoneEmpresa.Some? then q.telefoneEmpresa else p.telefoneEmpresa,
                if q.mensagemCobrancaPadrao.Some? then q.mensagemCobrancaPadrao else p.mensagemCobrancaPadrao,
                if q.jurosPercentualPadrao.Some? then q.jurosPercentualPadrao else p.jurosPercentualPadrao,
                if q.notificacoesAtivas.Some? then q.notificacoesAtivas else p.notificacoesAtivas)
  }

  /** The shallow merge: an empty save changes nothing, saving twice is saving
      once, and two saves act as one combined save. */
  lemma AtualizarConfiguracoesLeis(c: ConfiguracaoApp, p: ConfigPatch, q: ConfigPatch)
    ensures AtualizarConfiguracoes(c, ConfigPatchVazio) == c
    ensures AtualizarConfiguracoes(AtualizarConfiguracoes(c, p), p) == AtualizarConfiguracoes(c, p)
    ensures AtualizarConfiguracoes(AtualizarConfiguracoes(c, p), q) == AtualizarConfiguracoes(c, Combinar(p, q))
  {
  }
}

=== FILE: text.dfy ===
/** The JavaScript string primitives the bookkeeping code relies on:
    `\d` and `\s` character classes, `replace(/\D/g, '')`, `trim()`,
    `toLowerCase()`, `includes`, `indexOf`, `startsWith`, `split('\n')`,
    the UTF-16 `length`, and `replace(string, string)` with its `$`
    substitution patterns. Strings are sequences of Unicode scalar values. */
module Text {
  import opened Common

  /** `\d` in a JavaScript regular expression. */
  predicate IsDigit(c: char) {
    '0' <= c <= '9'
  }

  /** A line terminator: the characters `.` does not match. */
  predicate IsLineTerminator(c: char) {
    c == '\n' || c == '\r' || c == '\U{2028}' || c == '\U{2029}'
  }

  /** `\s`, which is also the set `trim()` removes: WhiteSpace and LineTerminator
      of ECMAScript (tab, vertical tab, form feed, space, no-break space,
      byte-order mark, the Unicode space separators, and the line terminators). */
  predicate IsSpace(c: char) {
    || c == '\t' || c == '\U{B}' || c == '\U{C}' || c == ' ' || c == '\U{A0}'
    || c == '\U{FEFF}' || c == '\U{1680}' || ('\U{2000}' <= c <= '\U{200A}')
    || c == '\U{202F}' || c == '\U{205F}' || c == '\U{3000}'
    || IsLineTerminator(c)
  }

  predicate AllDigits(s: string) {
    forall i :: 0 <= i < |s| ==> IsDigit(s[i])
  }

  /** A string `trim()` reduces to the empty string (JavaScript: `!s.trim()`). */
  predicate IsBlank(s: string) {
    forall i :: 0 <= i < |s| ==> IsSpace(s[i])
  }

  /** `s.replace(/\D/g, '')`: the digits of `s`, in order. */
  function Digits(s: string): (d: string)
    ensures AllDigits(d)
    ensures |d| <= |s|
    ensures AllDigits(s) ==> d == s
  {
    if |s| == 0 then "" else (if IsDigit(s[0]) then [s[0]] else "") + Digits(s[1..])
  }

  lemma {:induction false} DigitsConcat(a: string, b: string)
    ensures Digits(a + b) == Digits(a) + Digits(b)
  {
    if |a| == 0 {
      assert a + b == b;
    } else {
      assert (a + b)[1..] == a[1..] + b;
      DigitsConcat(a[1..], b);
    }
  }

  /** A string with no digit has none to contribute. */
  lemma {:induction false} DigitsOfNonDigits(s: string)
    requires forall i :: 0 <= i < |s| ==> !IsDigit(s[i])
    ensures Digits(s) == ""
  {
    if |s| > 0 {
      DigitsOfNonDigits(s[1..]);
    }
  }

  /** Number of leading characters of `s` that `trimStart` removes. */
  function LeadingSpaces(s: string): (n: nat)
    ensures n <= |s|
    ensures forall i :: 0 <= i < n ==> IsSpace(s[i])
    ensures n < |s| ==> !IsSpace(s[n])
  {
    if |s| == 0 || !IsSpace(s[0]) then 0 else 1 + LeadingSpaces(s[1..])
  }

  /** Number of trailing characters of `s` that `trimEnd` removes. */
  function TrailingSpaces(s: string): (n: nat)
    ensures n <= |s|
    ensures forall i :: |s| - n <= i < |s| ==> IsSpace(s[i])
    ensures n < |s| ==> !IsSpace(s[|s| - n - 1])
  {
    if |s| == 0 || !IsSpace(s[|s| - 1]) then 0 else 1 + TrailingSpaces(s[..|s| - 1])
  }

  /** `s.trim()`: the slice of `s` between its leading and its trailing white space. */
  function Trim(s: string): (t: string)
    ensures |t| <= |s|
    ensures t == "" <==> IsBlank(s)
    ensures t != "" ==> !IsSpace(t[0]) && !IsSpace(t[|t| - 1])
    ensures exists a :: 0 <= a <= |s| - |t| && s[a..a + |t|] == t && IsBlank(s[..a]) && IsBlank(s[a + |t|..])
  {
    var a := LeadingSpaces(s);
    var b := TrailingSpaces(s[a..]);
    var t := s[a..][..|s[a..]| - b];
    TrimCorte(s, a, b, t);
    t
  }

  /** The slice `Trim` returns sits between a blank prefix and a blank suffix,
      and is empty exactly when the whole string is blank. */
  lemma TrimCorte(s: string, a: nat, b: nat, t: string)
    requires a == LeadingSpaces(s) && b == TrailingSpaces(s[a..])
    requires t == s[a..][..|s[a..]| - b]
    ensures |t| <= |s|
    ensures t == "" <==> IsBlank(s)
    ensures t != "" ==> !IsSpace(t[0]) && !IsSpace(t[|t| - 1])
    ensures exists a :: 0 <= a <= |s| - |t| && s[a..a + |t|] == t && IsBlank(s[..a]) && IsBlank(s[a + |t|..])
  {
    TrimFatia(s, a, b, t);
    TrimBordas(s, a, b, t);
  }

  lemma TrimFatia(s: string, a: nat, b: nat, t: string)
    requires a == LeadingSpaces(s) && b == TrailingSpaces(s[a..])
    requires t == s[a..][..|s[a..]| - b]
    ensures a + |t| <= |s| && s[a..a + |t|] == t && IsBlank(s[..a]) && IsBlank(s[a + |t|..])
  {
    FatiaDaFatia(s, a, b);
    BlankPrefix(s, a);
    BlankSuffix(s[a..], b);
    assert s[a + |t|..] == s[a..][|s[a..]| - b..];
  }

  lemma FatiaDaFatia(s: string, a: nat, b: nat)
    requires a + b <= |s|
    ensures s[a..][..|s| - a - b] == s[a..|s| - b]
  {
  }

  lemma BlankPrefix(s: string, n: nat)
    requires n <= |s| && forall i :: 0 <= i < n ==> IsSpace(s[i])
    ensures IsBlank(s[..n])
  {
    assert forall i :: 0 <= i < n ==> s[..n][i] == s[i];
  }

  lemma BlankSuffix(s: string, n: nat)
    requires n <= |s| && forall i :: |s| - n <= i < |s| ==> IsSpace(s[i])
    ensures IsBlank(s[|s| - n..])
  {
    var k := |s| - n;
    forall i | 0 <= i < n ensures IsSpace(s[k..][i]) {
      assert s[k..][i] == s[k + i];
    }
  }

  lemma TrimBordas(s: string, a: nat, b: nat, t: string)
    requires a == LeadingSpaces(s) && b == TrailingSpaces(s[a..])
    requires t == s[a..][..|s[a..]| - b]
    ensures t == "" <==> IsBlank(s)
    ensures t != "" ==> !IsSpace(t[0]) && !IsSpace(t[|t| - 1])
  {
    var rest := s[a..];
    if a < |s| {
      assert rest[0] == s[a] && b < |rest|;
      assert t[0] == s[a] && t[|t| - 1] == rest[|rest| - b - 1];
    } else {
      assert s[..a] == s;
    }
  }

  /** Trimming twice is trimming once. */
  lemma TrimIdempotent(s: string)
    ensures Trim(Trim(s)) == Trim(s)
  {
    var t := Trim(s);
    if t != "" {
      assert LeadingSpaces(t) == 0;
      assert TrailingSpaces(t) == 0;
    }
  }

  /** A string with no white space at either end is its own trim. */
  lemma TrimNoEdgeSpace(s: string)
    requires |s| > 0 && !IsSpace(s[0]) && !IsSpace(s[|s| - 1])
    ensures Trim(s) == s
  {
    assert LeadingSpaces(s) == 0;
    assert TrailingSpaces(s) == 0;
  }

  lemma SliceSubset(s: string, a: nat, b: nat)
    requires a <= b <= |s|
    ensures forall c :: c in s[a..b] ==> c in s
  {
    forall c | c in s[a..b]
      ensures c in s
    {
      var k :| a <= k < b && s[k] == c;
    }
  }

  /** Trimming adds no character. */
  lemma TrimSubset(s: string)
    ensures forall c :: c in Trim(s) ==> c in s
  {
    var t := Trim(s);
    var a :| 0 <= a <= |s| - |t| && s[a..a + |t|] == t && IsBlank(s[..a]) && IsBlank(s[a + |t|..]);
    SliceSubset(s, a, a + |t|);
  }

  /** A string with no white space at either end, followed by one space, trims back to itself. */
  lemma TrimAppendSpace(s: string)
    requires |s| > 0 && !IsSpace(s[0]) && !IsSpace(s[|s| - 1])
    ensures Trim(s + " ") == s
  {
    var x := s + " ";
    assert LeadingSpaces(x) == 0;
    assert x[..|x| - 1] == s;
    assert TrailingSpaces(s) == 0;
    assert TrailingSpaces(x) == 1;
  }

  lemma DigitsOfBlank(s: string)
    requires IsBlank(s)
    ensures Digits(s) == ""
  {
    DigitsOfNonDigits(s);
  }

  lemma SplitAt3(s: string, a: nat, b: nat)
    requires a <= b <= |s|
    ensures s == s[..a] + s[a..b] + s[b..]
  {
  }

  /** Trimming removes no digit. */
  lemma DigitsTrim(s: string)
    ensures Digits(Trim(s)) == Digits(s)
  {
    var t := Trim(s);
    var a :| 0 <= a <= |s| - |t| && s[a..a + |t|] == t && IsBlank(s[..a]) && IsBlank(s[a + |t|..]);
    var b := a + |t|;
    SplitAt3(s, a, b);
    DigitsConcat(s[..a] + t, s[b..]);
    DigitsConcat(s[..a], t);
    DigitsOfBlank(s[..a]);
    DigitsOfBlank(s[b..]);
  }

  /** `toLowerCase()` on one character: the ASCII letters and the Latin-1
      upper-case letters (`À`..`Þ` except `×`) map 32 code points down. */
  function LowerChar(c: char): (l: char)
    ensures 'A' <= c <= 'Z' ==> 'a' <= l <= 'z'
    ensures !('A' <= c <= 'Z') && !('\U{C0}' <= c <= '\U{DE}') ==> l == c
  {
    if 'A' <= c <= 'Z' || ('\U{C0}' <= c <= '\U{DE}' && c != '\U{D7}') then
      (c as int + 32) as char
    else
      c
  }

  /** `s.toLowerCase()`, character by character. */
  function ToLower(s: string): (l: string)
    ensures |l| == |s|
    ensures forall i :: 0 <= i < |s| ==> l[i] == LowerChar(s[i])
  {
    seq(|s|, i requires 0 <= i < |s| => LowerChar(s[i]))
  }

  /** `p` occurs in `s` starting at index `i`. */
  predicate OccursAt(s: string, p: string, i: int) {
    0 <= i && i + |p| <= |s| && s[i..i + |p|] == p
  }

  /** `s.includes(p)`. */
  predicate Contains(s: string, p: string) {
    exists i | 0 <= i <= |s| - |p| :: OccursAt(s, p, i)
  }

  /** `s.startsWith(p)`. */
  predicate StartsWith(s: string, p: string) {
    |p| <= |s| && s[..|p|] == p
  }

  /** The first index at or after `k` where `p` occurs in `s`. */
  function IndexOfFrom(s: string, p: string, k: nat): (r: Option<nat>)
    ensures r.Some? ==> k <= r.value && OccursAt(s, p, r.value)
    ensures r.Some? ==> forall j :: k <= j < r.value ==> !OccursAt(s, p, j)
    ensures r.None? ==> forall j :: k <= j ==> !OccursAt(s, p, j)
    decreases |s| - k
  {
    if k + |p| > |s| then None
    else if s[k..k + |p|] == p then Some(k)
    else IndexOfFrom(s, p, k + 1)
  }

  /** `s.indexOf(p)`, with `None` for JavaScript's -1. */
  function IndexOf(s: string, p: string): (r: Option<nat>)
    ensures r.Some? <==> Contains(s, p)
    ensures r.Some? ==> OccursAt(s, p, r.value) && forall j :: 0 <= j < r.value ==> !OccursAt(s, p, j)
  {
    IndexOfFrom(s, p, 0)
  }

  /** A pattern whose first character does not appear in `a` is first found right after `a`. */
  lemma {:induction false} IndexOfAfterPrefix(a: string, p: string, b: string)
    requires |p| > 0
    requires p[0] !in a
    ensures IndexOf(a + p + b, p) == Some(|a|)
  {
    var s := a + p + b;
    assert OccursAt(s, p, |a|) by {
      assert s[|a|..|a| + |p|] == p;
    }
    forall j | 0 <= j < |a|
      ensures !OccursAt(s, p, j)
    {
      assert s[j] == a[j];
    }
  }

  /** ECMAScript GetSubstitution for a string pattern (no capture groups):
      `$$` is a dollar sign, `$&` the matched text, `` $` `` the text before the
      match, `$'` the text after it; every other character is literal. */
  function Expand(rep: string, matched: string, before: string, after: string): string
    decreases |rep|
  {
    if |rep| == 0 then ""
    else if rep[0] == '$' && |rep| >= 2 && rep[1] == '$' then "$" + Expand(rep[2..], matched, before, after)
    else if rep[0] == '$' && |rep| >= 2 && rep[1] == '&' then matched + Expand(rep[2..], matched, before, after)
    else if rep[0] == '$' && |rep| >= 2 && rep[1] == '`' then before + Expand(rep[2..], matched, before, after)
    else if rep[0] == '$' && |rep| >= 2 && rep[1] == '\'' then after + Expand(rep[2..], matched, before, after)
    else [rep[0]] + Expand(rep[1..], matched, before, after)
  }

  /** The characters that make a following `$` special in a replacement. */
  predicate IsDollarSpecial(c: char) {
    c == '$' || c == '&' || c == '`' || c == '\''
  }

  /** No `$` in `rep` starts a substitution pattern (as in `"R$ 10,00"`). */
  predicate IsLiteralReplacement(rep: string) {
    forall i :: 0 <= i < |rep| - 1 && rep[i] == '$' ==> !IsDollarSpecial(rep[i + 1])
  }

  /** A replacement in which no `$` starts a pattern is inserted verbatim. */
  lemma {:induction false} ExpandPlain(rep: string, matched: string, before: string, after: string)
    requires IsLiteralReplacement(rep)
    ensures Expand(rep, matched, before, after) == rep
  {
    if |rep| > 0 {
      assert IsLiteralReplacement(rep[1..]) by {
        forall i | 0 <= i < |rep[1..]| - 1 && rep[1..][i] == '$'
          ensures !IsDollarSpecial(rep[1..][i + 1])
        {
          assert rep[i + 1] == '$';
        }
      }
      ExpandPlain(rep[1..], matched, before, after);
    }
  }

  /** `s.replace(p, rep)` with a string pattern: only the first occurrence is replaced. */
  function ReplaceFirst(s: string, p: string, rep: string): (r: string)
    ensures !Contains(s, p) ==> r == s
  {
    match IndexOf(s, p)
    case None => s
    case Some(i) => s[..i] + Expand(rep, p, s[..i], s[i + |p|..]) + s[i + |p|..]
  }

  /** With a literal replacement and the first occurrence at `i`, the result is
      the text before `i`, the replacement, and everything after the match untouched
      (later occurrences included). */
  lemma ReplaceFirstAt(s: string, p: string, rep: string, i: nat)
    requires OccursAt(s, p, i) && forall j :: 0 <= j < i ==> !OccursAt(s, p, j)
    requires IsLiteralReplacement(rep)
    ensures ReplaceFirst(s, p, rep) == s[..i] + rep + s[i + |p|..]
  {
    var k := IndexOf(s, p);
    assert k == Some(i);
    ExpandPlain(rep, p, s[..i], s[i + |p|..]);
  }

  /** `indexOf` finds an occurrence with none before it. */
  lemma IndexOfIs(s: string, m: string, i: nat)
    requires OccursAt(s, m, i) && forall j :: 0 <= j < i ==> !OccursAt(s, m, j)
    ensures IndexOf(s, m) == Some(i)
  {
  }

  /** Deleting (`replace(m, '')`) where `indexOf` finds `m` cuts exactly that occurrence out. */
  lemma DeleteAtIndex(s: string, m: string, i: nat)
    requires IndexOf(s, m) == Some(i)
    ensures ReplaceFirst(s, m, "") == s[..i] + s[i + |m|..]
  {
  }

  /** A pattern whose first character is absent from `s` does not occur in it. */
  lemma AbsentFirstChar(s: string, p: string)
    requires |p| > 0
    requires p[0] !in s
    ensures !Contains(s, p)
  {
    forall i | 0 <= i <= |s| - |p|
      ensures !OccursAt(s, p, i)
    {
      assert s[i..i + |p|][0] == s[i];
    }
  }

  /** Replacing a pattern that follows a prefix free of its first character
      replaces exactly that occurrence. */
  lemma ReplaceAfterPrefix(a: string, p: string, b: string, rep: string)
    requires |p| > 0
    requires p[0] !in a
    requires IsLiteralReplacement(rep)
    ensures ReplaceFirst(a + p + b, p, rep) == a + rep + b
  {
    var s := a + p + b;
    IndexOfAfterPrefix(a, p, b);
    ReplaceFirstAt(s, p, rep, |a|);
    assert s[..|a|] == a;
    assert s[|a| + |p|..] == b;
  }

  /** The decimal digit character for `d`. */
  function DigitChar(d: nat): (c: char)
    requires d < 10
    ensures IsDigit(c)
  {
    ('0' as int + d) as char
  }

  /** `String(n)` for a natural number: its decimal digits without leading zeros. */
  function NatToString(n: nat): (s: string)
    ensures |s| > 0 && AllDigits(s)
    ensures |s| > 1 ==> s[0] != '0'
  {
    if n < 10 then [DigitChar(n)] else NatToString(n / 10) + [DigitChar(n % 10)]
  }

  /** The value of a string of decimal digits. */
  function ParseNat(s: string): nat
    requires AllDigits(s)
  {
    if |s| == 0 then 0 else 10 * ParseNat(s[..|s| - 1]) + (s[|s| - 1] as int - '0' as int)
  }

  lemma {:induction false} ParseNatToString(n: nat)
    ensures ParseNat(NatToString(n)) == n
  {
    if n >= 10 {
      var s := NatToString(n);
      assert s[..|s| - 1] == NatToString(n / 10);
      ParseNatToString(n / 10);
    }
  }

  /** `s.split(sep)` for a one-character separator: the maximal separator-free
      pieces, always at least one (`"".split(sep)` is `[""]`). */
  function Split(s: string, sep: char): (parts: seq<string>)
    ensures |parts| >= 1
    ensures forall k, i :: 0 <= k < |parts| && 0 <= i < |parts[k]| ==> parts[k][i] != sep
  {
    if |s| == 0 then [""]
    else
      var rest := Split(s[1..], sep);
      if s[0] == sep then [""] + rest else [[s[0]] + rest[0]] + rest[1..]
  }

  /** `parts.join(sep)`. */
  function Join(parts: seq<string>, sep: char): string
    requires |parts| >= 1
  {
    if |parts| == 1 then parts[0] else parts[0] + [sep] + Join(parts[1..], sep)
  }

  /** Splitting loses nothing: joining the pieces restores the text. */
  lemma {:induction false} JoinSplit(s: string, sep: char)
    ensures Join(Split(s, sep), sep) == s
  {
    if |s| > 0 {
      JoinSplit(s[1..], sep);
      var rest := Split(s[1..], sep);
      if s[0] != sep {
        var parts := Split(s, sep);
        if |rest| > 1 {
          assert parts[1..] == rest[1..];
        }
      }
    }
  }

  /** JavaScript's `length`: UTF-16 code units, two for a character outside the
      Basic Multilingual Plane. */
  function Utf16Length(s: string): (n: nat)
    ensures |s| <= n <= 2 * |s|
  {
    if |s| == 0 then 0 else (if s[0] as int >= 0x10000 then 2 else 1) + Utf16Length(s[1..])
  }
}

=== FILE: types.dfy ===
/** The records of the crediário book (src/lib/types.ts). Dates are integer
    milliseconds since the epoch; money is an exact `real`. */
module Types {
  import opened Common

  /** `Cliente.status`. `Vencido` is declared but no operation ever stores it:
      overdue-ness is derived from the due date (see `Accrual.IsVencido`). */
  datatype Status = Ativo | Pago | Vencido

  /** `Transacao.tipo`: money received or money paid out. */
  datatype Tipo = Entrada | Saida

  /** `Despesa.categoria`, a closed set of eight values. */
  datatype Categoria = Agua | Luz | Carro | Alimentacao | Aluguel | Internet | Telefone | Outros

  /** A customer who owes `valorDivida`, due at `dataVencimento`, accruing
      `jurosPercentual` percent of the principal per whole day late. */
  datatype Cliente = Cliente(
    id: string,
    nome: string,
    telefone: string,
    cpf: string,
    endereco: Option<string>,
    valorDivida: real,
    dataVencimento: int,
    dataCadastro: int,
    jurosPercentual: real,
    status: Status,
    observacoes: Option<string>,
    produtoComprado: Option<string>)

  /** A cash movement, optionally tied to a customer by id. */
  datatype Transacao = Transacao(
    id: string,
    clienteId: Option<string>,
    tipo: Tipo,
    valor: real,
    descricao: string,
    data: int,
    categoria: Option<string>)

  /** A business expense. `recorrente` is informational only. */
  datatype Despesa = Despesa(
    id: string,
    nome: string,
    categoria: Categoria,
    valor: real,
    data: int,
    observacao: Option<string>,
    recorrente: Option<bool>)

  /** The global summary. `despesasPorCategoria` is the object literal built by
      `gerarRelatorio`, kept as key/value pairs in key insertion order. */
  datatype RelatorioFinanceiro = RelatorioFinanceiro(
    totalEntradas: real,
    totalSaidas: real,
    lucroLiquido: real,
    clientesAtivos: nat,
    clientesVencidos: nat,
    valorTotalCredito: real,
    despesasPorCategoria: seq<(Categoria, real)>,
    totalDespesas: real)

  /** The report for one calendar month. */
  datatype RelatorioMensal = RelatorioMensal(
    mes: string,
    ano: int,
    totalRecebido: real,
    totalDividasPendentes: real,
    totalDespesas: real,
    lucroFinal: real,
    clientesPagaram: nat,
    clientesInadimplentes: nat)

  /** The application settings singleton. */
  datatype ConfiguracaoApp = ConfiguracaoApp(
    nomeEmpresa: string,
    telefoneEmpresa: string,
    mensagemCobrancaPadrao: string,
    jurosPercentualPadrao: real,
    notificacoesAtivas: bool)

  /** The string literal a category is stored as. */
  function CategoriaValue(c: Categoria): string {
    match c
    case Agua => "agua"
    case Luz => "luz"
    case Carro => "carro"
    case Alimentacao => "alimentacao"
    case Aluguel => "aluguel"
    case Internet => "internet"
    case Telefone => "telefone"
    case Outros => "outros"
  }

  /** The category a stored string literal names, if any. */
  function ParseCategoria(s: string): (r: Option<Categoria>)
    ensures r.Some? ==> CategoriaValue(r.value) == s
  {
    if s == "agua" then Some(Agua)
    else if s == "luz" then Some(Luz)
    else if s == "carro" then Some(Carro)
    else if s == "alimentacao" then Some(Alimentacao)
    else if s == "aluguel" then Some(Aluguel)
    else if s == "internet" then Some(Internet)
    else if s == "telefone" then Some(Telefone)
    else if s == "outros" then Some(Outros)
    else None
  }

  /** Every category's literal reads back as that category, so the literals are distinct. */
  lemma ParseCategoriaValue(c: Categoria)
    ensures ParseCategoria(CategoriaValue(c)) == Some(c)
  {
  }
}
